=== FILE: README.md ===
# Mpox dashboard: a Dafny model of the table logic

The Mpox dashboard is a Streamlit application. It loads one spreadsheet of per-country
outbreak reports (cases, deaths, vaccine doses, community health workers, surveillance
sites and laboratories, clades, report dates) and shows it on several pages. Underneath the
pages sits pure table logic:

- a schema normaliser that maps column aliases onto canonical names;
- a row filter and its description;
- per-country group sums and the ratios built from them;
- a weekly case series with a cumulative-or-incident fallback;
- a rule-based priority score with a what-if re-score;
- the rule engines that turn a metric row into ordered messages, flags, personas, badges
  and data-quality captions.

This project models that logic in Dafny and proves what each piece promises.

Modelling conventions:

- **Rows.** A table is a list of column names plus a `seq<Row>`. Every numeric cell is an
  `Option<real>`: `None` is a missing cell or one the parser rejected.
- **Dates.** A date is a day number, with day 0 being 1970-01-01. The time of day is
  dropped everywhere, including in the date range the filter note prints.
- **Parsing.** `pd.to_numeric` and `pd.to_datetime` with `errors="coerce"` are left
  abstract. They become the `Schema.Parsers` record of functions from a cell to an
  optional value.
- **Floats.** Floating-point results that can be non-finite are a `Floats.Num`: a finite
  real, +inf, -inf or NaN. This lets the model tell apart the places that map a division
  by zero to "unknown" from the places that leave an infinity or a NaN in the table.
  Python's `min`/`max` keep their first argument when a comparison with NaN fails. The
  model follows that rule, and it is why a 0/0 CFR scores exactly 100.
  `round(x, n)` is `Floats.Round`. It multiplies by ten n times (`Shift`), rounds to an
  integer and divides back (`Unshift`).
- **Clock.** Today's date is a parameter wherever the source reads the clock.
- **Text.** String literals are the characters the program holds. The persona badges
  start with four mis-encoded characters (UTF-8 emoji bytes read back as Windows-1252),
  and the model keeps them as they are.

The modules follow the source files:

- **Base, Floats, Grouping, Table, Rules:** shared data model and helpers.
- **Schema, Filter:** `utils/data.py`.
- **Weekly, Scoring, Insights:** `views/insights_view.py`.
- **Recommendations:** `views/recommendations.py`.
- **Findings:** `views/findings.py`.
- **Overview, Kpi:** `views/overview.py`.
- **Vaccination:** `views/vaccination.py`.
- **Workforce:** `views/workforce.py`.
- **DeepDives:** `views/deep_dives.py`.

## Model

| member | source | states |
|---|---|---|
| Floats.Div | views/insights_view.py:64-69 | numpy division under `errstate(ignore)`: finite exactly when the divisor is non-zero, and then the quotient times the divisor is the dividend |
| Floats.GuardedDiv | views/workforce.py:17-18 | the guarded ratio (`replace(0, nan)` or `inf -> nan`) is unknown exactly when the denominator is 0, and otherwise a true quotient |
| Floats.GuardedIsKnownDiv | views/deep_dives.py:87-89 | both guarding idioms equal the unguarded numpy division with non-finite results mapped to unknown |
| Floats.Known | views/insights_view.py:68 | `replace([inf, -inf], nan)` followed by `notna`: only finite values are known |
| Floats.PyMin | views/insights_view.py:79-80 | Python `min`: the second argument replaces the first only when it compares smaller, so it returns one of its arguments and the ordinary minimum on finite values |
| Floats.PyMax | views/insights_view.py:89-93 | Python `max`, symmetric to `min` |
| Floats.Trunc | views/findings.py:18 | `int(x)` truncates toward zero, for both signs |
| Floats.RoundHalfEven | views/overview.py:8 | the `.0f` format rounds to an integer within half a unit |
| Floats.Round | views/findings.py:26 | `round(x, n)`: a whole number of units of 10^-n, at most half a unit from x |
| Grouping.KeysOf | views/overview.py:59 | the groups of a `groupby` are the distinct present keys: a key is a group exactly when some row carries it |
| Grouping.Totals | views/workforce.py:12-16 | one group sum per key, each being the sum of that key's rows |
| Grouping.GroupSumsCoverAll | views/workforce.py:12-16 | the group sums add up to the sum over every keyed row |
| Grouping.SortedKeys | views/insights_view.py:47-48 | the week keys of a series come out ascending and are exactly the present keys |
| Grouping.SortedGroupSumsCoverAll | views/insights_view.py:47-48 | the weekly buckets in ascending order also account for every keyed row |
| Grouping.SortDesc | views/insights_view.py:96 | `sort_values(ascending=False)` yields a descending permutation of its input |
| Grouping.TopKSpec | views/deep_dives.py:194 | `sort_values(...).head(k)` keeps min(k, n) items, sorted descending; kept and left-over items together are a permutation of the input; no left-over item scores above a kept one |
| Table.Countries | views/workforce.py:12 | the groups of `groupby("country")` are every non-missing country exactly once |
| Table.CountrySumsAddUp | views/workforce.py:12-16 | when every row names its country, the per-country sums add up to the column sum |
| Table.MaxFor | views/insights_view.py:62 | the per-country `max` is unknown when every value is missing, and otherwise an upper bound attained by some row |
| Table.LatestDay | views/recommendations.py:27 | `max` over optional dates is unknown only when all are missing, and otherwise is the latest date |
| Table.DataAge | views/overview.py:71-76 | the age of the newest report on a given day is known exactly when there is a report_date column with some date; it counts days from the newest date |
| Table.DatedCountBounds | views/recommendations.py:17-25 | a `("report_date", "count")` proxy lies between 0 and the group's row count |
| Table.MeanFor | views/deep_dives.py:91 | the per-country mean is known exactly when some value is present, and is then the present values' sum divided by their count |
| Table.MissingCount | views/overview.py:81 | the number of missing cells is positive exactly when some cell is missing |
| Table.TitleLabel | views/overview.py:83 | `replace('_', ' ').title()` keeps the length of the name |
| Table.MissingNotesSpec | views/overview.py:79-83 | a missing-share note is emitted for exactly the listed fields whose column exists and has a missing cell, in the listed order, each with a share in (0, 100] |
| Table.OneDecimal | views/overview.py:83 | the `.1f` format ends in one decimal digit after a point |
| Table.DqCaption | views/vaccination.py:49-50 | the caption is absent exactly when no field is noted, and otherwise it is the notes joined by " • " |
| Rules.FiredInRuleOrder | views/insights_view.py:178-188 | the messages of the fired rules keep rule order, one per firing rule |
| Rules.FiredIffFires | views/insights_view.py:178-188 | a message that only rule k carries is listed exactly when rule k fires |
| Rules.OrElse | views/insights_view.py:189-190 | the fallback message appears alone exactly when nothing else was listed |
| Schema.ExpectedColumnsWellFormed | utils/data.py:9-27 | the alias table lists every canonical field with a non-empty candidate list that starts with its own name |
| Schema.LowerIndexSpec | utils/data.py:32 | the lower-case index holds every lower-cased header name, each mapped to the last column spelled that way |
| Schema.CaseVariantsCollide | utils/data.py:32-39 | columns "country" and "Country": the index keeps "Country", which is renamed, so the table ends up with two columns named "country" |
| Schema.FirstMatch | utils/data.py:34-38 | a canonical field picks the column of its first candidate that matches any column up to case, and picks nothing when none matches |
| Schema.MappingDomain | utils/data.py:31-38 | a column is a key of the rename dictionary exactly when some canonical field claims it |
| Schema.MappingLastClaimWins | utils/data.py:33-37 | a column claimed by several fields gets the name of the last field in table order |
| Schema.Rename | utils/data.py:39 | `df.rename(columns=m)` renames exactly the columns that are keys of `m` and keeps the order |
| Schema.RenamedOnlyByFirstMatchingAlias | utils/data.py:30-39 | a column is renamed only to a canonical name whose first matching alias equals it up to case, and only if it is the last column with that spelling |
| Schema.UnmatchedKeepsName | utils/data.py:39 | a column matching no alias keeps its name |
| Schema.MatchedIsRenamed | utils/data.py:33-39 | a field whose first matching alias picks a column that no later field picks appears under its canonical name |
| Schema.UnmatchedCanonicalAbsent | utils/data.py:33-39 | a canonical field none of whose aliases matches is simply absent afterwards, with no error |
| Schema.Duplicated | utils/data.py:71-72 | the canonical names that occur twice in the standardised header, and only those |
| Schema.Standardize | utils/data.py:30-39 | `_standardize_columns` keeps one header name per column; RenamedOnlyByFirstMatchingAlias and MatchedIsRenamed say which are renamed |
| Schema.Mapping | utils/data.py:33-38 | the rename dictionary; its keys are stated by MappingDomain and its values by MappingLastClaimWins |
| Schema.LoadData | utils/data.py:66-79 | `load_data` fails exactly when a canonical name repeats after renaming, naming one that does, and otherwise keeps one row per record |
| Schema.Coerce | utils/data.py:42-63 | the coerced table has one row per record; CoercedFieldsAreParsedCells states each field |
| Schema.DerivedCfr | utils/data.py:78 | a derived CFR is known exactly when deaths and confirmed are known and confirmed is non-zero, and then it is deaths per hundred cases |
| Schema.WeekStart | utils/data.py:75 | the `W-SUN` week of a day starts on the Monday at most six days before it |
| Schema.Civil | utils/data.py:76 | the month of a day number lies in 1..12 |
| Schema.LoadIsCoerceOfStandardized | utils/data.py:71-72 | loading coerces the standardised header, and it fails only when a canonical name repeats |
| Schema.BuildRowField | utils/data.py:60-62 | each numeric field of a row is the parser's reading of its column's cell, or missing when the column is absent |
| Schema.CoercedFieldsAreParsedCells | utils/data.py:42-63 | every row of the built table follows the column discipline, and every numeric field other than a derived CFR is the parsed cell |
| Schema.CfrDerivation | utils/data.py:77-78 | the CFR column exists after loading iff it existed after renaming or deaths and confirmed both exist; a derived CFR is deaths/confirmed*100, unknown on a missing operand or zero cases; an aliased CFR column is kept as parsed |
| Schema.CalendarOnlyWithValidDate | utils/data.py:73-76 | the calendar columns exist iff report_date exists with some valid date; then each dated row gets its own date and week start |
| Schema.DuplicateRejected | utils/data.py:71-72 | loading fails only by naming a canonical column that occurs twice, and succeeds whenever none repeats |
| Filter.FilterRowsSpec | utils/data.py:89-99 | the kept rows are an order-preserving subsequence holding exactly the input rows that pass every active dimension |
| Filter.FilterRows | utils/data.py:89-99 | the row filter; FilterRowsSpec states which rows it keeps and in what order |
| Filter.FilterData | utils/data.py:82-99 | `filter_data` keeps the columns and exactly the passing rows, in order |
| Filter.FilterIdempotent | utils/data.py:89-99 | filtering twice with one selection is filtering once |
| Filter.FilterMonotone | utils/data.py:89-99 | enlarging any selection never removes a row |
| Filter.OpenSelectionKeepsAll | utils/data.py:90-98 | with every dimension empty (or its column absent) the table is returned unchanged |
| Filter.MissingCladeNeverPasses | utils/data.py:95-96 | under an active clade filter a row with a missing clade is dropped, even when "Unknown" is selected |
| Filter.DateRangeInclusive | utils/data.py:90-92 | under an active date filter an undated row is dropped, and a row on either end of the range passes |
| Filter.NoteParts | utils/data.py:108-116 | one part per active dimension; the date part comes first, the countries part after it, the clades part after both, and the notes part last, each with its own text |
| Filter.MakeFilterNote | utils/data.py:102-119 | the note is the "Showing all data" text exactly when every dimension is open |
| Filter.CountriesOnlyNote | utils/data.py:108-119 | a selection of countries alone reads "Filters → Countries: …" and nothing more |
| Filter.FilterNoteDefault | utils/data.py:117-119 | the "Showing all data" text appears exactly when no dimension is active; otherwise the note starts with "Filters → " |
| Filter.FilterNoteOrder | utils/data.py:108-119 | with every dimension active the parts come as date, countries, clades, notes, joined by " \| " |
| Filter.ListPartTruncates | utils/data.py:112-114 | only the first five choices are shown, and the part ends in "…" when there are more |
| Filter.ListPartShort | utils/data.py:112-114 | up to five choices are all shown, with no ellipsis |
| Weekly.SourceOf | views/insights_view.py:28-31 | the weekly series comes from weekly_new_cases when present, otherwise from confirmed cases when report_date exists, otherwise there is none |
| Weekly.WeeklySeries | views/insights_view.py:27-51 | a country's weekly series, empty without a source column; IncidentWeeklyTotal and CumulativeWeeklyTotal state what it adds up to |
| Weekly.WeeklyFromConfirmed | views/insights_view.py:31-48 | the weekly series built from daily confirmed totals; CumulativeWeeklyTotal and ConfirmedSeriesNonEmpty state it |
| Weekly.ReportedEntries | views/insights_view.py:22-30 | each of the country's dated rows is keyed by the week start of its report date; undated rows drop out |
| Weekly.DailyEntries | views/insights_view.py:31-34 | each of the country's rows is keyed by its report day and carries its confirmed cases |
| Weekly.Diffs | views/insights_view.py:39-40 | `diff().fillna(0)`: the first change counts as 0, then day-over-day differences |
| Weekly.ClipAtZero | views/insights_view.py:43 | `clip(lower=0)` is non-negative and keeps non-negative values |
| Weekly.WeekEntries | views/insights_view.py:47 | each day is keyed by the start of its week and carries that day's incidents |
| Weekly.Growth4w | views/insights_view.py:71-75 | growth over the last (up to) four weeks is unknown exactly without a series, and has the sign of last minus first |
| Weekly.GrowthOfSingleWeek | views/insights_view.py:74 | a single week gives growth 0 |
| Weekly.GrowthUsesLastFourWeeks | views/insights_view.py:73 | weeks before the last four do not matter |
| Weekly.GrowthAtLeastMinusOne | views/insights_view.py:74 | over non-negative counts growth is at least -1 |
| Weekly.NonDecreasingLooksCumulative | views/insights_view.py:39-41 | a never-decreasing daily series is detected as cumulative |
| Weekly.IncidentsByMode | views/insights_view.py:41-46 | cumulative-mode incidents are never negative and start at 0; in the other mode the daily values pass through unchanged |
| Weekly.CumulativeIncidentsTelescope | views/insights_view.py:43 | for a never-decreasing series the incidents add up to the rise from the first to the last report day |
| Weekly.WeeklyTotalsKeepIncidents | views/insights_view.py:47-48 | bucketing by week loses nothing: the weekly totals add up to the daily incidents |
| Weekly.IncidentWeeklyTotal | views/insights_view.py:46-48 | in incident mode the weekly series carries exactly the country's dated confirmed cases |
| Weekly.CumulativeWeeklyTotal | views/insights_view.py:43-48 | for a never-decreasing daily total the weekly series carries its rise from the first to the last report day |
| Weekly.GrowthKnownIffDatedRows | views/insights_view.py:28-51 | a country has a known growth exactly when some source of a series exists and it has a dated row |
| Weekly.ReportedSeriesNonEmpty | views/insights_view.py:29-30 | the reported series of a country is non-empty exactly when it has a dated row |
| Weekly.ConfirmedSeriesNonEmpty | views/insights_view.py:31-50 | the confirmed-derived series is non-empty exactly when the country has a dated row |
| Scoring.CaseBurden | views/insights_view.py:79 | the case burden is at most 25, and non-negative for non-negative cases |
| Scoring.CfrBurden | views/insights_view.py:80 | the CFR burden is NaN exactly for a NaN CFR, -inf exactly for -inf, and at most 25 when finite |
| Scoring.Gap | views/insights_view.py:81-86 | a capacity gap is 0 for an unknown ratio and lies in (0, 15] for a known one |
| Scoring.Equity | views/insights_view.py:87-89 | allocation equity is never NaN or -inf, and non-negative when finite |
| Scoring.Trend | views/insights_view.py:90-92 | the growth component lies in [0, 10] and is 0 for unknown growth |
| Scoring.Clamp | views/insights_view.py:93 | the clamp lies in [0, 100]: NaN and +inf give 100, -inf gives 0, and finite values are clipped |
| Scoring.ScoreRow | views/insights_view.py:77-93 | `score_row` always lies in [0, 100] |
| Scoring.RawTotal | views/insights_view.py:77-92 | the running total before the clamp; ComponentsAddUpToScore equates it with the breakdown's float sum |
| Scoring.ScoreComponents | views/insights_view.py:108-121 | the burden components are at most 25 and the gap components lie in [0, 15] |
| Scoring.ComponentsUnguarded | views/insights_view.py:113-120 | each `notna` guard of the breakdown yields what the unguarded component yields anyway |
| Scoring.ComponentsAddUpToScore | views/insights_view.py:77-121 | the breakdown adds up to the score's running total, and the score is the clamped sum of the components |
| Scoring.NanCfrScoresFull | views/insights_view.py:80-93 | a NaN CFR makes the score exactly 100, whatever the other metrics are |
| Scoring.ZeroOverZeroCfrScoresFull | views/insights_view.py:65-93 | zero deaths over zero cases scores exactly 100 |
| Scoring.WorkedExample | views/insights_view.py:77-93 | 5000 cases, CFR 2.5%, 0.2 and 0.01 per case, 1500 doses per 1000 and growth 0.2 score 49.5 |
| Scoring.WorkedExampleComponents | views/insights_view.py:108-121 | that example breaks down as 12.5, 12.5, 7.5, 15, 0 and 2 |
| Scoring.ScoreIsComponentTotal | views/insights_view.py:77-121 | a breakdown of finite components summing into [0, 100] is the score itself |
| Scoring.InfiniteCfrAloneScores25 | views/insights_view.py:65-93 | an infinite CFR and allocation with every other input unknown score exactly 25 |
| Scoring.InfiniteCfrWithZeroCapacityScores55 | views/insights_view.py:77-93 | the same CFR with zero CHWs and surveillance per case and ample allocation scores 55 |
| Scoring.CaseBurdenMonotone | views/insights_view.py:79 | more cases never lower the case burden |
| Scoring.CfrBurdenMonotone | views/insights_view.py:80 | a higher CFR never lowers the CFR burden |
| Scoring.GapAntitone | views/insights_view.py:81-86 | a higher per-case ratio never raises its gap |
| Scoring.EquityAntitone | views/insights_view.py:87-89 | a higher allocation per 1000 never raises equity |
| Scoring.TrendMonotone | views/insights_view.py:90-92 | higher growth never lowers the trend component |
| Scoring.ClampMonotone | views/insights_view.py:93 | the clamp is monotone |
| Scoring.ComponentSumMonotone | views/insights_view.py:78-92 | component-wise larger breakdowns have a larger float sum |
| Scoring.ScoreMonotone | views/insights_view.py:77-93 | raising cases, CFR or growth, or lowering either per-case ratio or the allocation, never lowers the score |
| Insights.SumOrCases | views/insights_view.py:54-61 | a country's sum of a field, or of confirmed cases when the field's column is absent |
| Insights.LatestFor | views/insights_view.py:52-75 | a country's row holds its sums with confirmed-case stand-ins for missing columns, its maximum coverage, the ratios built from the sums, and its weekly growth |
| Insights.WithRatios | views/insights_view.py:64-69 | CFR and allocation per 1000 divide without a guard, per-case ratios are unknown at zero cases, and uptake is unknown at zero allocation |
| Insights.CountryTable | views/insights_view.py:17-63 | `country_latest` exists exactly when country and confirmed_cases do, with one row per country |
| Insights.PriorityScore | views/insights_view.py:95 | every country's priority score lies in [0, 100] |
| Insights.Ranking | views/insights_view.py:96 | the ranking is sorted by score, descending, and is a permutation of the scored rows |
| Insights.RankingScores | views/insights_view.py:95-96 | every country appears in the ranking, each with its own score |
| Insights.RecMessages | views/insights_view.py:177-190 | a country always gets at least one recommendation |
| Insights.RecForRowSpec | views/insights_view.py:177-191 | each message appears iff its threshold is crossed (unknown metrics never fire); "Maintain" appears iff no rule fires, and then alone; otherwise the messages keep rule order |
| Insights.RecForRow | views/insights_view.py:177-191 | the messages joined by " • "; RecForRowSpec states which messages appear and in what order |
| Insights.UnknownMetricsNeverFire | views/insights_view.py:179-190 | a row whose metrics are all unknown gets only the maintenance message |
| Insights.RecForRowExample | views/insights_view.py:177-191 | a concrete row gets the clinical, workforce and uptake messages joined by " • " |
| Insights.AlertsSpec | views/insights_view.py:264-272 | the alerts come in the order CFR, allocation, CHWs, surveillance, each exactly when its threshold is crossed |
| Insights.Alerts | views/insights_view.py:264-274 | at most four alerts; AlertsSpec states which |
| Insights.AlertsMatchRecommendations | views/insights_view.py:264-272 | each alert is raised exactly when the matching recommendation is made |
| Insights.CaseDivisor | views/insights_view.py:216-218 | `max(total_cases, 1)` is at least 1, and is the case count from one case on |
| Insights.Simulate | views/insights_view.py:211-218 | the simulated row keeps cases, CFR and growth, and always has known per-case ratios and a finite allocation |
| Insights.ProjectedScore | views/insights_view.py:219 | the projected score lies in [0, 100] |
| Insights.MoreResourcesNeverRaiseScore | views/insights_view.py:205-219 | moving any slider up never raises the projected score |
| Insights.SameGapSameScore | views/insights_view.py:81-86 | the score reads a per-case ratio only through its gap |
| Insights.NoAdjustmentKeepsScore | views/insights_view.py:211-220 | with at least one case, a simulation with every slider at 0 reproduces the country's own score |
| Insights.ZeroCaseCountryScore | views/insights_view.py:64-93 | a country with deaths, allocated doses and no cases, CHWs, sites or labs scores 25 |
| Insights.ZeroCaseCountryProjection | views/insights_view.py:211-219 | the same country, simulated with every slider at 0, projects 55 |
| Insights.ZeroCaseBaselineMismatch | views/insights_view.py:211-219 | for such a country the simulator's zero-slider projection exceeds the country's own score by 30 |
| Insights.SimulateConsistent | views/insights_view.py:211-218 | the corrected simulation keeps cases, CFR and growth and applies the country table's own ratio rules to the adjusted sums |
| Insights.ConsistentNoAdjustmentKeepsScore | views/insights_view.py:211-220 | with the corrected simulation every country, zero-case ones included, keeps its own score at zero sliders |
| Insights.ConsistentAgreesFromOneCase | views/insights_view.py:216-218 | with at least one case the corrected simulation is the simulator itself |
| Recommendations.SumOrCount | views/recommendations.py:17-25 | a summed field, or the country's count of dated rows when the column is absent |
| Recommendations.CountProxyBounds | views/recommendations.py:17-25 | a count proxy lies between 0 and the country's row count |
| Recommendations.CoverageOrCount | views/recommendations.py:26 | latest_coverage is the country's maximum coverage, or its dated-row count without a coverage column |
| Recommendations.LastReportOf | views/recommendations.py:27 | last_report is the country's latest report date, or its row count without a report_date column |
| Recommendations.SummaryFor | views/recommendations.py:16-34 | a country's summary holds its sums or count proxies and its unguarded ratios |
| Recommendations.CountrySummary | views/recommendations.py:11-42 | the page stops without a country column; with no rows the records JSON reads back without columns and the grouping fails; otherwise the summary fails exactly when a count proxy is needed but report_date is absent, and else gives one summary per country |
| Recommendations.EmptySelectionFailsSummary | views/recommendations.py:11-42 | a table with country and report_date but no rows fails the grouping, while one row with a country is summarised |
| Recommendations.ZeroCasesGiveNonFiniteRatios | views/recommendations.py:29-34 | with zero cases no per-case ratio is finite: CFR is NaN exactly without deaths, and each other ratio is an infinity with its numerator's sign or NaN |
| Recommendations.UnguardedAgreesWithGuarded | views/recommendations.py:29-34 | mapping the unguarded ratios' non-finite values to unknown gives the guarded ratios of the insights page |
| Recommendations.RecommendationsFor | views/recommendations.py:45-66 | the list is never empty |
| Recommendations.RecommendationIffRule | views/recommendations.py:48-63 | rule k's message is listed exactly when rule k fires |
| Recommendations.RecommendationsSpec | views/recommendations.py:45-63 | each of the five threshold messages appears exactly when its threshold is crossed, and the data prompt exactly when coverage is unknown |
| Recommendations.RecommendationsFallback | views/recommendations.py:64-66 | "Maintain" appears exactly when no rule fires, and then alone; otherwise the messages keep rule order |
| Recommendations.ZeroCaseWorkforceRecommendation | views/recommendations.py:31-52 | a zero-case country is told to surge CHWs only when its CHW total is negative |
| Recommendations.Quoted | views/recommendations.py:229 | each flag is shown in back-quotes |
| Recommendations.KeyFlagsLine | views/recommendations.py:228-229 | the "Key flags" line appears exactly when some flag is raised |
| Recommendations.FlagIffRule | views/recommendations.py:217-227 | flag k is raised exactly when its rule fires |
| Recommendations.KeyFlags | views/recommendations.py:217-227 | at most one flag per rule; FlagIffRule states which |
| Recommendations.KeyFlagsMatchRecommendations | views/recommendations.py:217-227 | each key flag is raised exactly when the matching recommendation is made |
| Recommendations.NoKeyFlagsLine | views/recommendations.py:217-229 | the key-flag line is missing exactly when the recommendations are only the maintenance message or only the data prompt |
| Recommendations.ClusterCount | views/recommendations.py:81-85 | the cluster count lies in 2..4: it is 4 from four countries on and n for 2 to 4 countries |
| Recommendations.ClusterCountExceedsCountries | views/recommendations.py:81-88 | with fewer than two countries the cluster count exceeds the number of countries |
| Recommendations.FittingClusterCount | views/recommendations.py:81-85 | the corrected count never exceeds the number of countries or 4 |
| Recommendations.FittingClusterCountAgrees | views/recommendations.py:81-85 | the corrected count differs from the source's only where the source's cannot be fitted |
| Recommendations.FillNa | views/recommendations.py:79 | `fillna(0.0)` makes NaN 0 and leaves infinities in place |
| Recommendations.ScalerInput | views/recommendations.py:71-79 | the matrix handed to the scaler carries the country's cases as its first feature |
| Recommendations.ZeroCaseScalerInputInfinite | views/recommendations.py:29-87 | a zero-case country with deployed CHWs puts +inf into the scaler's input |
| Recommendations.FiniteScalerInput | views/recommendations.py:79-87 | the corrected input is all finite |
| Recommendations.FiniteScalerInputAgrees | views/recommendations.py:79-87 | the corrected input equals the source's whenever the source's is finite |
| Recommendations.PersonaIsFirstFiring | views/recommendations.py:96-107 | the persona is named by the first of four median comparisons that holds, and is "Balanced" exactly when none does |
| Recommendations.PersonaName | views/recommendations.py:96-107 | the persona of a cluster centre; PersonaIsFirstFiring states the rule order |
| Recommendations.NaNMediansGiveBalanced | views/recommendations.py:98-107 | all-NaN medians fail every comparison, so every cluster is "Balanced" |
| Recommendations.NamesDistinct | views/recommendations.py:98-106 | no two personas share a name |
| Recommendations.PersonaOfNamed | views/recommendations.py:112-141 | a name selects a named persona exactly when it is that persona's name |
| Recommendations.StepsSizes | views/recommendations.py:112-141 | the high-burden playbook has four steps, the other named ones three, and "Balanced" gets the two-step default |
| Recommendations.Playbook | views/recommendations.py:112-141 | every playbook has two to four steps; PlaybookSizes says which has how many |
| Recommendations.PlaybookSizes | views/recommendations.py:112-141 | any other name, "Balanced" included, gets the two-step default |
| Recommendations.BadgeShowsPersona | views/recommendations.py:163-172 | a persona's badge is its four-character mis-encoded prefix, a space and its own name |
| Recommendations.BadgeText | views/recommendations.py:165-172 | the literal badge strings; BadgeTextIsIconAndName splits each into prefix, space and name |
| Recommendations.BalancedBadgeOnly | views/recommendations.py:163-172 | only "Balanced" has the "Balanced" badge text |
| Recommendations.BadgeDefaultsWithPlaybook | views/recommendations.py:163-172 | a name gets the "Balanced" badge exactly when it gets the default playbook |
| Recommendations.BadgesDistinct | views/recommendations.py:163-172 | different personas get different badges |
| Recommendations.AgeDays | views/recommendations.py:175-179 | as written: after the JSON round-trip every known last_report reads as a moment on 1970-01-01, so the age is the age of that day; a missing date stays unknown |
| Recommendations.ReportAge | views/recommendations.py:175-179 | corrected: the age is unknown without a report date, and otherwise is the days from the latest report to today |
| Recommendations.AgeIgnoresReportDate | views/recommendations.py:13-42 | as written, all dated countries get the same age, and it equals the corrected age only for a report dated 1970-01-01 |
| Recommendations.RecentReportFlaggedStale | views/recommendations.py:175-180 | on day 20000 a country last reporting on day 19995 is flagged stale as written, while its corrected age is 5 and it is not stale |
| Recommendations.ReportStaleIffOld | views/recommendations.py:175-180 | with the corrected age a country is stale exactly when its latest report is more than 28 days old, and never without a report date |
| Recommendations.Stale | views/recommendations.py:180 | `fillna(0) > 28`: stale exactly when the age is known and over 28 days |
| Recommendations.StaleStaysStale | views/recommendations.py:175-180 | under either age, a stale country stays stale as days pass without a report |
| Recommendations.KnownReportAlwaysStale | views/recommendations.py:175-180 | as written, from 1970-01-30 on every country with a known last_report is stale, dated or not |
| Recommendations.SortDirections | views/recommendations.py:181-182 | only the persona column sorts ascending |
| Findings.FreshnessBands | views/findings.py:48 | "Current" up to 7 days, "Recent" up to 30, "Stale" beyond |
| Findings.FreshnessOf | views/findings.py:48 | the freshness status of an age in days; FreshnessBands gives the bands |
| Findings.FreshnessMonotone | views/findings.py:48 | older data never looks fresher |
| Findings.CountryTotals | views/findings.py:19-21 | the per-country sums of a field, in group order |
| Findings.ArgMax | views/findings.py:20 | `idxmax` is the first position of the largest value |
| Findings.CfrOf | views/findings.py:25-26 | overall_cfr is set exactly when deaths are known and the case total is positive, and is deaths per hundred cases rounded to two decimals |
| Findings.UptakeOf | views/findings.py:38-39 | uptake_rate is set exactly when the allocation is positive, with missing vaccinations counted as 0, and is rounded to two decimals |
| Findings.CfrRoundsToHundredths | views/findings.py:26 | one death in three cases is stored as 33.33 |
| Findings.TotalOf | views/findings.py:17-39 | a total is set exactly when its column exists, and is the truncated column sum |
| Findings.ExecutiveSummary | views/findings.py:12-52 | the summary raises exactly when a grouped sum is asked of a table without countries |
| Findings.OverallCfrPresence | views/findings.py:23-26 | the CFR key is set exactly when deaths exist and the truncated case total is positive |
| Findings.UptakePresence | views/findings.py:36-39 | the uptake key is set exactly when the truncated allocation is positive; without a vaccinations column it is 0 |
| Findings.PeakCountry | views/findings.py:20-21 | the peak country is a country with the largest case total |
| Findings.FreshnessFromAge | views/findings.py:42-48 | the freshness keys follow the age of the newest report, and are absent without one |
| Findings.ActiveCountriesAlwaysZero | views/findings.py:93 | the summary never sets total_countries, so the card reads 0 |
| Findings.AlarmIffStale | views/findings.py:125 | the alarm colour goes with the "Stale" status and nothing else |
| Findings.EmptySelectionFails | views/findings.py:17-21 | a table with a confirmed-cases column but no country raises |
| Findings.TrendInsight | views/findings.py:225 | the trend insight is shown exactly for a series longer than 14 days |
| Findings.TrendBands | views/findings.py:229-234 | "Increasing" above 110% of the previous average, "Decreasing" below 90%, "Stable" in between |
| Findings.TrendOf | views/findings.py:229-234 | the trend of two averages; TrendBands gives the bands |
| Findings.TrendScaleFree | views/findings.py:229-234 | the trend depends only on the ratio of the averages |
| Findings.TrendFromZero | views/findings.py:229-234 | two zero averages are stable, and growth from zero is increasing |
| Findings.ResponseFor | views/findings.py:325-334 | per-country sums and the two unguarded per-case ratios |
| Findings.ResponseGaps | views/findings.py:323-334 | nothing without a country column, and a failure when one of the four aggregated columns is missing |
| Findings.Gaps | views/findings.py:373-376 | the gap table holds exactly the countries with an issue |
| Findings.GapsHaveIssues | views/findings.py:380-387 | a country is listed exactly when it has an issue; the issues come as CHW coverage, then vaccination rate |
| Findings.GapsInOrder | views/findings.py:373-376 | the gap list keeps the countries' order |
| Findings.ZeroCaseCountryNoChwIssue | views/findings.py:333-374 | a zero-case country with CHWs is never a CHW gap, since its ratio is +inf |
| Findings.CompletenessPct | views/findings.py:397-402 | completeness is NaN for an empty table, and otherwise the present share rounded to one decimal, in [0, 100] |
| Findings.BinsPartition | views/findings.py:424-426 | a finite completeness falls in exactly one bin, and NaN in none |
| Findings.RoundedShareReachesComplete | views/findings.py:401-426 | the bins see the rounded share: 89.96% present is stored as 90.0 and binned as complete |
| Findings.BinCountsCoverColumns | views/findings.py:424-431 | on a non-empty table the three bin counts add up to the number of columns; on an empty one all are 0 |
| Findings.ClinicalFlags | views/findings.py:461-467 | a country is flagged exactly when its unguarded CFR is above 3% |
| Findings.UptakeFlags | views/findings.py:479-485 | a country is flagged exactly when its unguarded uptake is below 70% |
| Findings.WorkforceFlags | views/findings.py:497-503 | a country is flagged exactly when its unguarded CHWs per case are below 0.5 |
| Findings.CardIf | views/findings.py:469-476 | a card appears exactly when its columns exist and some country qualifies, and it counts and lists those countries |
| Findings.StrategicCards | views/findings.py:458-512 | at most three cards |
| Findings.StrategicOrder | views/findings.py:458-512 | the cards come as Clinical Care, Vaccination, Workforce, and only Vaccination has Medium priority |
| Findings.ClinicalCardSpec | views/findings.py:461-476 | the clinical card appears exactly when some country's CFR is above 3%, and then lists exactly those countries in group order |
| Findings.ClinicalQualifiesAtZeroCases | views/findings.py:466-467 | a country with cases and no deaths never qualifies; one with deaths and zero cases always does |
| Findings.AffectedOf | views/findings.py:541 | the first five affected countries are shown, with "..." exactly when there are more |
| Findings.AffectedLineExample | views/findings.py:541 | six countries show five names and "..." |
| Findings.AllClearIffNoQualifyingCountry | views/findings.py:515-549 | the all-clear message appears exactly when no card does |
| Overview.TotalIfPresent | views/overview.py:13-16 | a total is present exactly when its column exists, and is its column sum |
| Overview.ComputeRollup | views/overview.py:11-25 | each roll-up key is present exactly when its source columns exist |
| Overview.RollupTotals | views/overview.py:13-21 | the totals are the sums of the present cells |
| Overview.RollupCfr | views/overview.py:17-19 | cfr_percent is NaN exactly when the confirmed total is 0, and otherwise deaths per hundred cases |
| Overview.SumSkipsMissing | views/overview.py:14 | a column sum is the sum of its present cells |
| Overview.PresentValues | views/overview.py:14 | the present cells of a column, each from some row, as many as the rows minus the missing ones |
| Overview.LatestIndex | views/overview.py:23 | a latest row exists exactly when some row has coverage |
| Overview.LatestCoverage | views/overview.py:22-24 | latest_coverage is unknown exactly when no row has coverage, and otherwise is the coverage of the latest row |
| Overview.LatestIsUnique | views/overview.py:23-24 | exactly one row is the latest, and its coverage is reported |
| Overview.UndatedCoverageWins | views/overview.py:23 | undated rows sort last, so the last undated row with coverage wins |
| Overview.DatedCoverageIsLatestDate | views/overview.py:23-24 | with every row dated, the coverage comes from a row of the latest date |
| Overview.Caption | views/overview.py:70-83 | the caption items are the freshness item when the age is known, then the missing-share notes |
| Overview.DqLineSpec | views/overview.py:69-85 | the caption is absent exactly when no age is known and nothing is missing; a freshness item leads it exactly when some row is dated |
| Overview.DqLine | views/overview.py:69-85 | the caption line; DqLineSpec states when it appears and what it holds |
| Kpi.KpiText | views/overview.py:7-8 | non-numbers pass through unchanged |
| Kpi.KpiTextOfNumber | views/overview.py:8 | without separators a finite number reads as its sign and the decimal text of its rounded magnitude |
| Kpi.GroupedDigits | views/overview.py:8 | removing the thousands separators gives back the plain decimal text |
| Kpi.GroupedCommas | views/overview.py:8 | a comma stands exactly at every fourth place counted from the right |
| Kpi.GroupedStartsWithDigit | views/overview.py:8 | the grouped text starts with a digit |
| Kpi.MissingKeyShowsNan | views/overview.py:33-41 | a missing roll-up key reaches the card as NaN and shows as "nan" |
| Vaccination.Flows | views/vaccination.py:14-18 | one flow per country, each holding the country's three stage sums |
| Vaccination.FlowOf | views/vaccination.py:14-18 | one country's allocated, deployed and administered sums |
| Vaccination.RatePct | views/vaccination.py:19-21 | a rate is unknown exactly at a zero denominator, and otherwise is the numerator per hundred |
| Vaccination.RatesOf | views/vaccination.py:19-21 | deployment, administration and uptake rates, each unknown on its zero denominator |
| Vaccination.UptakeIsChained | views/vaccination.py:19-21 | uptake is deployment times administration |
| Vaccination.StockGapsAddUp | views/vaccination.py:55-56 | the two stock gaps add up to the allocated doses not administered |
| Vaccination.Alerts | views/vaccination.py:57-63 | at most three alerts |
| Vaccination.AlertLine | views/vaccination.py:64-65 | the alert line appears exactly when some alert fires, prefixed "Alerts: " and joined by " • " |
| Vaccination.AlertsSpec | views/vaccination.py:57-63 | each alert appears exactly when its check holds, in the order negatives, rates, excess |
| Vaccination.ExcessIffRateOver | views/vaccination.py:56-62 | the excess check trips exactly when the administration rate exceeds 100% by more than one dose's share |
| Vaccination.VaccinationView | views/vaccination.py:10-65 | the tab shows nothing without the four columns; otherwise it shows per-country flows, rates, the alert line and the caption |
| Vaccination.DqCaptionSpec | views/vaccination.py:43-50 | the caption names exactly the stage columns with a missing cell, in stage order |
| Workforce.StaffingOf | views/workforce.py:12-18 | a country's sums, and per-case ratios that are unknown exactly at zero cases |
| Workforce.WorkforceView | views/workforce.py:8-42 | the tab shows nothing without the four columns; otherwise one staffing row per country and the caption |
| Workforce.StaffingAddsUp | views/workforce.py:12-16 | with every row naming its country, the per-country totals add up to the column totals |
| Workforce.PerCaseOrder | views/workforce.py:17 | between countries with equal positive cases the per-case ratio orders them by worker totals |
| Workforce.DqCaptionSpec | views/workforce.py:35-42 | the caption names exactly the three columns with a missing cell, in order |
| DeepDives.UptakePoints | views/deep_dives.py:13-21 | the scatter exists exactly with the flow columns; each point holds the country's flow, uptake and confirmed (or allocated) size |
| DeepDives.StockGaps | views/deep_dives.py:40-51 | one heatmap row per country holding its two stock gaps |
| DeepDives.StockGapsAgree | views/deep_dives.py:46-47 | a country's two gaps add up to its allocated doses not administered |
| DeepDives.CapacityFor | views/deep_dives.py:78-86 | sites or labs count as 0 when their column is absent |
| DeepDives.SurveillancePointOf | views/deep_dives.py:76-92 | surveillance per case is unknown at zero cases; the CFR comes from deaths when present, else from the mean CFR |
| DeepDives.SurveillanceBubbles | views/deep_dives.py:93-94 | only points with both values known are drawn |
| DeepDives.SurveillanceBubbleSpec | views/deep_dives.py:76-94 | a country is drawn exactly when it has cases and a CFR source yields a value |
| DeepDives.HeatColumnsSpec | views/deep_dives.py:111-135 | each heatmap column appears exactly when its source field exists, in the order trained, deployed, surveillance |
| DeepDives.HeatColumns | views/deep_dives.py:123-134 | at most three heatmap columns, and at least one whenever the heatmap can be drawn |
| DeepDives.HeatLabel | views/deep_dives.py:139-142 | the heading of each heatmap column |
| DeepDives.HeatValue | views/deep_dives.py:126-137 | a heat cell is the ratio at non-zero cases and 0 otherwise |
| DeepDives.HeatAgreesWithBubble | views/deep_dives.py:87-134 | the heatmap's surveillance cell equals the bubble chart's ratio where known |
| DeepDives.PositiveCfrs | views/deep_dives.py:192-193 | exactly the pairs with positive confirmed totals are kept, each with deaths per hundred cases |
| DeepDives.PairKeys | views/deep_dives.py:188 | a (country, clade) pair is a group exactly when some row has both |
| DeepDives.PairCfrsSpec | views/deep_dives.py:188-193 | a pair is ranked exactly when some row has it and its confirmed total is positive, with its CFR as score |
| DeepDives.PairCfrs | views/deep_dives.py:187-193 | the (country, clade) pairs with their CFR; PairCfrsSpec states which pairs |
| DeepDives.PairLabel | views/deep_dives.py:195 | the label is the country, " • " and the clade, and splits back into both |
| DeepDives.TopCladeCountries | views/deep_dives.py:187-194 | the chart exists exactly when country, clade, confirmed and deaths exist |
| DeepDives.TopCladeCountriesSpec | views/deep_dives.py:194 | at most 10 pairs, sorted by CFR descending, none outranked by a left-out pair |
| DeepDives.UnknownRanks | views/deep_dives.py:207-209 | exactly the countries with an unknown-clade row, each with its confirmed total over those rows |
| DeepDives.UnknownInAnyCase | views/deep_dives.py:207 | every spelling of "unknown" in any mix of letter cases counts as an unknown clade |
| DeepDives.NamedCladeIsKnown | views/deep_dives.py:207 | a named clade is known |
| DeepDives.UnknownCladeBars | views/deep_dives.py:206-218 | the chart needs the three columns, and reports no records exactly when no row has an unknown clade |
| DeepDives.UnknownCladeBarsSpec | views/deep_dives.py:207-209 | at most 12 countries, by confirmed cases descending, each with an unknown-clade row |
| DeepDives.DeployedOrder | views/deep_dives.py:224-228 | countries sorted by deployed doses, descending, each country exactly once: a reordering of the per-country sums, covering every country, with no item repeated |
| DeepDives.ReorderedRanksEachOnce | views/deep_dives.py:224-228 | any reordering of the per-country deployed sums lists every country once, each with its own sum |
| DeepDives.EfficiencyOf | views/deep_dives.py:240-246 | only countries with positive confirmed totals get a point, with allocation per 1000 cases |
| DeepDives.EfficiencySpec | views/deep_dives.py:245-246 | a country gets a bubble exactly when its confirmed total is positive |
| DeepDives.EfficiencyPoints | views/deep_dives.py:239-246 | the scatter exists exactly when country, allocation and confirmed columns exist |
| DeepDives.DefaultSelection | views/deep_dives.py:259 | the default selection is the fixed defaults present in the table, in default order |
| DeepDives.DqCaptionSpec | views/deep_dives.py:274-281 | the caption names exactly the five columns with a missing cell, in order |

## Left out

- Streamlit rendering, widgets, tabs, charts, captions' fixed help texts and download buttons: presentation only.
- Excel reading and `st.cache_data`: input/output and caching. The JSON round-trip before the cached summary is modelled in two effects: `last_report` comes back as a number (Recommendations.AgeDays), and a table without rows comes back without columns (Recommendations.CountrySummary). Otherwise the columns are taken to survive it unchanged.
- `pd.to_numeric`, `pd.to_datetime` and period-label formatting: the parsers are abstract functions, and periods are day numbers.
- The model has no clock. `Timestamp.now()` and `datetime.now()` become a `today` parameter, and time of day is ignored.
- IsolationForest anomaly detection, KMeans and StandardScaler fitting: foreign numeric models. Only the cluster count, the scaler's input and the naming rule applied to given centroids and medians are modelled.
- Rolling averages and `asfreq` resampling in the findings trend: the two averages are inputs of the trend classifier.
- The insights data-quality panel (views/insights_view.py:224-262): a dictionary of display strings built from the same missing shares the captions use.
- The geographic section of the findings page (views/findings.py:245-315): top-10 and top-3 chart lists around the per-country sums modelled elsewhere.
- The clade pie and the clade trend chart (views/deep_dives.py:160-181) and the mini chart of the recommendations page: chart inputs only.
- The recommendations and deep-dive multiselects, and the selection of countries shown on the recommendations page: the model keeps every country.
- The heatmap's "No workforce/surveillance metrics" branch (views/deep_dives.py:154-155): the column check before it makes it unreachable.
- Group order: pandas orders `groupby` keys by sorting them, while the model keeps first-appearance order. Sums and memberships are unaffected. `idxmax` ties follow the model's order. The workforce bar charts sort each ratio column before drawing, and the vaccination rates chart sorts by uptake, ascending (views/vaccination.py:35). The model leaves those orders to the charts, so Vaccination.VaccinationView keeps group order.
- `sort_values` is not stable by default. The model fixes a tie order, and the latest-coverage lemmas pin down the row only where ties cannot occur.
- Lower-casing is ASCII-only.
- DeepDives.UnknownCladeBars: the model has no column types. When the loaded clade column holds no strings at all, pandas reads it as floats. `.str.lower()` then raises AttributeError at views/deep_dives.py:207, where the model still treats the missing clades as unknown and draws bars.
- Columns outside the alias table are kept in the header but not modelled as row fields.
- Schema.LoadData: a canonical column that occurs twice after renaming is modelled as a `DuplicateColumn` load error. The source has no explicit check; pandas then hands back a frame where a series is expected and fails later.
- Recommendations.AgeDays: the staleness `try/except` around mixed time zones is not modelled, and the age ignores the time of day, so it can be one more than the source's `.dt.days` just after midnight.
- Floats.Round: the contract leaves the direction of an exact decimal tie open. Python rounds the nearest binary double, so at such a tie the result can differ from the exact real.
- Recommendations.ScalerInput: the contract pins down the case feature only, and the other features are stated through ZeroCaseScalerInputInfinite and FiniteScalerInputAgrees.
- Scoring.ScoreComponents: for non-finite CFR or allocation the component sum is stated as a float sum (ComponentsAddUpToScore), not a real one.
- Floats.RoundHalfEven: the contract bounds the rounding error but does not pin the tie direction.
- Table.OneDecimal and Table.TitleLabel: the contracts state the shape of the text, not every character.
- Vaccination.Alerts: the alert list is bounded here, and its content is stated in AlertsSpec.

## Findings

| source | as written | input that shows it | evidently intended | confidence | as-written member | corrected member |
|---|---|---|---|---|---|---|
| views/insights_view.py:62-69,211-219 | the what-if simulator divides by `max(total_cases, 1)`, while the country table leaves per-case ratios unknown at zero cases | a country with deaths, allocated doses and no cases, CHWs, sites or labs: score 25, zero-slider projection 55 | a simulation with every slider at 0 reproduces the country's own score | not executed | Insights.ZeroCaseBaselineMismatch | Insights.SimulateConsistent, Insights.ConsistentNoAdjustmentKeepsScore |
| views/recommendations.py:81-85 | with fewer than 4 countries the cluster count is `max(2, n)` | one country: 2 clusters for 1 sample, which KMeans cannot fit | at most n clusters | not executed | Recommendations.ClusterCountExceedsCountries | Recommendations.FittingClusterCount, Recommendations.FittingClusterCountAgrees |
| views/recommendations.py:29-34,79-87 | unguarded ratios leave +inf in the features and `fillna(0.0)` only replaces NaN | a country with zero cases and some deployed CHWs: deployed_per_case is +inf and StandardScaler rejects the matrix | non-finite features treated like missing ones | not executed | Recommendations.ZeroCaseScalerInputInfinite | Recommendations.FiniteScalerInput, Recommendations.FiniteScalerInputAgrees |
| views/recommendations.py:13-42,175-180 | the summary goes through `to_json`/`read_json`, which keeps `report_date` as epoch milliseconds; `pd.to_datetime` then reads `last_report` as nanoseconds | a country last reporting on day 19995, viewed on day 20000: `days_old` is about 20000 and the country is flagged stale | `days_old` counts days since the latest report, so this country is 5 days old and not stale | not executed | Recommendations.AgeDays, Recommendations.RecentReportFlaggedStale | Recommendations.ReportAge, Recommendations.ReportStaleIffOld |

=== FILE: base.dfy ===
/** Building blocks shared by every part of the dashboard model: optional values,
    sums of reals, Python's `str.join`, ASCII case folding and decimal digits. */
module Base {

  /** A value that may be unknown: a pandas NaN / NaT cell, a missing column
      entry, or a dictionary key that was never set. */
  datatype Option<+T> = None | Some(value: T) {

    /** The value, or `default` when unknown (pandas `fillna(default)`). */
    function GetOr(default: T): T {
      match this
      case Some(v) => v
      case None => default
    }
  }

  /** Sum of a sequence of reals, accumulated left to right. */
  function Sum(xs: seq<real>): real
    decreases |xs|
  {
    if |xs| == 0 then 0.0 else Sum(xs[..|xs| - 1]) + xs[|xs| - 1]
  }

  lemma {:induction false} SumAppend(xs: seq<real>, ys: seq<real>)
    ensures Sum(xs + ys) == Sum(xs) + Sum(ys)
    decreases |ys|
  {
    if |ys| == 0 {
      assert xs + ys == xs;
    } else {
      var ys' := ys[..|ys| - 1];
      assert (xs + ys)[..|xs + ys| - 1] == xs + ys';
      SumAppend(xs, ys');
    }
  }

  lemma {:induction false} SumNonNegative(xs: seq<real>)
    requires forall i :: 0 <= i < |xs| ==> xs[i] >= 0.0
    ensures Sum(xs) >= 0.0
    decreases |xs|
  {
    if |xs| > 0 {
      SumNonNegative(xs[..|xs| - 1]);
    }
  }

  /** No element occurs twice. */
  predicate Distinct<T(==)>(s: seq<T>) {
    forall i, j :: 0 <= i < j < |s| ==> s[i] != s[j]
  }

  /** A sequence without repeats holds each value at most once. */
  lemma {:induction false} DistinctCountsAtMostOne<T>(s: seq<T>, e: T)
    requires Distinct(s)
    ensures multiset(s)[e] <= 1
  {
    if |s| > 0 {
      var init := s[..|s| - 1];
      assert s == init + [s[|s| - 1]];
      assert Distinct(init);
      DistinctCountsAtMostOne(init, e);
      if s[|s| - 1] == e {
        assert e !in init;
      }
    }
  }

  /** A value at two positions is counted at least twice. */
  lemma TwoPositionsCountTwice<T>(s: seq<T>, i: int, j: int)
    requires 0 <= i < j < |s| && s[i] == s[j]
    ensures multiset(s)[s[i]] >= 2
  {
    assert s == s[..j] + [s[j]] + s[j + 1..];
    assert s[i] in s[..j];
  }

  /** Reordering a sequence without repeats gives a sequence without repeats. */
  lemma PermutationKeepsDistinct<T>(a: seq<T>, b: seq<T>)
    requires multiset(a) == multiset(b) && Distinct(b)
    ensures Distinct(a)
  {
    forall i, j | 0 <= i < j < |a|
      ensures a[i] != a[j]
    {
      if a[i] == a[j] {
        TwoPositionsCountTwice(a, i, j);
        DistinctCountsAtMostOne(b, a[i]);
        assert false;
      }
    }
  }

  /** Python `s[:k]`: the first `k` items, or all of them when there are fewer. */
  function Take<T>(s: seq<T>, k: nat): (r: seq<T>)
    ensures |r| == if |s| <= k then |s| else k
    ensures forall i :: 0 <= i < |r| ==> r[i] == s[i]
  {
    if |s| <= k then s else s[..k]
  }

  /** `a` is an order-preserving subsequence of `b` (greedy matching from the front). */
  predicate IsSubseq<T(==)>(a: seq<T>, b: seq<T>)
    decreases |b|
  {
    if |a| == 0 then true
    else if |b| == 0 then false
    else if a[0] == b[0] then IsSubseq(a[1..], b[1..])
    else IsSubseq(a, b[1..])
  }

  /** A subsequence of `b` stays one when an item is put in front of `b`. */
  lemma {:induction false} SubseqCons<T>(a: seq<T>, x: T, b: seq<T>)
    requires IsSubseq(a, b)
    ensures IsSubseq(a, [x] + b)
    decreases |b|, 1
  {
    if |a| > 0 && a[0] == x {
      assert ([x] + b)[1..] == b;
      SubseqOfTail(a[1..], b, a);
    } else if |a| > 0 {
      assert ([x] + b)[1..] == b;
    }
  }

  /** Dropping the head of a subsequence keeps it a subsequence. */
  lemma {:induction false} SubseqOfTail<T>(tail: seq<T>, b: seq<T>, a: seq<T>)
    requires |a| > 0 && tail == a[1..]
    requires IsSubseq(a, b)
    ensures IsSubseq(tail, b)
    decreases |b|, 0
  {
    if |tail| > 0 && |b| > 0 {
      if a[0] == b[0] {
        SubseqCons(tail, b[0], b[1..]);
        assert [b[0]] + b[1..] == b;
      } else {
        SubseqOfTail(tail, b[1..], a);
        SubseqCons(tail, b[0], b[1..]);
        assert [b[0]] + b[1..] == b;
      }
    }
  }

  /** Every item of a subsequence occurs in the sequence. */
  lemma {:induction false} SubseqMembers<T>(a: seq<T>, b: seq<T>)
    requires IsSubseq(a, b)
    ensures forall x :: x in a ==> x in b
    decreases |b|
  {
    if |a| > 0 && |b| > 0 {
      if a[0] == b[0] {
        SubseqMembers(a[1..], b[1..]);
        assert a == [a[0]] + a[1..];
      } else {
        SubseqMembers(a, b[1..]);
      }
    }
  }

  /** The items whose flag is set, in order (a boolean-mask selection `xs[keep]`). */
  function Select<T(!new)>(xs: seq<T>, keep: seq<bool>): (r: seq<T>)
    requires |keep| == |xs|
    ensures |r| <= |xs|
    ensures forall x :: x in r <==> exists i :: 0 <= i < |xs| && keep[i] && xs[i] == x
    decreases |xs|
  {
    if |xs| == 0 then []
    else
      var rest := Select(xs[1..], keep[1..]);
      assert forall i :: 0 < i < |xs| ==> xs[1..][i - 1] == xs[i] && keep[1..][i - 1] == keep[i];
      (if keep[0] then [xs[0]] else []) + rest
  }

  /** The selection keeps the order of `xs`. */
  lemma {:induction false} SelectSubseq<T(!new)>(xs: seq<T>, keep: seq<bool>)
    requires |keep| == |xs|
    ensures IsSubseq(Select(xs, keep), xs)
    decreases |xs|
  {
    if |xs| > 0 {
      var rest := Select(xs[1..], keep[1..]);
      SelectSubseq(xs[1..], keep[1..]);
      if keep[0] {
        assert Select(xs, keep) == [xs[0]] + rest;
        assert Select(xs, keep)[1..] == rest;
      } else {
        assert Select(xs, keep) == rest;
        SubseqCons(rest, xs[0], xs[1..]);
        assert [xs[0]] + xs[1..] == xs;
      }
    }
  }

  /** The separator the dashboard puts between listed messages. */
  const Bullet := " • "

  /** Python `sep.join(parts)`. */
  function Join(parts: seq<string>, sep: string): string
    decreases |parts|
  {
    if |parts| == 0 then ""
    else if |parts| == 1 then parts[0]
    else Join(parts[..|parts| - 1], sep) + sep + parts[|parts| - 1]
  }

  lemma JoinSingle(x: string, sep: string)
    ensures Join([x], sep) == x
  {
  }

  /** Appending one more part to a non-empty join adds exactly the separator and the part. */
  lemma JoinSnoc(parts: seq<string>, x: string, sep: string)
    requires |parts| > 0
    ensures Join(parts + [x], sep) == Join(parts, sep) + sep + x
  {
    assert (parts + [x])[..|parts + [x]| - 1] == parts;
  }

  lemma JoinThree(a: string, b: string, c: string, sep: string)
    ensures Join([a, b, c], sep) == a + sep + b + sep + c
  {
    JoinSnoc([a], b, sep);
    assert [a] + [b] == [a, b];
    JoinSnoc([a, b], c, sep);
    assert [a, b] + [c] == [a, b, c];
  }

  lemma JoinFour(a: string, b: string, c: string, d: string, sep: string)
    ensures Join([a, b, c, d], sep) == a + sep + b + sep + c + sep + d
  {
    JoinThree(a, b, c, sep);
    JoinSnoc([a, b, c], d, sep);
    assert [a, b, c] + [d] == [a, b, c, d];
  }

  /** ASCII lower-casing of one character. */
  function LowerChar(c: char): char {
    if 'A' <= c <= 'Z' then (c as int + 32) as char else c
  }

  /** ASCII upper-casing of one character. */
  function UpperChar(c: char): char {
    if 'a' <= c <= 'z' then (c as int - 32) as char else c
  }

  predicate IsLetter(c: char) {
    ('a' <= c <= 'z') || ('A' <= c <= 'Z')
  }

  /** Python `str.lower()` restricted to ASCII letters. */
  function Lower(s: string): (r: string)
    ensures |r| == |s|
    ensures forall i :: 0 <= i < |s| ==> r[i] == LowerChar(s[i])
  {
    if |s| == 0 then "" else [LowerChar(s[0])] + Lower(s[1..])
  }

  function DigitChar(d: nat): char
    requires d < 10
  {
    ('0' as int + d) as char
  }

  /** Decimal text of a natural number, without leading zeros (Python `str(n)`). */
  function NatToString(n: nat): (r: string)
    ensures 1 <= |r|
    ensures forall i :: 0 <= i < |r| ==> '0' <= r[i] <= '9'
    decreases n
  {
    if n < 10 then [DigitChar(n)] else NatToString(n / 10) + [DigitChar(n % 10)]
  }

  /** Python `str(i)` for any integer. */
  function IntToString(i: int): string {
    if i < 0 then "-" + NatToString(-i) else NatToString(i)
  }
}

=== FILE: deep_dives.dfy ===
/** The Deep Dives tab: per-country uptake and stock bottlenecks, surveillance against
    CFR, the per-case workforce heatmap, clade-country CFR, unknown-clade countries,
    deployed against administered doses, allocation per 1,000 cases, the default
    country selection and the data-quality caption. */
module DeepDives {
  import opened Base
  import opened Floats
  import opened Grouping
  import opened Table
  import Vaccination

  // ---------------------------------------------------------------------------
  // Allocation vs uptake, stock bottlenecks

  /** One bubble of the uptake scatter: the country's flow, its uptake rate and the
      bubble size (confirmed cases, or the allocation when there is no case column). */
  datatype UptakePoint = UptakePoint(flow: Vaccination.Flow, uptakePct: Option<real>, size: real)

  function UptakePoints(t: Table): (ps: Option<seq<UptakePoint>>)
    ensures ps.Some? <==> Vaccination.HasFlowColumns(t)
    ensures ps.Some? ==> |ps.value| == |Countries(t.rows)|
    ensures ps.Some? ==> forall i :: 0 <= i < |ps.value| ==>
              var c := Countries(t.rows)[i];
              ps.value[i].flow == Vaccination.FlowOf(t.rows, c) &&
              ps.value[i].uptakePct == Vaccination.RatesOf(ps.value[i].flow).uptakePct &&
              ps.value[i].size == SumFor(t.rows, c, if Has(t, Confirmed) then Confirmed else Allocated)
  {
    if !Vaccination.HasFlowColumns(t) then None
    else
      var fs := Vaccination.Flows(t.rows);
      var sizeField := if Has(t, Confirmed) then Confirmed else Allocated;
      Some(seq(|fs|, i requires 0 <= i < |fs| =>
        UptakePoint(fs[i], Vaccination.RatePct(fs[i].administered, fs[i].doses),
                    SumFor(t.rows, fs[i].country, sizeField))))
  }

  /** One row of the stock heatmap. Group sums are finite, so the replacement of
      non-finite cells by 0 never applies and the gaps are plain differences. */
  datatype StockGap = StockGap(country: string, undeployed: real, inCountryNotAdministered: real)

  function StockGaps(t: Table): (gs: Option<seq<StockGap>>)
    ensures gs.Some? <==> Vaccination.HasFlowColumns(t)
    ensures gs.Some? ==> |gs.value| == |Countries(t.rows)|
    ensures gs.Some? ==> forall i :: 0 <= i < |gs.value| ==>
              gs.value[i].country == Countries(t.rows)[i] &&
              gs.value[i].undeployed == Vaccination.Undeployed(Vaccination.FlowOf(t.rows, Countries(t.rows)[i])) &&
              gs.value[i].inCountryNotAdministered ==
                Vaccination.NotAdministered(Vaccination.FlowOf(t.rows, Countries(t.rows)[i]))
  {
    if !Vaccination.HasFlowColumns(t) then None
    else
      var fs := Vaccination.Flows(t.rows);
      Some(seq(|fs|, i requires 0 <= i < |fs| =>
        StockGap(fs[i].country, Vaccination.Undeployed(fs[i]), Vaccination.NotAdministered(fs[i]))))
  }

  /** The two gaps of a country add up to its allocated doses not administered, the
      same stock the Vaccination tab reports. */
  lemma StockGapsAgree(t: Table, i: int)
    requires StockGaps(t).Some? && 0 <= i < |StockGaps(t).value|
    ensures StockGaps(t).value[i].undeployed + StockGaps(t).value[i].inCountryNotAdministered ==
              SumFor(t.rows, Countries(t.rows)[i], Allocated) - SumFor(t.rows, Countries(t.rows)[i], Administered)
  {
    Vaccination.StockGapsAddUp(Vaccination.FlowOf(t.rows, Countries(t.rows)[i]));
  }

  // ---------------------------------------------------------------------------
  // Surveillance vs CFR

  /** Cases, at least one capacity column (sites or labs) and a CFR source. */
  predicate CanPlotSurveillance(t: Table) {
    CountryCol in t.columns && Has(t, Confirmed) && (Has(t, Sites) || Has(t, Labs)) &&
    (Has(t, Deaths) || Has(t, Cfr))
  }

  /** A capacity column's group sum, 0 when the column is absent. */
  function CapacityFor(t: Table, c: string, f: Field): (x: real)
    ensures !Has(t, f) ==> x == 0.0
    ensures Has(t, f) ==> x == SumFor(t.rows, c, f)
  {
    if Has(t, f) then SumFor(t.rows, c, f) else 0.0
  }

  datatype SurveillancePoint = SurveillancePoint(
    country: string, cases: real, perCase: Option<real>, cfrPct: Option<real>)

  /** `(sites + labs) / cases.replace(0, nan)`; the CFR from deaths when that column
      exists, otherwise the mean reported `case_fatality_rate`. */
  function SurveillancePointOf(t: Table, c: string): (p: SurveillancePoint)
    ensures p.country == c && p.cases == SumFor(t.rows, c, Confirmed)
    ensures p.perCase.None? <==> p.cases == 0.0
    ensures p.perCase.Some? ==>
              p.perCase.value * p.cases == CapacityFor(t, c, Sites) + CapacityFor(t, c, Labs)
    ensures Has(t, Deaths) ==> p.cfrPct == Vaccination.RatePct(SumFor(t.rows, c, Deaths), p.cases)
    ensures !Has(t, Deaths) ==> p.cfrPct == MeanFor(t.rows, c, Cfr)
  {
    var cases := SumFor(t.rows, c, Confirmed);
    SurveillancePoint(
      c, cases,
      GuardedDiv(CapacityFor(t, c, Sites) + CapacityFor(t, c, Labs), cases),
      if Has(t, Deaths) then Vaccination.RatePct(SumFor(t.rows, c, Deaths), cases) else MeanFor(t.rows, c, Cfr))
  }

  /** A bubble is drawn when both coordinates are known (`dropna`). */
  predicate Plotted(p: SurveillancePoint) {
    p.perCase.Some? && p.cfrPct.Some?
  }

  /** The bubbles drawn, in group order. */
  function SurveillanceBubbles(t: Table): (bs: Option<seq<SurveillancePoint>>)
    ensures bs.Some? <==> CanPlotSurveillance(t)
  {
    if !CanPlotSurveillance(t) then None
    else
      var cs := Countries(t.rows);
      var ps := seq(|cs|, i requires 0 <= i < |cs| => SurveillancePointOf(t, cs[i]));
      Some(Select(ps, seq(|ps|, i requires 0 <= i < |ps| => Plotted(ps[i]))))
  }

  /** A country is drawn exactly when its cases are non-zero and its CFR is known:
      with a deaths column that is again non-zero cases, and otherwise some reported
      `case_fatality_rate`. */
  lemma SurveillanceBubbleSpec(t: Table, c: string)
    requires CanPlotSurveillance(t) && c in Countries(t.rows)
    ensures SurveillancePointOf(t, c) in SurveillanceBubbles(t).value <==>
              SumFor(t.rows, c, Confirmed) != 0.0 &&
              (Has(t, Deaths) || PresentCountFor(t.rows, c, Cfr) > 0)
  {
    var cs := Countries(t.rows);
    var ps := seq(|cs|, i requires 0 <= i < |cs| => SurveillancePointOf(t, cs[i]));
    var keep := seq(|ps|, i requires 0 <= i < |ps| => Plotted(ps[i]));
    assert SurveillanceBubbles(t).value == Select(ps, keep);
    var p := SurveillancePointOf(t, c);
    var k :| 0 <= k < |cs| && cs[k] == c;
    assert ps[k] == p;
    if p in Select(ps, keep) {
      var j :| 0 <= j < |ps| && keep[j] && ps[j] == p;
    }
  }

  // ---------------------------------------------------------------------------
  // Workforce & surveillance heatmap

  datatype HeatColumn = TrainedPerCase | DeployedPerCase | SurveillancePerCase

  /** The column headings of the heatmap. */
  function HeatLabel(h: HeatColumn): string {
    match h
    case TrainedPerCase => "Trained per case"
    case DeployedPerCase => "Deployed per case"
    case SurveillancePerCase => "Surveillance per case"
  }

  /** Cases and at least one of the four workforce or capacity columns. */
  predicate CanPlotHeatmap(t: Table) {
    CountryCol in t.columns && Has(t, Confirmed) &&
    (Has(t, TrainedChws) || Has(t, DeployedChws) || Has(t, Sites) || Has(t, Labs))
  }

  /** The heatmap columns, in the order they are added. */
  function HeatColumns(t: Table): (hs: seq<HeatColumn>)
    ensures |hs| <= 3
    ensures CanPlotHeatmap(t) ==> |hs| > 0
  {
    (if Has(t, TrainedChws) then [TrainedPerCase] else []) +
    (if Has(t, DeployedChws) then [DeployedPerCase] else []) +
    (if Has(t, Sites) || Has(t, Labs) then [SurveillancePerCase] else [])
  }

  /** Each column appears exactly when its source field exists, in the order trained,
      deployed, surveillance; so once the heatmap is possible it has a column and the
      "no metrics" message cannot appear. */
  lemma HeatColumnsSpec(t: Table)
    ensures TrainedPerCase in HeatColumns(t) <==> Has(t, TrainedChws)
    ensures DeployedPerCase in HeatColumns(t) <==> Has(t, DeployedChws)
    ensures SurveillancePerCase in HeatColumns(t) <==> Has(t, Sites) || Has(t, Labs)
    ensures IsSubseq(HeatColumns(t), [TrainedPerCase, DeployedPerCase, SurveillancePerCase])
    ensures CanPlotHeatmap(t) ==> |HeatColumns(t)| > 0
  {
    var all := [TrainedPerCase, DeployedPerCase, SurveillancePerCase];
    var kept := (if Has(t, DeployedChws) then [DeployedPerCase] else []) +
                (if Has(t, Sites) || Has(t, Labs) then [SurveillancePerCase] else []);
    var tail := [DeployedPerCase, SurveillancePerCase];
    assert all[1..] == tail && tail[1..] == [SurveillancePerCase] && [SurveillancePerCase][1..] == [];
    assert IsSubseq(if Has(t, Sites) || Has(t, Labs) then [SurveillancePerCase] else [], [SurveillancePerCase]);
    assert IsSubseq(kept, tail) by {
      if Has(t, DeployedChws) {
        assert kept[1..] == (if Has(t, Sites) || Has(t, Labs) then [SurveillancePerCase] else []);
      } else {
        assert kept == (if Has(t, Sites) || Has(t, Labs) then [SurveillancePerCase] else []);
      }
    }
    if Has(t, TrainedChws) {
      assert HeatColumns(t)[1..] == kept;
    } else {
      assert HeatColumns(t) == kept;
      SubseqCons(kept, TrainedPerCase, tail);
    }
  }

  /** A heatmap cell: the per-case ratio with unknown (zero cases) shown as 0. */
  function HeatValue(t: Table, c: string, h: HeatColumn): (x: real)
    ensures SumFor(t.rows, c, Confirmed) == 0.0 ==> x == 0.0
    ensures SumFor(t.rows, c, Confirmed) != 0.0 ==> x * SumFor(t.rows, c, Confirmed) == HeatNumerator(t, c, h)
  {
    GuardedDiv(HeatNumerator(t, c, h), SumFor(t.rows, c, Confirmed)).GetOr(0.0)
  }

  /** What a heatmap column counts: trained or deployed workers, or sites plus labs. */
  function HeatNumerator(t: Table, c: string, h: HeatColumn): real {
    match h
    case TrainedPerCase => SumFor(t.rows, c, TrainedChws)
    case DeployedPerCase => SumFor(t.rows, c, DeployedChws)
    case SurveillancePerCase => CapacityFor(t, c, Sites) + CapacityFor(t, c, Labs)
  }

  /** The surveillance cell agrees with the surveillance bubble's ratio where that is
      known, and is 0 where it is not. */
  lemma HeatAgreesWithBubble(t: Table, c: string)
    ensures HeatValue(t, c, SurveillancePerCase) == SurveillancePointOf(t, c).perCase.GetOr(0.0)
  {
    var cases := SumFor(t.rows, c, Confirmed);
    var p := SurveillancePointOf(t, c);
    if cases != 0.0 {
      var x, y := HeatValue(t, c, SurveillancePerCase), p.perCase.value;
      assert x * cases == y * cases;
      CancelFactor(x, y, cases);
    }
  }

  lemma CancelFactor(x: real, y: real, d: real)
    requires d != 0.0 && x * d == y * d
    ensures x == y
  {
    assert (x - y) * d == 0.0;
  }

  // ---------------------------------------------------------------------------
  // Clade-country CFR

  /** A (country, clade) pair key. */
  type Pair = (string, string)

  /** Each row keyed by its (country, clade) pair, missing when either is missing. */
  function PairColumn(rows: seq<Row>, f: Field): (es: seq<Entry<Pair>>)
    ensures |es| == |rows|
    ensures forall i :: 0 <= i < |rows| ==> es[i].val == ValueOf(rows[i], f)
    ensures forall i :: 0 <= i < |rows| ==>
              (es[i].key.Some? <==> rows[i].country.Some? && rows[i].clade.Some?)
    ensures forall i :: 0 <= i < |rows| && es[i].key.Some? ==>
              es[i].key.value == (rows[i].country.value, rows[i].clade.value)
  {
    seq(|rows|, i requires 0 <= i < |rows| =>
      Entry(if rows[i].country.Some? && rows[i].clade.Some? then Some((rows[i].country.value, rows[i].clade.value))
            else None,
            ValueOf(rows[i], f)))
  }

  /** CFR in percent of the keys among `ks` with positive confirmed cases, in the
      order of `ks`. */
  function PositiveCfrs<K(==)>(ks: seq<K>, confirmed: seq<Entry<K>>, deaths: seq<Entry<K>>):
    (xs: seq<Ranked<K>>)
    ensures forall x :: x in xs ==>
              x.item in ks && Total(confirmed, x.item) > 0.0 &&
              x.score == PerHundred(Total(deaths, x.item), Total(confirmed, x.item))
    ensures forall k :: k in ks && Total(confirmed, k) > 0.0 ==> exists x :: x in xs && x.item == k
    decreases |ks|
  {
    if |ks| == 0 then []
    else
      var rest := PositiveCfrs(ks[1..], confirmed, deaths);
      var c := Total(confirmed, ks[0]);
      assert forall k :: k in ks ==> k == ks[0] || k in ks[1..];
      if c > 0.0 then
        [Ranked(ks[0], PerHundred(Total(deaths, ks[0]), c))] + rest
      else rest
  }

  /** `x / y * 100` for positive `y`. */
  function PerHundred(x: real, y: real): (r: real)
    requires y > 0.0
    ensures r * y == x * 100.0
  {
    assert x / y * y == x;
    x / y * 100.0
  }

  /** The pairs `groupby(["country", "clade"])` forms that have positive confirmed
      cases, with their CFR in percent. */
  function PairCfrs(rows: seq<Row>): (xs: seq<Ranked<Pair>>)
  {
    var confirmed := PairColumn(rows, Confirmed);
    PositiveCfrs(KeysOf(confirmed), confirmed, PairColumn(rows, Deaths))
  }

  /** Some row carries the pair exactly when the pair is a group key. */
  predicate RowHasPair(rows: seq<Row>, p: Pair) {
    exists j :: 0 <= j < |rows| && rows[j].country == Some(p.0) && rows[j].clade == Some(p.1)
  }

  lemma PairKeys(rows: seq<Row>, p: Pair)
    ensures p in KeysOf(PairColumn(rows, Confirmed)) <==> RowHasPair(rows, p)
  {
    var confirmed := PairColumn(rows, Confirmed);
    if p in KeysOf(confirmed) {
      var j :| 0 <= j < |confirmed| && confirmed[j].key == Some(p);
      assert rows[j].country == Some(p.0);
    }
    if RowHasPair(rows, p) {
      var j :| 0 <= j < |rows| && rows[j].country == Some(p.0) && rows[j].clade == Some(p.1);
      assert confirmed[j].key.value == (p.0, p.1) == p;
    }
  }

  /** A pair is ranked exactly when some row carries it and its confirmed cases are
      positive, and its score is deaths per hundred confirmed cases. */
  lemma PairCfrsSpec(rows: seq<Row>, p: Pair)
    ensures (exists x :: x in PairCfrs(rows) && x.item == p) <==>
              RowHasPair(rows, p) && Total(PairColumn(rows, Confirmed), p) > 0.0
    ensures forall x :: x in PairCfrs(rows) && x.item == p ==>
              Total(PairColumn(rows, Confirmed), p) > 0.0 &&
              x.score == PerHundred(Total(PairColumn(rows, Deaths), p), Total(PairColumn(rows, Confirmed), p))
  {
    PairKeys(rows, p);
    var confirmed := PairColumn(rows, Confirmed);
    var xs := PositiveCfrs(KeysOf(confirmed), confirmed, PairColumn(rows, Deaths));
    assert PairCfrs(rows) == xs;
    if RowHasPair(rows, p) && Total(confirmed, p) > 0.0 {
      var x :| x in xs && x.item == p;
    }
  }

  /** The top ten pairs by CFR, highest first. */
  function TopCladeCountries(t: Table): (r: Option<seq<Ranked<Pair>>>)
    ensures r.Some? <==> CountryCol in t.columns && CladeCol in t.columns && Has(t, Confirmed) && Has(t, Deaths)
  {
    if CountryCol in t.columns && CladeCol in t.columns && Has(t, Confirmed) && Has(t, Deaths)
    then Some(TopK(PairCfrs(t.rows), 10))
    else None
  }

  /** At most ten pairs, by CFR descending, each one of the ranked pairs, and no
      left-out pair above a shown one. */
  lemma TopCladeCountriesSpec(t: Table)
    requires TopCladeCountries(t).Some?
    ensures |TopCladeCountries(t).value| <= 10
    ensures SortedDesc(TopCladeCountries(t).value)
    ensures multiset(TopCladeCountries(t).value) <= multiset(PairCfrs(t.rows))
    ensures forall i, j :: 0 <= i < |TopCladeCountries(t).value| && 0 <= j < |Leftover(PairCfrs(t.rows), 10)| ==>
              TopCladeCountries(t).value[i].score >= Leftover(PairCfrs(t.rows), 10)[j].score
  {
    TopKSpec(PairCfrs(t.rows), 10);
  }

  /** The bar label of a pair. */
  function PairLabel(p: Pair): (text: string)
    ensures |text| == |p.0| + |Bullet| + |p.1|
    ensures text[..|p.0|] == p.0
    ensures text[|p.0|..|p.0| + |Bullet|] == Bullet
    ensures text[|p.0| + |Bullet|..] == p.1
  {
    p.0 + Bullet + p.1
  }

  // ---------------------------------------------------------------------------
  // Unknown-clade countries

  /** A row whose clade is missing or reads "unknown" in any letter case. */
  predicate IsUnknownClade(r: Row) {
    r.clade.None? || Lower(r.clade.value) == "unknown"
  }

  /** Confirmed cases of a row, counted only for unknown-clade rows and keyed by country. */
  function UnknownColumn(rows: seq<Row>): (es: seq<Entry<string>>)
    ensures |es| == |rows|
    ensures forall i :: 0 <= i < |rows| ==>
              es[i] == Entry(if IsUnknownClade(rows[i]) then rows[i].country else None, ValueOf(rows[i], Confirmed))
  {
    seq(|rows|, i requires 0 <= i < |rows| =>
      Entry(if IsUnknownClade(rows[i]) then rows[i].country else None, ValueOf(rows[i], Confirmed)))
  }

  datatype UnknownView = NeedsCladeColumns | NoUnknownRecords | Bars(bars: seq<Ranked<string>>)

  /** The unknown-clade bar chart: the twelve countries with the most confirmed cases
      among their unknown-clade rows. */
  function UnknownCladeBars(t: Table): (v: UnknownView)
    ensures v.NeedsCladeColumns? <==> !(CountryCol in t.columns && CladeCol in t.columns && Has(t, Confirmed))
    ensures !v.NeedsCladeColumns? ==>
              (v.NoUnknownRecords? <==> forall i :: 0 <= i < |t.rows| ==> !IsUnknownClade(t.rows[i]))
  {
    if !(CountryCol in t.columns && CladeCol in t.columns && Has(t, Confirmed)) then NeedsCladeColumns
    else if forall i :: 0 <= i < |t.rows| ==> !IsUnknownClade(t.rows[i]) then NoUnknownRecords
    else Bars(TopK(UnknownRanks(t.rows), 12))
  }

  /** Some row of country `c` has an unknown clade. */
  predicate HasUnknownRow(rows: seq<Row>, c: string) {
    exists i :: 0 <= i < |rows| && rows[i].country == Some(c) && IsUnknownClade(rows[i])
  }

  /** Each country with an unknown-clade row, ranked by the confirmed cases of those rows. */
  function UnknownRanks(rows: seq<Row>): (xs: seq<Ranked<string>>)
    ensures forall x :: x in xs ==> HasUnknownRow(rows, x.item) && x.score == Total(UnknownColumn(rows), x.item)
    ensures forall c :: HasUnknownRow(rows, c) ==> exists x :: x in xs && x.item == c
  {
    var es := UnknownColumn(rows);
    var ks := KeysOf(es);
    var xs := seq(|ks|, i requires 0 <= i < |ks| => Ranked(ks[i], Total(es, ks[i])));
    assert forall c :: HasUnknownRow(rows, c) ==> c in ks by {
      forall c | HasUnknownRow(rows, c) ensures c in ks {
        var i :| 0 <= i < |rows| && rows[i].country == Some(c) && IsUnknownClade(rows[i]);
        assert es[i].key == Some(c);
      }
    }
    assert forall k :: k in ks ==> HasUnknownRow(rows, k) by {
      forall k | k in ks ensures HasUnknownRow(rows, k) {
        var i :| 0 <= i < |es| && es[i].key == Some(k);
      }
    }
    assert forall c :: c in ks ==> exists x :: x in xs && x.item == c by {
      forall c | c in ks ensures exists x :: x in xs && x.item == c {
        var i :| 0 <= i < |ks| && ks[i] == c;
        assert xs[i] in xs;
      }
    }
    xs
  }

  /** The letter case of "unknown" does not matter: every spelling that has, at each
      position, the lower- or the upper-case letter of "unknown" is caught. */
  lemma UnknownInAnyCase(r: Row)
    requires r.clade.Some? && |r.clade.value| == 7
    requires forall i :: 0 <= i < 7 ==> r.clade.value[i] == "unknown"[i] || r.clade.value[i] == "UNKNOWN"[i]
    ensures IsUnknownClade(r)
  {
    var l := Lower(r.clade.value);
    forall i | 0 <= i < 7
      ensures l[i] == "unknown"[i]
    {
      assert l[i] == LowerChar(r.clade.value[i]);
    }
    assert l == "unknown";
  }

  /** A named clade is not unknown. */
  lemma NamedCladeIsKnown(r: Row)
    requires r.clade == Some("Ib")
    ensures !IsUnknownClade(r)
  {
    assert |Lower(r.clade.value)| == 2;
  }

  /** At most twelve countries, by their unknown-clade cases descending, each with an
      unknown-clade row, and no left-out country above a shown one. */
  lemma UnknownCladeBarsSpec(t: Table)
    requires UnknownCladeBars(t).Bars?
    ensures |UnknownCladeBars(t).bars| <= 12
    ensures SortedDesc(UnknownCladeBars(t).bars)
    ensures forall b :: b in UnknownCladeBars(t).bars ==>
              HasUnknownRow(t.rows, b.item) && b.score == Total(UnknownColumn(t.rows), b.item)
    ensures forall i, j :: 0 <= i < |UnknownCladeBars(t).bars| && 0 <= j < |Leftover(UnknownRanks(t.rows), 12)| ==>
              UnknownCladeBars(t).bars[i].score >= Leftover(UnknownRanks(t.rows), 12)[j].score
  {
    var xs := UnknownRanks(t.rows);
    TopKSpec(xs, 12);
    var top := TopK(xs, 12);
    assert UnknownCladeBars(t).bars == top;
    forall b | b in top
      ensures HasUnknownRow(t.rows, b.item) && b.score == Total(UnknownColumn(t.rows), b.item)
    {
      assert b in multiset(top);
      assert b in multiset(xs);
      assert b in xs;
    }
  }

  // ---------------------------------------------------------------------------
  // Deployed vs administered, allocation efficiency

  /** Each country with its deployed doses, in group order. */
  function DeployedRanks(rows: seq<Row>): (xs: seq<Ranked<string>>)
    ensures |xs| == |Countries(rows)|
    ensures forall i :: 0 <= i < |xs| ==> xs[i].item == Countries(rows)[i]
    ensures forall x :: x in xs ==> x.item in Countries(rows) && x.score == SumFor(rows, x.item, Deployed)
  {
    var cs := Countries(rows);
    seq(|cs|, i requires 0 <= i < |cs| => Ranked(cs[i], SumFor(rows, cs[i], Deployed)))
  }

  /** Countries by deployed doses, most first: a reordering of the per-country ranks, so
      every country appears exactly once. */
  function DeployedOrder(t: Table): (r: Option<seq<Ranked<string>>>)
    ensures r.Some? <==> CountryCol in t.columns && Has(t, Deployed) && Has(t, Administered)
    ensures r.Some? ==> SortedDesc(r.value) && |r.value| == |Countries(t.rows)|
    ensures r.Some? ==> multiset(r.value) == multiset(DeployedRanks(t.rows))
    ensures r.Some? ==> forall c :: c in Countries(t.rows) ==> exists x :: x in r.value && x.item == c
    ensures r.Some? ==> forall i, j :: 0 <= i < j < |r.value| ==> r.value[i].item != r.value[j].item
    ensures r.Some? ==> forall x :: x in r.value ==>
              x.item in Countries(t.rows) && x.score == SumFor(t.rows, x.item, Deployed)
  {
    if !(CountryCol in t.columns && Has(t, Deployed) && Has(t, Administered)) then None
    else
      var s := SortDesc(DeployedRanks(t.rows));
      ReorderedRanksEachOnce(t.rows, s);
      Some(s)
  }

  /** Any reordering of the per-country deployed ranks lists every country exactly once. */
  lemma ReorderedRanksEachOnce(rows: seq<Row>, s: seq<Ranked<string>>)
    requires multiset(s) == multiset(DeployedRanks(rows))
    ensures |s| == |Countries(rows)|
    ensures forall x :: x in s ==> x.item in Countries(rows) && x.score == SumFor(rows, x.item, Deployed)
    ensures forall c :: c in Countries(rows) ==> exists x :: x in s && x.item == c
    ensures forall i, j :: 0 <= i < j < |s| ==> s[i].item != s[j].item
  {
    var xs := DeployedRanks(rows);
    var cs := Countries(rows);
    SameMembers(s, xs);
    forall c | c in cs
      ensures exists x :: x in s && x.item == c
    {
      var i :| 0 <= i < |cs| && cs[i] == c;
      assert xs[i] in xs;
    }
    assert Distinct(xs) by {
      forall i, j | 0 <= i < j < |xs|
        ensures xs[i] != xs[j]
      {
        assert xs[i].item == cs[i] && xs[j].item == cs[j];
      }
    }
    PermutationKeepsDistinct(s, xs);
    forall i, j | 0 <= i < j < |s|
      ensures s[i].item != s[j].item
    {
      assert s[i] in s && s[j] in s;
    }
  }

  /** Two sequences with the same multiset have the same length and members. */
  lemma SameMembers<T>(a: seq<T>, b: seq<T>)
    requires multiset(a) == multiset(b)
    ensures |a| == |b| && forall x :: x in a <==> x in b
  {
    assert |a| == |multiset(a)|;
    assert forall x :: x in a <==> x in multiset(a);
    assert forall x :: x in b <==> x in multiset(b);
  }

  /** One efficiency bubble: confirmed cases, allocation per 1,000 cases, and the bubble
      size (administered doses, or the allocation when there is no administered column). */
  datatype Efficiency = Efficiency(country: string, confirmed: real, per1000: real, size: real)

  predicate HasEfficiencyColumns(t: Table) {
    CountryCol in t.columns && Has(t, Allocated) && Has(t, Confirmed)
  }

  /** `x / y * 1000` for positive `y`. */
  function PerThousand(x: real, y: real): (r: real)
    requires y > 0.0
    ensures r * y == x * 1000.0
  {
    assert x / y * y == x;
    x / y * 1000.0
  }

  /** Bubbles of the countries among `cs` with positive confirmed cases, in order. */
  function EfficiencyOf(t: Table, cs: seq<string>): (es: seq<Efficiency>)
    ensures forall e :: e in es ==>
              e.country in cs && e.confirmed == SumFor(t.rows, e.country, Confirmed) > 0.0 &&
              e.per1000 * e.confirmed == SumFor(t.rows, e.country, Allocated) * 1000.0
    ensures forall c :: c in cs && SumFor(t.rows, c, Confirmed) > 0.0 ==> exists e :: e in es && e.country == c
    decreases |cs|
  {
    if |cs| == 0 then []
    else
      var rest := EfficiencyOf(t, cs[1..]);
      var c := cs[0];
      var cases := SumFor(t.rows, c, Confirmed);
      assert forall d :: d in cs ==> d == c || d in cs[1..];
      if cases > 0.0 then
        var size := SumFor(t.rows, c, if Has(t, Administered) then Administered else Allocated);
        [Efficiency(c, cases, PerThousand(SumFor(t.rows, c, Allocated), cases), size)] + rest
      else rest
  }

  /** The countries with positive confirmed cases and their allocation per 1,000 cases. */
  function EfficiencyPoints(t: Table): (r: Option<seq<Efficiency>>)
    ensures r.Some? <==> HasEfficiencyColumns(t)
  {
    if !HasEfficiencyColumns(t) then None else Some(EfficiencyOf(t, Countries(t.rows)))
  }

  /** A country has a bubble exactly when its confirmed cases are positive; the bubble
      then shows its allocation per thousand cases. */
  lemma EfficiencySpec(t: Table, c: string)
    requires HasEfficiencyColumns(t) && c in Countries(t.rows)
    ensures (exists e :: e in EfficiencyPoints(t).value && e.country == c) <==> SumFor(t.rows, c, Confirmed) > 0.0
    ensures forall e :: e in EfficiencyPoints(t).value ==>
              e.confirmed > 0.0 && e.per1000 * e.confirmed == SumFor(t.rows, e.country, Allocated) * 1000.0
  {
    var es := EfficiencyPoints(t).value;
    if exists e :: e in es && e.country == c {
      var e :| e in es && e.country == c;
      assert e.confirmed == SumFor(t.rows, c, Confirmed);
    }
  }

  // ---------------------------------------------------------------------------
  // Country trends: the default selection

  const DefaultCountries: seq<string> := ["Sierra Leone", "Uganda"]

  /** The countries pre-selected for the trend chart: those of the two defaults that
      occur in the data, in that order. */
  function DefaultSelection(t: Table): (sel: seq<string>)
    ensures IsSubseq(sel, DefaultCountries)
    ensures forall c :: c in sel <==> c in DefaultCountries && c in Countries(t.rows)
  {
    var keep := [DefaultCountries[0] in Countries(t.rows), DefaultCountries[1] in Countries(t.rows)];
    SelectSubseq(DefaultCountries, keep);
    Select(DefaultCountries, keep)
  }

  // ---------------------------------------------------------------------------
  // Data-quality caption

  /** The five columns of the caption, in order. */
  const DqFields: seq<Field> := [Allocated, Deployed, Administered, Sites, Labs]

  /** The caption names exactly the present columns among the five that have a missing
      cell, in the listed order, and is absent when there are none. */
  lemma DqCaptionSpec(t: Table)
    ensures IsSubseq(NotedFields(t, DqFields), DqFields)
    ensures forall f :: f in NotedFields(t, DqFields) <==>
              f in DqFields && Has(t, f) && exists i :: 0 <= i < |t.rows| && Get(t.rows[i], f).None?
    ensures DqCaption(t, DqFields).None? <==> |NotedFields(t, DqFields)| == 0
  {
    MissingNotesSpec(t, DqFields);
  }
}

=== FILE: filter.dfy ===
/** The sidebar filter: a conjunctive row filter over the date range, countries,
    clades and surveillance notes, and the one-line description of the active filters. */
module Filter {
  import opened Base
  import opened Table
  import opened Schema

  /** The sidebar selection. An empty list, or no date range, leaves that dimension open. */
  datatype Selection = Selection(
    dateRange: Option<(int, int)>,
    countries: seq<string>,
    clades: seq<string>,
    notes: seq<string>)

  /** `isin`: a missing cell never matches. */
  predicate IsIn(cell: Option<string>, choices: seq<string>) {
    cell.Some? && cell.value in choices
  }

  /** The row satisfies every active dimension of the selection: a dimension is active
      when its selection is non-empty and its column exists, and the date range is
      inclusive at both ends. */
  predicate Passes(sel: Selection, columns: set<string>, row: Row) {
    (sel.dateRange.None? || ReportDateCol !in columns ||
       (row.reportDate.Some? && sel.dateRange.value.0 <= row.reportDate.value <= sel.dateRange.value.1)) &&
    (|sel.countries| == 0 || CountryCol !in columns || IsIn(row.country, sel.countries)) &&
    (|sel.clades| == 0 || CladeCol !in columns || IsIn(row.clade, sel.clades)) &&
    (|sel.notes| == 0 || NotesCol !in columns || IsIn(row.notes, sel.notes))
  }

  function FilterRows(sel: Selection, columns: set<string>, rows: seq<Row>): seq<Row>
    decreases |rows|
  {
    if |rows| == 0 then []
    else (if Passes(sel, columns, rows[0]) then [rows[0]] else []) + FilterRows(sel, columns, rows[1..])
  }

  /** The number of rows that pass. */
  function PassCount(sel: Selection, columns: set<string>, rows: seq<Row>): nat
    decreases |rows|
  {
    if |rows| == 0 then 0
    else (if Passes(sel, columns, rows[0]) then 1 else 0) + PassCount(sel, columns, rows[1..])
  }

  lemma {:induction false} FilterRowsSpec(sel: Selection, columns: set<string>, rows: seq<Row>)
    ensures IsSubseq(FilterRows(sel, columns, rows), rows)
    ensures forall row :: row in FilterRows(sel, columns, rows) <==> row in rows && Passes(sel, columns, row)
    ensures |FilterRows(sel, columns, rows)| == PassCount(sel, columns, rows)
    decreases |rows|
  {
    if |rows| > 0 {
      var rest := FilterRows(sel, columns, rows[1..]);
      FilterRowsSpec(sel, columns, rows[1..]);
      assert rows == [rows[0]] + rows[1..];
      if Passes(sel, columns, rows[0]) {
        assert FilterRows(sel, columns, rows) == [rows[0]] + rest;
        assert ([rows[0]] + rest)[1..] == rest;
      } else {
        assert FilterRows(sel, columns, rows) == rest;
        SubseqCons(rest, rows[0], rows[1..]);
      }
    }
  }

  /** `filter_data`: the rows passing every active dimension, in their original order,
      with the columns unchanged. Exactly the passing rows are kept: the result is an
      order-preserving subsequence of the input whose rows all pass, and it is as long
      as the number of passing rows. */
  function FilterData(t: Table, sel: Selection): (r: Table)
    ensures r.columns == t.columns
    ensures IsSubseq(r.rows, t.rows)
    ensures forall row :: row in r.rows <==> row in t.rows && Passes(sel, t.columns, row)
    ensures |r.rows| == PassCount(sel, t.columns, t.rows)
  {
    FilterRowsSpec(sel, t.columns, t.rows);
    Table(t.columns, FilterRows(sel, t.columns, t.rows))
  }

  /** Filtering twice with the same selection is filtering once. */
  lemma {:induction false} FilterIdempotent(t: Table, sel: Selection)
    ensures FilterData(FilterData(t, sel), sel) == FilterData(t, sel)
  {
    FilterRowsIdempotent(sel, t.columns, t.rows);
  }

  lemma {:induction false} FilterRowsIdempotent(sel: Selection, columns: set<string>, rows: seq<Row>)
    ensures FilterRows(sel, columns, FilterRows(sel, columns, rows)) == FilterRows(sel, columns, rows)
    decreases |rows|
  {
    if |rows| > 0 {
      var rest := FilterRows(sel, columns, rows[1..]);
      FilterRowsIdempotent(sel, columns, rows[1..]);
      if Passes(sel, columns, rows[0]) {
        var once := [rows[0]] + rest;
        assert FilterRows(sel, columns, rows) == once;
        assert once[0] == rows[0] && once[1..] == rest;
        assert FilterRows(sel, columns, once) == [rows[0]] + FilterRows(sel, columns, rest);
      } else {
        assert FilterRows(sel, columns, rows) == rest;
      }
    }
  }

  /** `wider` keeps every row `sel` keeps: each of its dimensions is open, or both are
      active and its choices include `sel`'s. */
  predicate Widens(sel: Selection, wider: Selection) {
    (wider.dateRange.None? ||
       (sel.dateRange.Some? && wider.dateRange.value.0 <= sel.dateRange.value.0 &&
        sel.dateRange.value.1 <= wider.dateRange.value.1)) &&
    (|wider.countries| == 0 || (|sel.countries| > 0 && forall c :: c in sel.countries ==> c in wider.countries)) &&
    (|wider.clades| == 0 || (|sel.clades| > 0 && forall c :: c in sel.clades ==> c in wider.clades)) &&
    (|wider.notes| == 0 || (|sel.notes| > 0 && forall c :: c in sel.notes ==> c in wider.notes))
  }

  /** Enlarging any selection never removes a row: the narrower result is a
      subsequence of the wider one. */
  lemma {:induction false} FilterMonotone(t: Table, sel: Selection, wider: Selection)
    requires Widens(sel, wider)
    ensures IsSubseq(FilterData(t, sel).rows, FilterData(t, wider).rows)
  {
    FilterRowsMonotone(sel, wider, t.columns, t.rows);
  }

  lemma {:induction false} FilterRowsMonotone(sel: Selection, wider: Selection, columns: set<string>, rows: seq<Row>)
    requires Widens(sel, wider)
    ensures IsSubseq(FilterRows(sel, columns, rows), FilterRows(wider, columns, rows))
    decreases |rows|
  {
    if |rows| > 0 {
      var a := FilterRows(sel, columns, rows[1..]);
      var b := FilterRows(wider, columns, rows[1..]);
      FilterRowsMonotone(sel, wider, columns, rows[1..]);
      if Passes(sel, columns, rows[0]) {
        assert Passes(wider, columns, rows[0]);
        assert FilterRows(sel, columns, rows) == [rows[0]] + a;
        assert FilterRows(wider, columns, rows) == [rows[0]] + b;
        assert ([rows[0]] + a)[1..] == a;
        assert ([rows[0]] + b)[1..] == b;
      } else if Passes(wider, columns, rows[0]) {
        assert FilterRows(sel, columns, rows) == a;
        assert FilterRows(wider, columns, rows) == [rows[0]] + b;
        SubseqCons(a, rows[0], b);
      } else {
        assert FilterRows(sel, columns, rows) == a;
        assert FilterRows(wider, columns, rows) == b;
      }
    }
  }

  /** A selection with every dimension open. */
  predicate Open(sel: Selection) {
    sel.dateRange.None? && |sel.countries| == 0 && |sel.clades| == 0 && |sel.notes| == 0
  }

  /** An open selection keeps the table as it is. */
  lemma {:induction false} OpenSelectionKeepsAll(t: Table, sel: Selection)
    requires Open(sel)
    ensures FilterData(t, sel) == t
  {
    OpenKeepsRows(sel, t.columns, t.rows);
  }

  lemma {:induction false} OpenKeepsRows(sel: Selection, columns: set<string>, rows: seq<Row>)
    requires Open(sel)
    ensures FilterRows(sel, columns, rows) == rows
    decreases |rows|
  {
    if |rows| > 0 {
      OpenKeepsRows(sel, columns, rows[1..]);
      assert rows == [rows[0]] + rows[1..];
    }
  }

  /** Under an active clade filter a row with a missing clade is dropped, even when
      the selection contains the "Unknown" label the sidebar shows for missing clades. */
  lemma MissingCladeNeverPasses(t: Table, sel: Selection, row: Row)
    requires |sel.clades| > 0 && CladeCol in t.columns
    requires row.clade.None?
    ensures row !in FilterData(t, sel).rows
  {
  }

  /** Under an active date filter a row without a valid date is dropped, and a row
      dated on either end of the range passes that dimension. */
  lemma DateRangeInclusive(t: Table, sel: Selection, row: Row)
    requires sel.dateRange.Some? && ReportDateCol in t.columns
    ensures row.reportDate.None? ==> row !in FilterData(t, sel).rows
    ensures row in t.rows && row.reportDate.Some? &&
            (row.reportDate.value == sel.dateRange.value.0 || row.reportDate.value == sel.dateRange.value.1) &&
            sel.dateRange.value.0 <= sel.dateRange.value.1 &&
            Passes(sel.(dateRange := None), t.columns, row) ==>
              row in FilterData(t, sel).rows
  {
  }

  // ---------------------------------------------------------------------------
  // make_filter_note

  const AllData := "Showing all data (no filters applied)."
  const NotesPart := "Surveillance notes filter applied"

  /** A listing part: the first five choices joined by ", ", with "…" when there are more. */
  function ListPart(prefix: string, xs: seq<string>): string {
    prefix + Join(Take(xs, 5), ", ") + (if |xs| > 5 then "…" else "")
  }

  function DatePart(range: (int, int)): string {
    "Date: " + IsoDate(range.0) + " → " + IsoDate(range.1)
  }

  /** 1 for an active dimension, 0 for an open one. */
  function Active(b: bool): nat {
    if b then 1 else 0
  }

  /** The active parts, in the order date, countries, clades, notes: each active
      dimension's text sits after those of the active dimensions before it. */
  function NoteParts(sel: Selection): (parts: seq<string>)
    ensures |parts| == Active(sel.dateRange.Some?) + Active(|sel.countries| > 0) +
                       Active(|sel.clades| > 0) + Active(|sel.notes| > 0)
    ensures sel.dateRange.Some? ==> parts[0] == DatePart(sel.dateRange.value)
    ensures |sel.countries| > 0 ==>
              parts[Active(sel.dateRange.Some?)] == ListPart("Countries: ", sel.countries)
    ensures |sel.clades| > 0 ==>
              parts[Active(sel.dateRange.Some?) + Active(|sel.countries| > 0)] == ListPart("Clades: ", sel.clades)
    ensures |sel.notes| > 0 ==> parts[|parts| - 1] == NotesPart
  {
    (if sel.dateRange.Some? then [DatePart(sel.dateRange.value)] else []) +
    (if |sel.countries| > 0 then [ListPart("Countries: ", sel.countries)] else []) +
    (if |sel.clades| > 0 then [ListPart("Clades: ", sel.clades)] else []) +
    (if |sel.notes| > 0 then [NotesPart] else [])
  }

  /** `make_filter_note`: describes the selection itself, whether or not the table has
      the columns it filters on. */
  function MakeFilterNote(sel: Selection): (note: string)
    ensures note == AllData <==> Open(sel)
  {
    var parts := NoteParts(sel);
    if |parts| == 0 then AllData
    else
      var s := "Filters → " + Join(parts, " | ");
      assert s[0] == 'F' != AllData[0];
      s
  }

  /** The default text appears iff every dimension is open; otherwise the note starts
      with "Filters → ". */
  lemma FilterNoteDefault(sel: Selection)
    ensures MakeFilterNote(sel) == AllData <==> Open(sel)
    ensures !Open(sel) ==> MakeFilterNote(sel)[..10] == "Filters → "
  {
    if !Open(sel) {
      var note := MakeFilterNote(sel);
      assert note[..10] == "Filters → ";
      assert note[0] == 'F' != AllData[0];
    }
  }

  /** A selection of countries alone is described by its countries part alone. */
  lemma CountriesOnlyNote(countries: seq<string>)
    requires |countries| > 0
    ensures MakeFilterNote(Selection(None, countries, [], [])) == "Filters → " + ListPart("Countries: ", countries)
  {
    JoinSingle(ListPart("Countries: ", countries), " | ");
  }

  /** With every dimension active the parts come in the order date, countries, clades,
      notes, separated by " | ". */
  lemma FilterNoteOrder(sel: Selection)
    requires sel.dateRange.Some? && |sel.countries| > 0 && |sel.clades| > 0 && |sel.notes| > 0
    ensures MakeFilterNote(sel) ==
              "Filters → " + (DatePart(sel.dateRange.value) + " | " + ListPart("Countries: ", sel.countries) +
                              " | " + ListPart("Clades: ", sel.clades) + " | " + NotesPart)
  {
    var a := DatePart(sel.dateRange.value);
    var b := ListPart("Countries: ", sel.countries);
    var c := ListPart("Clades: ", sel.clades);
    AllNoteParts(sel);
    JoinFour(a, b, c, NotesPart, " | ");
  }

  lemma AllNoteParts(sel: Selection)
    requires sel.dateRange.Some? && |sel.countries| > 0 && |sel.clades| > 0 && |sel.notes| > 0
    ensures NoteParts(sel) == [DatePart(sel.dateRange.value), ListPart("Countries: ", sel.countries),
                               ListPart("Clades: ", sel.clades), NotesPart]
  {
  }

  /** Only the first five choices are shown: two lists that agree on their first five
      items and both have more than five give the same part, ending in "…". */
  lemma ListPartTruncates(prefix: string, xs: seq<string>, ys: seq<string>)
    requires |xs| > 5 && |ys| > 5 && xs[..5] == ys[..5]
    ensures ListPart(prefix, xs) == ListPart(prefix, ys)
    ensures ListPart(prefix, xs)[|ListPart(prefix, xs)| - 1] == '…'
  {
  }

  /** Up to five choices are all listed, with no ellipsis added. */
  lemma ListPartShort(prefix: string, xs: seq<string>)
    requires |xs| <= 5
    ensures ListPart(prefix, xs) == prefix + Join(xs, ", ")
  {
  }
}

=== FILE: findings.dfy ===
/** The executive findings page: the headline summary, the data-freshness and trend
    classifiers, the resource-gap list, the completeness bins and the strategic
    recommendation cards. */
module Findings {
  import opened Base
  import opened Floats
  import opened Grouping
  import opened Table
  import opened Rules

  // ---------------------------------------------------------------------------
  // Freshness

  datatype Freshness = Current | Recent | Stale

  /** The status of data whose latest report is `days` days old. */
  function FreshnessOf(days: int): Freshness {
    if days <= 7 then Current else if days <= 30 then Recent else Stale
  }

  /** The three bands split the ages at 7 and 30 days. */
  lemma FreshnessBands(days: int)
    ensures FreshnessOf(days) == Current <==> days <= 7
    ensures FreshnessOf(days) == Recent <==> 7 < days <= 30
    ensures FreshnessOf(days) == Stale <==> 30 < days
  {
  }

  function FreshnessRank(f: Freshness): nat {
    match f
    case Current => 0
    case Recent => 1
    case Stale => 2
  }

  /** Older data never looks fresher. */
  lemma FreshnessMonotone(days: int, older: int)
    requires days <= older
    ensures FreshnessRank(FreshnessOf(days)) <= FreshnessRank(FreshnessOf(older))
  {
  }

  // ---------------------------------------------------------------------------
  // Executive summary

  /** The keys of the summary dictionary; a key the code does not set is `None`. */
  datatype ExecSummary = ExecSummary(
    totalCases: Option<int>,
    avgCasesPerCountry: Option<int>,
    maxCasesCountry: Option<string>,
    maxCasesCount: Option<int>,
    totalDeaths: Option<int>,
    overallCfr: Option<real>,
    totalChws: Option<int>,
    avgChwPerCountry: Option<int>,
    totalVaccinations: Option<int>,
    totalAllocated: Option<int>,
    uptakeRate: Option<real>,
    freshnessDays: Option<int>,
    freshnessStatus: Option<Freshness>,
    totalCountries: Option<int>)

  /** The per-country sums of one field, in group order. */
  function CountryTotals(rows: seq<Row>, f: Field): (ts: seq<real>)
    ensures |ts| == |Countries(rows)|
    ensures forall i :: 0 <= i < |ts| ==> ts[i] == SumFor(rows, Countries(rows)[i], f)
  {
    Totals(Countries(rows), Column(rows, f))
  }

  /** `idxmax`: the first position holding the largest value. */
  function ArgMax(vs: seq<real>): (i: nat)
    requires |vs| > 0
    ensures i < |vs|
    ensures forall j :: 0 <= j < |vs| ==> vs[j] <= vs[i]
    ensures forall j :: 0 <= j < i ==> vs[j] < vs[i]
    decreases |vs|
  {
    if |vs| == 1 then 0
    else
      var m := ArgMax(vs[..|vs| - 1]);
      assert forall j :: 0 <= j < |vs| - 1 ==> vs[..|vs| - 1][j] == vs[j];
      if vs[m] < vs[|vs| - 1] then |vs| - 1 else m
  }

  /** `int(mean)` of a non-empty list. */
  function TruncMean(vs: seq<real>): int
    requires |vs| > 0
  {
    Trunc(Sum(vs) / |vs| as real)
  }

  /** The per-country keys raise on an empty grouping: the mean of nothing is NaN,
      which `int` rejects, and `idxmax` of nothing fails. */
  predicate SummaryFails(t: Table) {
    (Has(t, Confirmed) || Has(t, DeployedChws)) && |Countries(t.rows)| == 0
  }

  /** `overall_cfr`: set only when deaths are known and the case total is positive,
      and stored rounded to two decimals. */
  function CfrOf(deaths: Option<int>, cases: Option<int>): (r: Option<real>)
    ensures r.Some? <==> deaths.Some? && cases.Some? && cases.value > 0
    ensures r.Some? ==> RoundedTo(r.value, deaths.value as real * 100.0 / cases.value as real, 2)
  {
    if deaths.Some? && cases.GetOr(0) > 0 then
      var q := deaths.value as real / cases.value as real;
      assert q * 100.0 == deaths.value as real * 100.0 / cases.value as real;
      Some(Round(q * 100.0, 2))
    else None
  }

  /** `uptake_rate`: set only when the allocation is positive, with vaccinations
      defaulting to 0, and stored rounded to two decimals. */
  function UptakeOf(vaccinations: Option<int>, doses: Option<int>): (r: Option<real>)
    ensures r.Some? <==> doses.Some? && doses.value > 0
    ensures r.Some? ==> RoundedTo(r.value, vaccinations.GetOr(0) as real * 100.0 / doses.value as real, 2)
  {
    if doses.Some? && doses.value > 0 then
      var q := vaccinations.GetOr(0) as real / doses.value as real;
      assert q * 100.0 == vaccinations.GetOr(0) as real * 100.0 / doses.value as real;
      Some(Round(q * 100.0, 2))
    else None
  }

  /** One death in three cases is stored as 33.33, not as the exact third. */
  lemma CfrRoundsToHundredths()
    ensures CfrOf(Some(1), Some(3)) == Some(33.33)
  {
    assert Shift(1.0 / 3.0 * 100.0, 2) == 10000.0 / 3.0;
    assert (10000.0 / 3.0).Floor == 3333;
    assert RoundHalfEven(10000.0 / 3.0) == 3333;
    assert Unshift(3333.0, 2) == 33.33;
  }

  /** `int(df[col].sum())` when the column exists. */
  function TotalOf(t: Table, f: Field): (r: Option<int>)
    ensures r.Some? <==> Has(t, f)
    ensures r.Some? ==> r.value == Trunc(ColumnSum(t.rows, f))
  {
    if Has(t, f) then Some(Trunc(ColumnSum(t.rows, f))) else None
  }

  /** `_compute_executive_summary` on day `today`; `None` when it raises. */
  function ExecutiveSummary(t: Table, today: int): (r: Option<ExecSummary>)
    ensures r.None? <==> SummaryFails(t)
  {
    if SummaryFails(t) then None
    else
      var cases := TotalOf(t, Confirmed);
      var caseTotals := CountryTotals(t.rows, Confirmed);
      var chwTotals := CountryTotals(t.rows, DeployedChws);
      var deaths := TotalOf(t, Deaths);
      var vaccinations := TotalOf(t, Administered);
      var doses := TotalOf(t, Allocated);
      var age := DataAge(t, today);
      Some(ExecSummary(
        cases,
        if Has(t, Confirmed) then Some(TruncMean(caseTotals)) else None,
        if Has(t, Confirmed) then Some(Countries(t.rows)[ArgMax(caseTotals)]) else None,
        if Has(t, Confirmed) then Some(Trunc(caseTotals[ArgMax(caseTotals)])) else None,
        deaths,
        CfrOf(deaths, cases),
        TotalOf(t, DeployedChws),
        if Has(t, DeployedChws) then Some(TruncMean(chwTotals)) else None,
        vaccinations,
        doses,
        UptakeOf(vaccinations, doses),
        age,
        if age.Some? then Some(FreshnessOf(age.value)) else None,
        None))
  }

  /** The CFR key is set exactly when there is a deaths column and the truncated case
      total is positive; it is then deaths per hundred cases. */
  lemma OverallCfrPresence(t: Table, today: int)
    requires ExecutiveSummary(t, today).Some?
    ensures ExecutiveSummary(t, today).value.overallCfr.Some? <==>
              Has(t, Deaths) && Has(t, Confirmed) && Trunc(ColumnSum(t.rows, Confirmed)) > 0
    ensures ExecutiveSummary(t, today).value.overallCfr.Some? ==>
              ExecutiveSummary(t, today).value.overallCfr ==
              CfrOf(Some(Trunc(ColumnSum(t.rows, Deaths))), Some(Trunc(ColumnSum(t.rows, Confirmed))))
  {
    assert ExecutiveSummary(t, today).value.overallCfr == CfrOf(TotalOf(t, Deaths), TotalOf(t, Confirmed));
  }

  /** The uptake key is set exactly when the truncated allocation is positive; a
      missing vaccinations column counts as none administered. */
  lemma UptakePresence(t: Table, today: int)
    requires ExecutiveSummary(t, today).Some?
    ensures ExecutiveSummary(t, today).value.uptakeRate.Some? <==> Has(t, Allocated) && Trunc(ColumnSum(t.rows, Allocated)) > 0
    ensures ExecutiveSummary(t, today).value.uptakeRate.Some? && !Has(t, Administered) ==>
              ExecutiveSummary(t, today).value.uptakeRate.value == 0.0
  {
    assert ExecutiveSummary(t, today).value.uptakeRate == UptakeOf(TotalOf(t, Administered), TotalOf(t, Allocated));
    assert Round(0.0, 2) == 0.0 by {
      assert RoundHalfEven(Shift(0.0, 2)) == 0;
    }
  }

  /** The peak country is a country whose case total is the largest, and it is the
      first such country in group order. */
  lemma PeakCountry(t: Table, today: int)
    requires ExecutiveSummary(t, today).Some? && Has(t, Confirmed)
    ensures ExecutiveSummary(t, today).value.maxCasesCountry.Some?
    ensures ExecutiveSummary(t, today).value.maxCasesCountry.value in Countries(t.rows)
    ensures forall c :: c in Countries(t.rows) ==>
              SumFor(t.rows, c, Confirmed) <= SumFor(t.rows, ExecutiveSummary(t, today).value.maxCasesCountry.value, Confirmed)
  {
    var cs := Countries(t.rows);
    var ts := CountryTotals(t.rows, Confirmed);
    var m := ArgMax(ts);
    forall c | c in cs
      ensures SumFor(t.rows, c, Confirmed) <= SumFor(t.rows, cs[m], Confirmed)
    {
      var j :| 0 <= j < |cs| && cs[j] == c;
      assert ts[j] <= ts[m];
    }
  }

  /** The freshness key follows the age of the newest report. */
  lemma FreshnessFromAge(t: Table, today: int)
    requires ExecutiveSummary(t, today).Some?
    ensures ExecutiveSummary(t, today).value.freshnessDays == DataAge(t, today)
    ensures ExecutiveSummary(t, today).value.freshnessStatus.Some? <==> DataAge(t, today).Some?
    ensures DataAge(t, today).Some? ==>
              ExecutiveSummary(t, today).value.freshnessStatus == Some(FreshnessOf(DataAge(t, today).value))
  {
  }

  /** The "Active Countries" card: the summary's total_countries, 0 when unset. */
  function ActiveCountriesCard(s: ExecSummary): int {
    s.totalCountries.GetOr(0)
  }

  /** The summary never sets total_countries, so the card reads 0 for every table. */
  lemma ActiveCountriesAlwaysZero(t: Table, today: int)
    requires ExecutiveSummary(t, today).Some?
    ensures ActiveCountriesCard(ExecutiveSummary(t, today).value) == 0
  {
  }

  /** The "Data Status" card is drawn in the alarm colour when the age exceeds 30 days. */
  function DataCardAlarm(s: ExecSummary): bool {
    s.freshnessDays.GetOr(0) > 30
  }

  /** The alarm colour goes with the "Stale" status, and with nothing else. */
  lemma AlarmIffStale(t: Table, today: int)
    requires ExecutiveSummary(t, today).Some?
    ensures DataCardAlarm(ExecutiveSummary(t, today).value) <==> ExecutiveSummary(t, today).value.freshnessStatus == Some(Stale)
  {
    FreshnessFromAge(t, today);
    if DataAge(t, today).Some? {
      FreshnessBands(DataAge(t, today).value);
    }
  }

  /** A table with a confirmed-cases column but no country raises, however it was
      filtered to that state. */
  lemma EmptySelectionFails(t: Table, today: int)
    requires Has(t, Confirmed) && |t.rows| == 0
    ensures ExecutiveSummary(t, today).None?
  {
  }

  // ---------------------------------------------------------------------------
  // Trend

  datatype Trend = Increasing | Decreasing | Steady

  /** The comparison of the last two 7-day windows of the 7-day average. */
  function TrendOf(recent: real, previous: real): Trend {
    if recent > previous * 1.1 then Increasing
    else if recent < previous * 0.9 then Decreasing
    else Steady
  }

  /** The insight is shown only for a series longer than 14 days. */
  function TrendInsight(days: nat, recent: real, previous: real): (r: Option<Trend>)
    ensures r.Some? <==> days > 14
  {
    if days > 14 then Some(TrendOf(recent, previous)) else None
  }

  /** For a non-negative previous average the three outcomes are the three bands
      around it: above 110%, below 90%, and in between. */
  lemma TrendBands(recent: real, previous: real)
    requires previous >= 0.0
    ensures TrendOf(recent, previous) == Increasing <==> recent > previous * 1.1
    ensures TrendOf(recent, previous) == Decreasing <==> recent < previous * 0.9
    ensures TrendOf(recent, previous) == Steady <==> previous * 0.9 <= recent <= previous * 1.1
  {
  }

  /** The trend depends on the ratio of the two averages, not their scale. */
  lemma TrendScaleFree(recent: real, previous: real, k: real)
    requires k > 0.0
    ensures TrendOf(recent * k, previous * k) == TrendOf(recent, previous)
  {
    assert (recent * k > previous * k * 1.1) == (recent > previous * 1.1);
    assert (recent * k < previous * k * 0.9) == (recent < previous * 0.9);
  }

  /** Two zero averages are steady; growth from zero is increasing. */
  lemma TrendFromZero(recent: real)
    ensures TrendOf(0.0, 0.0) == Steady
    ensures recent > 0.0 ==> TrendOf(recent, 0.0) == Increasing
  {
  }

  // ---------------------------------------------------------------------------
  // Resource gaps

  /** The response figures of one country. */
  datatype Response = Response(country: string, chwPerCase: Num, vaccinationPerCase: Num)

  /** Per-country sums of the four response columns and the two unguarded ratios. */
  function ResponseFor(rows: seq<Row>, c: string): (r: Response)
    ensures r.country == c
    ensures r.chwPerCase == Div(SumFor(rows, c, DeployedChws), SumFor(rows, c, Confirmed))
    ensures r.vaccinationPerCase == Div(SumFor(rows, c, Administered), SumFor(rows, c, Confirmed))
  {
    var cases := SumFor(rows, c, Confirmed);
    Response(c, Div(SumFor(rows, c, DeployedChws), cases), Div(SumFor(rows, c, Administered), cases))
  }

  const IssueChw := "Low CHW coverage"
  const IssueVaccination := "Low vaccination rate"

  function IssueRules(r: Response): seq<Rule> {
    [Rule(Below(r.chwPerCase, 0.5), IssueChw),
     Rule(Below(r.vaccinationPerCase, 0.1), IssueVaccination)]
  }

  /** The issues listed for a country (their figures are formatting and left out). */
  function Issues(r: Response): seq<string> {
    Fired(IssueRules(r))
  }

  predicate IsGap(r: Response) {
    Below(r.chwPerCase, 0.5) || Below(r.vaccinationPerCase, 0.1)
  }

  /** The selected rows of the gap table. */
  function Gaps(rs: seq<Response>): (gs: seq<Response>)
    ensures forall g :: g in gs <==> g in rs && IsGap(g)
  {
    Select(rs, seq(|rs|, i requires 0 <= i < |rs| => IsGap(rs[i])))
  }

  /** What the response section shows: nothing without a country column, a failed
      aggregation when one of the four columns is missing, or the gap list. */
  datatype GapReport = NoCountry | MissingColumn | GapList(gaps: seq<Response>)

  function ResponseGaps(t: Table): (r: GapReport)
    ensures r.NoCountry? <==> CountryCol !in t.columns
    ensures r.MissingColumn? <==>
              (CountryCol in t.columns && !(Has(t, DeployedChws) && Has(t, Confirmed) && Has(t, Administered) && Has(t, Sites)))
  {
    if CountryCol !in t.columns then NoCountry
    else if !(Has(t, DeployedChws) && Has(t, Confirmed) && Has(t, Administered) && Has(t, Sites)) then MissingColumn
    else
      var cs := Countries(t.rows);
      GapList(Gaps(seq(|cs|, i requires 0 <= i < |cs| => ResponseFor(t.rows, cs[i]))))
  }

  /** A country is listed exactly when it has at least one issue; the issues come in
      the order CHW coverage, then vaccination rate. */
  lemma GapsHaveIssues(r: Response)
    ensures IsGap(r) <==> |Issues(r)| > 0
    ensures IssueChw in Issues(r) <==> Below(r.chwPerCase, 0.5)
    ensures IssueVaccination in Issues(r) <==> Below(r.vaccinationPerCase, 0.1)
    ensures IsSubseq(Issues(r), [IssueChw, IssueVaccination])
  {
    var rules := IssueRules(r);
    assert Messages(rules) == [IssueChw, IssueVaccination];
    FiredInRuleOrder(rules);
    assert MessageOnlyAt(rules, 0) && MessageOnlyAt(rules, 1);
    FiredIffFires(rules, 0);
    FiredIffFires(rules, 1);
  }

  /** The gap list keeps the countries' order. */
  lemma GapsInOrder(rs: seq<Response>)
    ensures IsSubseq(Gaps(rs), rs)
  {
    SelectSubseq(rs, seq(|rs|, i requires 0 <= i < |rs| => IsGap(rs[i])));
  }

  /** A country with no cases and a positive CHW total is never a CHW gap: its ratio
      is +inf. */
  lemma ZeroCaseCountryNoChwIssue(rows: seq<Row>, c: string)
    requires SumFor(rows, c, Confirmed) == 0.0 && SumFor(rows, c, DeployedChws) > 0.0
    ensures IssueChw !in Issues(ResponseFor(rows, c))
  {
    GapsHaveIssues(ResponseFor(rows, c));
  }

  // ---------------------------------------------------------------------------
  // Completeness

  /** `round((1 - missing / total) * 100, 1)` with numpy division: NaN for an empty
      table, otherwise the present share rounded to one decimal. */
  function CompletenessPct(missing: nat, total: nat): (p: Num)
    requires missing <= total
    ensures p.Fin? <==> total > 0
    ensures p.Fin? ==> 0.0 <= p.v <= 100.0
    ensures p.Fin? ==> RoundedTo(p.v, (total - missing) as real * 100.0 / total as real, 1)
  {
    var share := Div(missing as real, total as real);
    if share.Fin? then
      var y := (1.0 - share.v) * 100.0;
      assert y == (total - missing) as real * 100.0 / total as real;
      assert 0.0 <= y <= 100.0;
      assert Shift(y, 1) == y * 10.0;
      var k := RoundHalfEven(y * 10.0);
      assert 0 <= k <= 1000;
      assert Unshift(k as real, 1) == k as real / 10.0;
      assert Round(y, 1) == k as real / 10.0;
      Fin(Round(y, 1))
    else NaN
  }

  datatype Bin = Complete | Partial | Poor

  predicate InBin(p: Num, b: Bin) {
    match b
    case Complete => p.Fin? && p.v >= 90.0
    case Partial => p.Fin? && 70.0 <= p.v < 90.0
    case Poor => p.Fin? && p.v < 70.0
  }

  /** A finite share falls in exactly one bin; NaN (an empty table) falls in none. */
  lemma BinsPartition(p: Num)
    ensures p.Fin? ==> (InBin(p, Complete) || InBin(p, Partial) || InBin(p, Poor))
    ensures !(InBin(p, Complete) && InBin(p, Partial)) && !(InBin(p, Complete) && InBin(p, Poor))
    ensures !(InBin(p, Partial) && InBin(p, Poor))
    ensures p.NaN? ==> !InBin(p, Complete) && !InBin(p, Partial) && !InBin(p, Poor)
  {
  }

  /** The bins compare the rounded share: 1004 missing cells in 10000 rows are 89.96%
      present, which is stored as 90.0 and counted as complete. */
  lemma RoundedShareReachesComplete()
    ensures (10000 - 1004) as real * 100.0 / 10000.0 < 90.0
    ensures CompletenessPct(1004, 10000) == Fin(90.0)
    ensures InBin(CompletenessPct(1004, 10000), Complete)
  {
    assert Shift(89.96, 1) == 899.6;
    assert RoundHalfEven(899.6) == 900;
    assert Unshift(900.0, 1) == 90.0;
  }

  /** The number of columns in bin `b`, given each column's missing count. */
  function BinCount(missing: seq<nat>, total: nat, b: Bin): (n: nat)
    requires forall i :: 0 <= i < |missing| ==> missing[i] <= total
    ensures n <= |missing|
    decreases |missing|
  {
    if |missing| == 0 then 0
    else
      var k := |missing| - 1;
      BinCount(missing[..k], total, b) + (if InBin(CompletenessPct(missing[k], total), b) then 1 else 0)
  }

  /** On a non-empty table the three counts add up to the number of columns; on an
      empty one all three are 0. */
  lemma {:induction false} BinCountsCoverColumns(missing: seq<nat>, total: nat)
    requires forall i :: 0 <= i < |missing| ==> missing[i] <= total
    ensures total > 0 ==> BinCount(missing, total, Complete) + BinCount(missing, total, Partial) +
                          BinCount(missing, total, Poor) == |missing|
    ensures total == 0 ==> BinCount(missing, total, Complete) == 0 && BinCount(missing, total, Partial) == 0 &&
                           BinCount(missing, total, Poor) == 0
    decreases |missing|
  {
    if |missing| > 0 {
      var k := |missing| - 1;
      BinCountsCoverColumns(missing[..k], total);
      BinsPartition(CompletenessPct(missing[k], total));
    }
  }

  // ---------------------------------------------------------------------------
  // Strategic recommendations

  datatype Priority = High | Medium

  /** One recommendation card: its priority, category, headline and the qualifying
      countries in group order (the metric range line is formatting and left out). */
  datatype Card = Card(priority: Priority, category: string, text: string, countries: seq<string>)

  /** The countries among `cs` whose flag is set. */
  function Qualifying(cs: seq<string>, flags: seq<bool>): seq<string>
    requires |flags| == |cs|
  {
    Select(cs, flags)
  }

  /** A country's CFR, deaths over cases without a guard, is above 3%. */
  predicate HighCfr(rows: seq<Row>, c: string) {
    Above(Scale(Div(SumFor(rows, c, Deaths), SumFor(rows, c, Confirmed)), 100.0), 3.0)
  }

  function ClinicalFlags(rows: seq<Row>, cs: seq<string>): (fs: seq<bool>)
    ensures |fs| == |cs|
    ensures forall i :: 0 <= i < |cs| ==> fs[i] == HighCfr(rows, cs[i])
  {
    seq(|cs|, i requires 0 <= i < |cs| => HighCfr(rows, cs[i]))
  }

  function UptakeFlags(rows: seq<Row>, cs: seq<string>): (fs: seq<bool>)
    ensures |fs| == |cs|
    ensures forall i :: 0 <= i < |cs| ==>
              fs[i] == Below(Scale(Div(SumFor(rows, cs[i], Administered), SumFor(rows, cs[i], Allocated)), 100.0), 70.0)
  {
    seq(|cs|, i requires 0 <= i < |cs| =>
      Below(Scale(Div(SumFor(rows, cs[i], Administered), SumFor(rows, cs[i], Allocated)), 100.0), 70.0))
  }

  function WorkforceFlags(rows: seq<Row>, cs: seq<string>): (fs: seq<bool>)
    ensures |fs| == |cs|
    ensures forall i :: 0 <= i < |cs| ==>
              fs[i] == Below(Div(SumFor(rows, cs[i], DeployedChws), SumFor(rows, cs[i], Confirmed)), 0.5)
  {
    seq(|cs|, i requires 0 <= i < |cs| =>
      Below(Div(SumFor(rows, cs[i], DeployedChws), SumFor(rows, cs[i], Confirmed)), 0.5))
  }

  /** A card when its columns exist and some country qualifies. */
  function CardIf(present: bool, priority: Priority, category: string, text: nat -> string,
                  countries: seq<string>): (r: seq<Card>)
    ensures |r| <= 1
    ensures |r| == 1 <==> present && |countries| > 0
    ensures |r| == 1 ==> r[0] == Card(priority, category, text(|countries|), countries)
  {
    if present && |countries| > 0 then [Card(priority, category, text(|countries|), countries)] else []
  }

  function ClinicalText(n: nat): string {
    "Immediate clinical intervention needed in " + NatToString(n) + " countries with CFR >3%"
  }

  function VaccinationText(n: nat): string {
    "Vaccine rollout optimization needed in " + NatToString(n) + " countries"
  }

  function WorkforceText(n: nat): string {
    "CHW deployment expansion needed in " + NatToString(n) + " countries"
  }

  const ClinicalCare := "Clinical Care"
  const Vaccination := "Vaccination"
  const Workforce := "Workforce"

  function ClinicalCard(t: Table): seq<Card> {
    var cs := Countries(t.rows);
    CardIf(CountryCol in t.columns && Has(t, Confirmed) && Has(t, Deaths), High, ClinicalCare, ClinicalText,
           Qualifying(cs, ClinicalFlags(t.rows, cs)))
  }

  function VaccinationCard(t: Table): seq<Card> {
    var cs := Countries(t.rows);
    CardIf(CountryCol in t.columns && Has(t, Allocated) && Has(t, Administered), Medium, Vaccination, VaccinationText,
           Qualifying(cs, UptakeFlags(t.rows, cs)))
  }

  function WorkforceCard(t: Table): seq<Card> {
    var cs := Countries(t.rows);
    CardIf(CountryCol in t.columns && Has(t, DeployedChws) && Has(t, Confirmed), High, Workforce, WorkforceText,
           Qualifying(cs, WorkforceFlags(t.rows, cs)))
  }

  /** `_create_recommendations_summary`'s list. */
  function StrategicCards(t: Table): (cards: seq<Card>)
    ensures |cards| <= 3
  {
    ClinicalCard(t) + VaccinationCard(t) + WorkforceCard(t)
  }

  function Categories(cards: seq<Card>): (names: seq<string>)
    ensures |names| == |cards|
    ensures forall i :: 0 <= i < |cards| ==> names[i] == cards[i].category
  {
    seq(|cards|, i requires 0 <= i < |cards| => cards[i].category)
  }

  /** The cards come in the order Clinical Care, Vaccination, Workforce, with
      priorities High, Medium, High. */
  lemma StrategicOrder(t: Table)
    ensures IsSubseq(Categories(StrategicCards(t)), [ClinicalCare, Vaccination, Workforce])
    ensures forall c :: c in StrategicCards(t) ==> (c.priority == Medium <==> c.category == Vaccination)
  {
    CardsInOrder(ClinicalCard(t), VaccinationCard(t), WorkforceCard(t));
  }

  /** At most one card of each kind, concatenated in kind order. */
  lemma CardsInOrder(a: seq<Card>, b: seq<Card>, w: seq<Card>)
    requires |a| <= 1 && |b| <= 1 && |w| <= 1
    requires |a| == 1 ==> a[0].category == ClinicalCare && a[0].priority == High
    requires |b| == 1 ==> b[0].category == Vaccination && b[0].priority == Medium
    requires |w| == 1 ==> w[0].category == Workforce && w[0].priority == High
    ensures IsSubseq(Categories(a + b + w), [ClinicalCare, Vaccination, Workforce])
    ensures forall c :: c in a + b + w ==> (c.priority == Medium <==> c.category == Vaccination)
  {
    var names := Categories(a + b + w);
    var xs := (if |a| == 1 then [ClinicalCare] else []) + (if |b| == 1 then [Vaccination] else []) +
              (if |w| == 1 then [Workforce] else []);
    assert names == xs;
    ThreeFlagsSubseq(|a| == 1, |b| == 1, |w| == 1);
  }

  /** Keeping any of three items keeps their order. */
  lemma ThreeFlagsSubseq(x: bool, y: bool, z: bool)
    ensures IsSubseq((if x then [ClinicalCare] else []) + (if y then [Vaccination] else []) +
                     (if z then [Workforce] else []), [ClinicalCare, Vaccination, Workforce])
  {
    var all := [ClinicalCare, Vaccination, Workforce];
    var tail := [Vaccination, Workforce];
    assert all[1..] == tail && tail[1..] == [Workforce] && [Workforce][1..] == [];
    var kept := (if y then [Vaccination] else []) + (if z then [Workforce] else []);
    assert IsSubseq((if z then [Workforce] else []), [Workforce]);
    assert IsSubseq(kept, tail) by {
      if y {
        assert kept[1..] == (if z then [Workforce] else []);
      } else {
        assert kept == (if z then [Workforce] else []);
      }
    }
    if x {
      var k := [ClinicalCare] + kept;
      assert k[1..] == kept;
    } else {
      SubseqCons(kept, ClinicalCare, tail);
    }
  }

  /** The clinical card appears exactly when its columns exist and some country's
      CFR is above 3%; it then lists exactly those countries, in group order, and its
      headline counts them. */
  lemma ClinicalCardSpec(t: Table)
    ensures |ClinicalCard(t)| == 1 <==>
              CountryCol in t.columns && Has(t, Confirmed) && Has(t, Deaths) &&
              exists c :: c in Countries(t.rows) && HighCfr(t.rows, c)
    ensures |ClinicalCard(t)| == 1 ==> forall c :: c in ClinicalCard(t)[0].countries <==>
              c in Countries(t.rows) && HighCfr(t.rows, c)
    ensures |ClinicalCard(t)| == 1 ==> IsSubseq(ClinicalCard(t)[0].countries, Countries(t.rows))
    ensures |ClinicalCard(t)| == 1 ==> ClinicalCard(t)[0].text == ClinicalText(|ClinicalCard(t)[0].countries|)
  {
    var cs := Countries(t.rows);
    var fs := ClinicalFlags(t.rows, cs);
    SelectSubseq(cs, fs);
    var q := Qualifying(cs, fs);
    assert forall c :: c in q <==> c in cs && HighCfr(t.rows, c) by {
      forall c
        ensures c in q <==> c in cs && HighCfr(t.rows, c)
      {
        if c in cs && HighCfr(t.rows, c) {
          var i :| 0 <= i < |cs| && cs[i] == c;
          assert fs[i];
        }
      }
    }
    if |q| > 0 {
      assert q[0] in q;
    }
  }

  /** A country with cases but no deaths recorded never raises the clinical card;
      one with deaths and zero cases always qualifies (its CFR is +inf). */
  lemma ClinicalQualifiesAtZeroCases(rows: seq<Row>, c: string)
    ensures SumFor(rows, c, Deaths) == 0.0 && SumFor(rows, c, Confirmed) > 0.0 ==> !HighCfr(rows, c)
    ensures SumFor(rows, c, Deaths) > 0.0 && SumFor(rows, c, Confirmed) == 0.0 ==> HighCfr(rows, c)
  {
  }

  /** The "Affected Countries" line: the first five, and "..." exactly when more are
      hidden. */
  datatype Affected = Affected(shown: seq<string>, more: bool)

  function AffectedOf(cs: seq<string>): (a: Affected)
    ensures |a.shown| == (if |cs| <= 5 then |cs| else 5)
    ensures a.shown == cs[..|a.shown|]
    ensures a.more <==> |a.shown| < |cs|
  {
    Affected(Take(cs, 5), |cs| > 5)
  }

  function AffectedLine(cs: seq<string>): string {
    var a := AffectedOf(cs);
    Join(a.shown, ", ") + (if a.more then "..." else "")
  }

  /** Six affected countries: five names and the ellipsis. */
  lemma AffectedLineExample()
    ensures AffectedLine(["A", "B", "C", "D", "E", "F"]) == "A, B, C, D, E..."
  {
    var cs := ["A", "B", "C", "D", "E", "F"];
    assert Take(cs, 5) == ["A", "B", "C", "D"] + ["E"];
    JoinFour("A", "B", "C", "D", ", ");
    JoinSnoc(["A", "B", "C", "D"], "E", ", ");
  }

  /** No card at all gives the all-clear message. */
  function AllClear(t: Table): (b: bool) {
    |StrategicCards(t)| == 0
  }

  lemma AllClearIffNoQualifyingCountry(t: Table)
    ensures AllClear(t) <==> |ClinicalCard(t)| == 0 && |VaccinationCard(t)| == 0 && |WorkforceCard(t)| == 0
  {
  }
}

=== FILE: floats.dfy ===
/** The float64 values that pandas/numpy arithmetic in the dashboard can produce.
    Cells read from the data are finite or missing; infinities and NaN only arise from
    divisions that are not guarded against a zero denominator. The sign of an infinity
    matters to the scoring rules, so it is kept. */
module Floats {
  import opened Base

  datatype Num = Fin(v: real) | PosInf | NegInf | NaN

  /** numpy true division of finite operands under `errstate(divide='ignore',
      invalid='ignore')`: x/0 is an infinity with the sign of x, and 0/0 is NaN. */
  function Div(x: real, y: real): (r: Num)
    ensures r.Fin? <==> y != 0.0
    ensures r.Fin? ==> r.v * y == x
    ensures r.PosInf? <==> y == 0.0 && x > 0.0
    ensures r.NegInf? <==> y == 0.0 && x < 0.0
    ensures r.NaN? <==> y == 0.0 && x == 0.0
  {
    if y != 0.0 then Fin(x / y)
    else if x > 0.0 then PosInf
    else if x < 0.0 then NegInf
    else NaN
  }

  /** Multiplication by a positive constant (`* 100`, `* 1000`, `* 25`, `/ 5.0`). */
  function Scale(n: Num, k: real): (r: Num)
    requires k > 0.0
    ensures r.Fin? <==> n.Fin?
    ensures r.Fin? ==> r.v == n.v * k
    ensures !n.Fin? ==> r == n
  {
    match n
    case Fin(x) => Fin(x * k)
    case _ => n
  }

  /** IEEE addition: NaN absorbs everything and opposite infinities give NaN. */
  function Add(a: Num, b: Num): (r: Num)
    ensures a.Fin? && b.Fin? ==> r == Fin(a.v + b.v)
    ensures (a.NaN? || b.NaN?) ==> r.NaN?
    ensures (a.PosInf? && b.NegInf?) || (a.NegInf? && b.PosInf?) ==> r.NaN?
  {
    if a.NaN? || b.NaN? then NaN
    else if (a.PosInf? && b.NegInf?) || (a.NegInf? && b.PosInf?) then NaN
    else if a.PosInf? || b.PosInf? then PosInf
    else if a.NegInf? || b.NegInf? then NegInf
    else Fin(a.v + b.v)
  }

  /** IEEE `a < b`: every comparison with NaN is false. */
  predicate Lt(a: Num, b: Num) {
    match (a, b)
    case (Fin(x), Fin(y)) => x < y
    case (Fin(_), PosInf) => true
    case (NegInf, Fin(_)) => true
    case (NegInf, PosInf) => true
    case _ => false
  }

  /** Python's builtin `min(a, b)`: `b` replaces `a` only when `b < a`, so a NaN
      first argument is returned unchanged. */
  function PyMin(a: Num, b: Num): (r: Num)
    ensures r == a || r == b
    ensures a.Fin? && b.Fin? ==> r == Fin(if b.v < a.v then b.v else a.v)
    ensures a.NaN? ==> r.NaN?
  {
    if Lt(b, a) then b else a
  }

  /** Python's builtin `max(a, b)`: `b` replaces `a` only when `b > a`. */
  function PyMax(a: Num, b: Num): (r: Num)
    ensures r == a || r == b
    ensures a.Fin? && b.Fin? ==> r == Fin(if a.v < b.v then b.v else a.v)
    ensures a.NaN? ==> r.NaN?
  {
    if Lt(a, b) then b else a
  }

  /** `Series.replace([inf, -inf], nan)` followed by `notna`: only finite values are known. */
  function Known(n: Num): (r: Option<real>)
    ensures r.Some? <==> n.Fin?
    ensures r.Some? ==> r.value == n.v
  {
    if n.Fin? then Some(n.v) else None
  }

  /** The guarded ratio used at several sites, either `x / y.replace(0, nan)` or
      `(x / y).replace([inf, -inf], nan)`: unknown exactly when the denominator is 0. */
  function GuardedDiv(x: real, y: real): (r: Option<real>)
    ensures r.Some? <==> y != 0.0
    ensures r.Some? ==> r.value * y == x
  {
    if y == 0.0 then None else Some(x / y)
  }

  /** Both guarding idioms agree with the unguarded division once non-finite results
      are mapped to unknown. */
  lemma GuardedIsKnownDiv(x: real, y: real)
    ensures GuardedDiv(x, y) == Known(Div(x, y))
  {
  }

  /** Multiplication of an optional value by a constant (NaN stays NaN). */
  function OptScale(o: Option<real>, k: real): (r: Option<real>)
    ensures r.Some? <==> o.Some?
    ensures r.Some? ==> r.value == o.value * k
  {
    match o
    case Some(x) => Some(x * k)
    case None => None
  }

  /** Python `int(x)` on a finite float: truncation toward zero. */
  function Trunc(x: real): (r: int)
    ensures x >= 0.0 ==> r as real <= x < r as real + 1.0
    ensures x < 0.0 ==> r as real - 1.0 < x <= r as real
  {
    if x >= 0.0 then x.Floor else -((-x).Floor)
  }

  /** Rounding to the nearest integer with ties to even, as `format(x, '.0f')` does. */
  function RoundHalfEven(x: real): (r: int)
    ensures x - 0.5 <= r as real <= x + 0.5
  {
    var f := x.Floor;
    var frac := x - f as real;
    if frac < 0.5 then f
    else if frac > 0.5 then f + 1
    else if f % 2 == 0 then f
    else f + 1
  }

  /** `x * 10^n`, one factor of ten at a time. */
  function Shift(x: real, n: nat): real
    decreases n
  {
    if n == 0 then x else Shift(10.0 * x, n - 1)
  }

  /** `y / 10^n`, one division by ten at a time. */
  function Unshift(y: real, n: nat): real {
    if n == 0 then y else Unshift(y, n - 1) / 10.0
  }

  /** Shifting undoes unshifting. */
  lemma {:induction false} ScaleUnshift(y: real, n: nat)
    ensures Shift(Unshift(y, n), n) == y
  {
    if n > 0 {
      ScaleUnshift(y, n - 1);
      assert 10.0 * Unshift(y, n) == Unshift(y, n - 1);
    }
  }

  /** `r` is `x` rounded to `n` decimals: a whole number of units of 10^-n, at most
      half a unit away from `x`. */
  predicate RoundedTo(r: real, x: real, n: nat) {
    Shift(r, n).Floor as real == Shift(r, n) && Shift(x, n) - 0.5 <= Shift(r, n) <= Shift(x, n) + 0.5
  }

  /** Python `round(x, n)` on a finite float: the nearest multiple of 10^-n, ties to
      even. */
  function Round(x: real, n: nat): (r: real)
    ensures RoundedTo(r, x, n)
  {
    var k := RoundHalfEven(Shift(x, n));
    ScaleUnshift(k as real, n);
    assert (k as real).Floor == k;
    Unshift(k as real, n)
  }

  // Threshold tests. A NaN or unknown metric fails every comparison.

  /** `x > k` on a float that may be infinite or NaN. */
  predicate Above(x: Num, k: real) {
    x.PosInf? || (x.Fin? && x.v > k)
  }

  /** `x < k` on a float that may be infinite or NaN. */
  predicate Below(x: Num, k: real) {
    x.NegInf? || (x.Fin? && x.v < k)
  }

  /** `x < k` on a guarded ratio. */
  predicate KnownBelow(x: Option<real>, k: real) {
    x.Some? && x.value < k
  }
}

=== FILE: grouping.dfy ===
/** pandas `groupby(key).sum()` and the ordering helpers the views use around it.
    A row contributes an `Entry`: its group key (absent when the key cell is missing,
    in which case groupby drops the row) and the value it adds to its group's sum
    (a missing value adds 0, since `sum` skips NaN). */
module Grouping {
  import opened Base

  datatype Entry<K> = Entry(key: Option<K>, val: real)

  /** The distinct present keys, in order of first appearance. */
  function KeysOf<K(==,!new)>(es: seq<Entry<K>>): (ks: seq<K>)
    ensures Distinct(ks)
    ensures forall k :: k in ks <==> exists i :: 0 <= i < |es| && es[i].key == Some(k)
    decreases |es|
  {
    if |es| == 0 then []
    else
      var rest := KeysOf(es[..|es| - 1]);
      var e := es[|es| - 1];
      assert forall i :: 0 <= i < |es| - 1 ==> es[..|es| - 1][i] == es[i];
      if e.key.Some? && e.key.value !in rest then rest + [e.key.value] else rest
  }

  /** The sum of group `k`. */
  function Total<K(==)>(es: seq<Entry<K>>, k: K): real
    decreases |es|
  {
    if |es| == 0 then 0.0
    else Total(es[..|es| - 1], k) + (if es[|es| - 1].key == Some(k) then es[|es| - 1].val else 0.0)
  }

  /** One group sum per key, in the order of `ks`. */
  function Totals<K(==)>(ks: seq<K>, es: seq<Entry<K>>): (r: seq<real>)
    ensures |r| == |ks|
    ensures forall i :: 0 <= i < |ks| ==> r[i] == Total(es, ks[i])
    decreases |ks|
  {
    if |ks| == 0 then [] else Totals(ks[..|ks| - 1], es) + [Total(es, ks[|ks| - 1])]
  }

  /** The sum over every row that has a key (the rows groupby keeps). */
  function KeyedSum<K>(es: seq<Entry<K>>): real
    decreases |es|
  {
    if |es| == 0 then 0.0
    else KeyedSum(es[..|es| - 1]) + (if es[|es| - 1].key.Some? then es[|es| - 1].val else 0.0)
  }

  /** A group sum over non-negative values is non-negative. */
  lemma {:induction false} TotalNonNegative<K>(es: seq<Entry<K>>, k: K)
    requires forall i :: 0 <= i < |es| ==> es[i].val >= 0.0
    ensures Total(es, k) >= 0.0
    decreases |es|
  {
    if |es| > 0 {
      TotalNonNegative(es[..|es| - 1], k);
    }
  }

  /** A group that no row belongs to sums to 0. */
  lemma {:induction false} TotalOfAbsentKey<K>(es: seq<Entry<K>>, k: K)
    requires forall i :: 0 <= i < |es| ==> es[i].key != Some(k)
    ensures Total(es, k) == 0.0
    decreases |es|
  {
    if |es| > 0 {
      TotalOfAbsentKey(es[..|es| - 1], k);
    }
  }

  /** Adding one row to the data adds its value to the sums of exactly the groups
      listed in `ks` that it belongs to: at most one, since `ks` is duplicate-free. */
  lemma {:induction false} TotalsSnoc<K>(ks: seq<K>, es: seq<Entry<K>>, e: Entry<K>)
    requires Distinct(ks)
    ensures Sum(Totals(ks, es + [e])) ==
            Sum(Totals(ks, es)) + (if e.key.Some? && e.key.value in ks then e.val else 0.0)
    decreases |ks|
  {
    var es' := es + [e];
    if |ks| > 0 {
      var init := ks[..|ks| - 1];
      var last := ks[|ks| - 1];
      assert Distinct(init);
      TotalsSnoc(init, es, e);
      SumOfTotalsLast(ks, es');
      SumOfTotalsLast(ks, es);
      TotalSnoc(es, e, last);
      assert e.key.Some? && e.key.value in ks <==>
             (e.key.Some? && e.key.value in init) || e.key == Some(last) by {
        assert ks == init + [last];
      }
      assert !(e.key.Some? && e.key.value in init && e.key == Some(last));
    }
  }

  lemma SumOfTotalsLast<K>(ks: seq<K>, es: seq<Entry<K>>)
    requires |ks| > 0
    ensures Sum(Totals(ks, es)) == Sum(Totals(ks[..|ks| - 1], es)) + Total(es, ks[|ks| - 1])
  {
    var t := Totals(ks, es);
    assert t[..|t| - 1] == Totals(ks[..|ks| - 1], es);
  }

  lemma TotalSnoc<K>(es: seq<Entry<K>>, e: Entry<K>, k: K)
    ensures Total(es + [e], k) == Total(es, k) + (if e.key == Some(k) then e.val else 0.0)
  {
    assert (es + [e])[..|es|] == es;
  }

  /** The group sums partition the keyed total: summing the per-group sums over a
      duplicate-free list that covers every key gives the sum over all keyed rows. */
  lemma {:induction false} PartitionSum<K>(ks: seq<K>, es: seq<Entry<K>>)
    requires Distinct(ks)
    requires forall i :: 0 <= i < |es| && es[i].key.Some? ==> es[i].key.value in ks
    ensures Sum(Totals(ks, es)) == KeyedSum(es)
    decreases |es|
  {
    if |es| == 0 {
      forall i | 0 <= i < |ks|
        ensures Totals(ks, es)[i] == 0.0
      {
      }
      SumOfZeros(Totals(ks, es));
    } else {
      var init := es[..|es| - 1];
      var e := es[|es| - 1];
      PartitionSum(ks, init);
      assert init + [e] == es;
      TotalsSnoc(ks, init, e);
    }
  }

  lemma {:induction false} SumOfZeros(xs: seq<real>)
    requires forall i :: 0 <= i < |xs| ==> xs[i] == 0.0
    ensures Sum(xs) == 0.0
    decreases |xs|
  {
    if |xs| > 0 {
      SumOfZeros(xs[..|xs| - 1]);
    }
  }

  /** Summing every group in first-appearance order accounts for every keyed row. */
  lemma GroupSumsCoverAll<K(!new)>(es: seq<Entry<K>>)
    ensures Sum(Totals(KeysOf(es), es)) == KeyedSum(es)
  {
    PartitionSum(KeysOf(es), es);
  }

  // ---------------------------------------------------------------------------
  // Ordered integer keys (dates, week starts): pandas sorts these group keys.

  predicate Increasing(s: seq<int>) {
    forall i, j :: 0 <= i < j < |s| ==> s[i] < s[j]
  }

  function InsertSorted(x: int, s: seq<int>): (r: seq<int>)
    requires Increasing(s)
    ensures Increasing(r)
    ensures forall y :: y in r <==> y == x || y in s
    decreases |s|
  {
    if |s| == 0 then [x]
    else if x < s[0] then [x] + s
    else if x == s[0] then s
    else
      var tail := InsertSorted(x, s[1..]);
      assert forall i :: 0 <= i < |s[1..]| ==> s[0] < s[1..][i];
      assert forall y :: y in tail ==> s[0] < y;
      ConsIncreasing(s[0], tail);
      assert s == [s[0]] + s[1..];
      [s[0]] + tail
  }

  lemma ConsIncreasing(a: int, t: seq<int>)
    requires Increasing(t)
    requires forall y :: y in t ==> a < y
    ensures Increasing([a] + t)
  {
    var r := [a] + t;
    forall i, j | 0 <= i < j < |r|
      ensures r[i] < r[j]
    {
      assert r[j] == t[j - 1] && t[j - 1] in t;
      if i > 0 {
        assert r[i] == t[i - 1];
      }
    }
  }

  /** The distinct values of `xs` in ascending order. */
  function SortedDistinct(xs: seq<int>): (r: seq<int>)
    ensures Increasing(r)
    ensures forall y :: y in r <==> y in xs
    decreases |xs|
  {
    if |xs| == 0 then []
    else InsertSorted(xs[|xs| - 1], SortedDistinct(xs[..|xs| - 1]))
  }

  /** The present keys of integer-keyed entries, ascending: groupby's key order. */
  function SortedKeys(es: seq<Entry<int>>): (ks: seq<int>)
    ensures Increasing(ks)
    ensures forall k :: k in ks <==> exists i :: 0 <= i < |es| && es[i].key == Some(k)
  {
    SortedDistinct(KeysOf(es))
  }

  /** Summing the groups in ascending key order also accounts for every keyed row. */
  lemma SortedGroupSumsCoverAll(es: seq<Entry<int>>)
    ensures Sum(Totals(SortedKeys(es), es)) == KeyedSum(es)
  {
    var ks := SortedKeys(es);
    IncreasingIsDistinct(ks);
    forall i | 0 <= i < |es| && es[i].key.Some?
      ensures es[i].key.value in ks
    {
    }
    PartitionSum(ks, es);
  }

  lemma IncreasingIsDistinct(s: seq<int>)
    requires Increasing(s)
    ensures Distinct(s)
  {
  }

  // ---------------------------------------------------------------------------
  // `sort_values(score, ascending=False).head(k)`.

  datatype Ranked<T> = Ranked(item: T, score: real)

  predicate SortedDesc<T>(s: seq<Ranked<T>>) {
    forall i, j :: 0 <= i < j < |s| ==> s[i].score >= s[j].score
  }

  function InsertDesc<T>(x: Ranked<T>, s: seq<Ranked<T>>): (r: seq<Ranked<T>>)
    requires SortedDesc(s)
    ensures |r| == |s| + 1
    ensures r[0] == x || (|s| > 0 && r[0] == s[0])
    ensures SortedDesc(r)
    ensures multiset(r) == multiset(s) + multiset{x}
    decreases |s|
  {
    if |s| == 0 then [x]
    else if x.score >= s[0].score then [x] + s
    else
      var tail := InsertDesc(x, s[1..]);
      assert s == [s[0]] + s[1..];
      [s[0]] + tail
  }

  /** A descending permutation of `xs` by score. */
  function SortDesc<T>(xs: seq<Ranked<T>>): (r: seq<Ranked<T>>)
    ensures SortedDesc(r)
    ensures multiset(r) == multiset(xs)
    decreases |xs|
  {
    if |xs| == 0 then []
    else
      assert xs == xs[..|xs| - 1] + [xs[|xs| - 1]];
      InsertDesc(xs[|xs| - 1], SortDesc(xs[..|xs| - 1]))
  }

  /** The `k` highest-scoring items, highest first. */
  function TopK<T>(xs: seq<Ranked<T>>, k: nat): seq<Ranked<T>> {
    Take(SortDesc(xs), k)
  }

  /** The items `TopK` leaves out, highest first. */
  function Leftover<T>(xs: seq<Ranked<T>>, k: nat): seq<Ranked<T>> {
    var s := SortDesc(xs);
    if |s| <= k then [] else s[k..]
  }

  /** `TopK` keeps min(k, n) of the input's items, sorted descending; together with
      the left-over items it is a permutation of the input, and every left-over item
      scores no higher than any kept one. */
  lemma TopKSpec<T>(xs: seq<Ranked<T>>, k: nat)
    ensures |TopK(xs, k)| == if |xs| <= k then |xs| else k
    ensures SortedDesc(TopK(xs, k))
    ensures multiset(TopK(xs, k)) + multiset(Leftover(xs, k)) == multiset(xs)
    ensures forall i, j :: 0 <= i < |TopK(xs, k)| && 0 <= j < |Leftover(xs, k)| ==>
              TopK(xs, k)[i].score >= Leftover(xs, k)[j].score
  {
    var s := SortDesc(xs);
    assert |s| == |multiset(xs)| == |xs|;
    var n := if |s| <= k then |s| else k;
    assert s == s[..n] + s[n..];
    assert TopK(xs, k) == s[..n];
    assert Leftover(xs, k) == s[n..];
  }
}

=== FILE: insights.dfy ===
/** The insights page: one row per country with summed metrics and derived ratios,
    the priority ranking, the per-country recommendation text, the alert badges and
    the what-if simulator. */
module Insights {
  import opened Base
  import opened Floats
  import opened Grouping
  import opened Table
  import opened Rules
  import Weekly
  import Scoring

  /** A country's row of `country_latest`. */
  datatype CountryLatest = CountryLatest(
    country: string,
    totalCases: real,
    totalDeaths: real,
    dosesAllocated: real,
    dosesDeployed: real,
    administered: real,
    trained: real,
    deployedChws: real,
    sites: real,
    labs: real,
    latestCoverage: Option<real>,
    cfrPercent: Num,
    deployedPerCase: Option<real>,
    surveillancePerCase: Option<real>,
    uptakeRatePct: Option<real>,
    allocationPer1000: Num,
    growth4w: Option<real>)

  /** The page needs a country and a confirmed-cases column. */
  predicate Available(t: Table) {
    CountryCol in t.columns && Has(t, Confirmed)
  }

  /** A per-country sum of `f`, or of confirmed cases when `f`'s column is absent. */
  function SumOrCases(t: Table, c: string, f: Field): (r: real)
    ensures Has(t, f) ==> r == SumFor(t.rows, c, f)
    ensures !Has(t, f) ==> r == SumFor(t.rows, c, Confirmed)
  {
    if Has(t, f) then SumFor(t.rows, c, f) else SumFor(t.rows, c, Confirmed)
  }

  /** The ratios `country_latest` derives from its sums: CFR and allocation divide
      without a guard, the per-case ratios treat zero cases as unknown and uptake
      treats an infinite ratio as unknown. */
  predicate RatiosFromSums(r: CountryLatest) {
    r.cfrPercent == Scale(Div(r.totalDeaths, r.totalCases), 100.0) &&
    r.deployedPerCase == GuardedDiv(r.deployedChws, r.totalCases) &&
    r.surveillancePerCase == GuardedDiv(r.sites + r.labs, r.totalCases) &&
    r.uptakeRatePct == OptScale(Known(Div(r.administered, r.dosesAllocated)), 100.0) &&
    r.allocationPer1000 == Scale(Div(r.dosesAllocated, r.totalCases), 1000.0)
  }

  function WithRatios(c: string, cases: real, deaths: real, doses: real, deployed: real,
                      administered: real, trained: real, chws: real, sites: real, labs: real,
                      coverage: Option<real>, growth: Option<real>): (r: CountryLatest)
    ensures RatiosFromSums(r)
    ensures r.country == c && r.totalCases == cases && r.growth4w == growth
  {
    CountryLatest(c, cases, deaths, doses, deployed, administered, trained, chws, sites, labs, coverage,
      Scale(Div(deaths, cases), 100.0),
      GuardedDiv(chws, cases),
      GuardedDiv(sites + labs, cases),
      OptScale(Known(Div(administered, doses)), 100.0),
      Scale(Div(doses, cases), 1000.0),
      growth)
  }

  /** Country `c`'s row: each missing source column is replaced by the confirmed
      sum, coverage is the country's maximum, and growth comes from the weekly series. */
  function LatestFor(t: Table, c: string): (r: CountryLatest)
    ensures RatiosFromSums(r)
    ensures r.country == c
    ensures r.totalCases == SumFor(t.rows, c, Confirmed)
    ensures r.totalDeaths == SumOrCases(t, c, Deaths)
    ensures r.dosesAllocated == SumOrCases(t, c, Allocated)
    ensures r.deployedChws == SumOrCases(t, c, DeployedChws)
    ensures r.sites == SumOrCases(t, c, Sites) && r.labs == SumOrCases(t, c, Labs)
    ensures Has(t, Coverage) ==> r.latestCoverage == MaxFor(t.rows, c, Coverage)
    ensures !Has(t, Coverage) ==> r.latestCoverage == Some(SumFor(t.rows, c, Confirmed))
    ensures r.growth4w == Weekly.CountryGrowth(t, c)
  {
    WithRatios(c,
      SumFor(t.rows, c, Confirmed),
      SumOrCases(t, c, Deaths),
      SumOrCases(t, c, Allocated),
      SumOrCases(t, c, Deployed),
      SumOrCases(t, c, Administered),
      SumOrCases(t, c, TrainedChws),
      SumOrCases(t, c, DeployedChws),
      SumOrCases(t, c, Sites),
      SumOrCases(t, c, Labs),
      if Has(t, Coverage) then MaxFor(t.rows, c, Coverage) else Some(SumFor(t.rows, c, Confirmed)),
      Weekly.CountryGrowth(t, c))
  }

  /** `country_latest`: one row per country present in the table, or nothing when the
      required columns are missing. */
  function CountryTable(t: Table): (r: Option<seq<CountryLatest>>)
    ensures r.Some? <==> Available(t)
    ensures r.Some? ==> |r.value| == |Countries(t.rows)|
    ensures r.Some? ==> forall i :: 0 <= i < |r.value| ==> r.value[i] == LatestFor(t, Countries(t.rows)[i])
  {
    if !Available(t) then None
    else
      var cs := Countries(t.rows);
      Some(seq(|cs|, i requires 0 <= i < |cs| => LatestFor(t, cs[i])))
  }

  /** What the score reads from a country row. */
  function ScoreInputOf(r: CountryLatest): Scoring.ScoreInput {
    Scoring.ScoreInput(r.totalCases, r.cfrPercent, r.deployedPerCase, r.surveillancePerCase,
                       r.allocationPer1000, r.growth4w)
  }

  function PriorityScore(r: CountryLatest): (s: real)
    ensures 0.0 <= s <= 100.0
  {
    Scoring.ScoreRow(ScoreInputOf(r))
  }

  /** `sort_values("priority_score", ascending=False)`. */
  function Ranking(rows: seq<CountryLatest>): (top: seq<Ranked<CountryLatest>>)
    ensures SortedDesc(top)
    ensures multiset(top) == multiset(seq(|rows|, i requires 0 <= i < |rows| => Ranked(rows[i], PriorityScore(rows[i]))))
  {
    SortDesc(seq(|rows|, i requires 0 <= i < |rows| => Ranked(rows[i], PriorityScore(rows[i]))))
  }

  /** Every ranked entry carries a country row of the table with its own score, and
      every country appears. */
  lemma RankingScores(rows: seq<CountryLatest>)
    ensures |Ranking(rows)| == |rows|
    ensures forall k :: 0 <= k < |Ranking(rows)| ==>
              Ranking(rows)[k].item in rows && Ranking(rows)[k].score == PriorityScore(Ranking(rows)[k].item)
    ensures forall i :: 0 <= i < |rows| ==> exists k :: 0 <= k < |Ranking(rows)| && Ranking(rows)[k].item == rows[i]
  {
    var scored := seq(|rows|, i requires 0 <= i < |rows| => Ranked(rows[i], PriorityScore(rows[i])));
    var top := Ranking(rows);
    assert |top| == |multiset(top)| == |multiset(scored)| == |scored|;
    forall k | 0 <= k < |top|
      ensures top[k].item in rows && top[k].score == PriorityScore(top[k].item)
    {
      assert top[k] in multiset(scored);
      var i :| 0 <= i < |scored| && scored[i] == top[k];
    }
    forall i | 0 <= i < |rows|
      ensures exists k :: 0 <= k < |top| && top[k].item == rows[i]
    {
      assert scored[i] in multiset(top);
      var k :| 0 <= k < |top| && top[k] == scored[i];
    }
  }

  // ---------------------------------------------------------------------------
  // Recommendations (`rec_for_row`)

  const RecClinical := "Investigate drivers of high CFR; ensure timely care, oxygen, and antivirals."
  const RecWorkforce := "Surge deploy CHWs; target <500 cases per deployed CHW."
  const RecSurveillance := "Expand active sites and labs; aim for higher sites/labs per case."
  const RecAllocation := "Advocate for additional vaccine allocation aligned to burden."
  const RecUptake := "Address last-mile bottlenecks; microplanning and outreach to raise uptake."
  const RecMaintain := "Maintain current response; continue monitoring trends and capacity."

  function RecRules(r: CountryLatest): seq<Rule> {
    [Rule(Above(r.cfrPercent, 3.0), RecClinical),
     Rule(KnownBelow(r.deployedPerCase, 0.5), RecWorkforce),
     Rule(KnownBelow(r.surveillancePerCase, 0.02), RecSurveillance),
     Rule(Below(r.allocationPer1000, 2000.0), RecAllocation),
     Rule(KnownBelow(r.uptakeRatePct, 70.0), RecUptake)]
  }

  /** The recommendation messages of a country, in rule order. */
  function RecMessages(r: CountryLatest): (ms: seq<string>)
    ensures |ms| >= 1
  {
    OrElse(Fired(RecRules(r)), RecMaintain)
  }

  /** `rec_for_row`: the messages joined by " • ". */
  function RecForRow(r: CountryLatest): string {
    Join(RecMessages(r), Bullet)
  }

  lemma RecMessagesDistinct(r: CountryLatest)
    ensures Messages(RecRules(r)) == [RecClinical, RecWorkforce, RecSurveillance, RecAllocation, RecUptake]
    ensures forall k :: 0 <= k < 5 ==> MessageOnlyAt(RecRules(r), k)
    ensures RecMaintain !in Messages(RecRules(r))
  {
    assert Messages(RecRules(r)) == [RecClinical, RecWorkforce, RecSurveillance, RecAllocation, RecUptake];
  }

  /** Each message appears iff its rule fires, in fixed order; the maintenance message
      appears iff no rule fires and then stands alone. */
  lemma RecForRowSpec(r: CountryLatest)
    ensures RecClinical in RecMessages(r) <==> Above(r.cfrPercent, 3.0)
    ensures RecWorkforce in RecMessages(r) <==> KnownBelow(r.deployedPerCase, 0.5)
    ensures RecSurveillance in RecMessages(r) <==> KnownBelow(r.surveillancePerCase, 0.02)
    ensures RecAllocation in RecMessages(r) <==> Below(r.allocationPer1000, 2000.0)
    ensures RecUptake in RecMessages(r) <==> KnownBelow(r.uptakeRatePct, 70.0)
    ensures RecMaintain in RecMessages(r) <==> RecMessages(r) == [RecMaintain]
    ensures RecMessages(r) == [RecMaintain] <==> forall k :: 0 <= k < 5 ==> !RecRules(r)[k].fires
    ensures RecMessages(r) != [RecMaintain] ==> IsSubseq(RecMessages(r), Messages(RecRules(r)))
  {
    var rules := RecRules(r);
    RecMessagesDistinct(r);
    FiredInRuleOrder(rules);
    FiredIffFires(rules, 0);
    FiredIffFires(rules, 1);
    FiredIffFires(rules, 2);
    FiredIffFires(rules, 3);
    FiredIffFires(rules, 4);
    if |Fired(rules)| > 0 {
      SubseqMembers(Fired(rules), Messages(rules));
      assert RecMaintain !in Fired(rules);
    } else {
      assert RecMessages(r) == [RecMaintain];
      assert forall k :: 0 <= k < 5 ==> rules[k].message != RecMaintain;
    }
  }

  /** Unknown metrics never trigger a recommendation: a country with NaN CFR and
      allocation and unknown per-case ratios and uptake gets only the maintenance
      message. */
  lemma UnknownMetricsNeverFire(r: CountryLatest)
    requires r.cfrPercent.NaN? && r.allocationPer1000.NaN?
    requires r.deployedPerCase.None? && r.surveillancePerCase.None? && r.uptakeRatePct.None?
    ensures RecForRow(r) == RecMaintain
  {
    RecForRowSpec(r);
  }

  /** A concrete row: CFR 4%, 0.1 CHWs per case, surveillance 0.5 per case, 3000 doses
      per 1000 cases, uptake 50%. */
  lemma RecForRowExample(r: CountryLatest)
    requires r.cfrPercent == Fin(4.0) && r.deployedPerCase == Some(0.1) && r.surveillancePerCase == Some(0.5)
    requires r.allocationPer1000 == Fin(3000.0) && r.uptakeRatePct == Some(50.0)
    ensures RecForRow(r) == RecClinical + Bullet + RecWorkforce + Bullet + RecUptake
  {
    RecMessagesExample(r);
    JoinThree(RecClinical, RecWorkforce, RecUptake, Bullet);
  }

  lemma RecMessagesExample(r: CountryLatest)
    requires r.cfrPercent == Fin(4.0) && r.deployedPerCase == Some(0.1) && r.surveillancePerCase == Some(0.5)
    requires r.allocationPer1000 == Fin(3000.0) && r.uptakeRatePct == Some(50.0)
    ensures RecMessages(r) == [RecClinical, RecWorkforce, RecUptake]
  {
    FiredOfFive(RecRules(r));
    assert Fired(RecRules(r)) == [RecClinical] + ([RecWorkforce] + ([] + ([] + [RecUptake])));
  }

  // ---------------------------------------------------------------------------
  // Alerts for the selected country

  const AlertCfr := "High CFR"
  const AlertAllocation := "Under-allocated"
  const AlertChw := "Low CHW coverage"
  const AlertSurveillance := "Low surveillance"

  function AlertRules(r: CountryLatest): seq<Rule> {
    [Rule(Above(r.cfrPercent, 3.0), AlertCfr),
     Rule(Below(r.allocationPer1000, 2000.0), AlertAllocation),
     Rule(KnownBelow(r.deployedPerCase, 0.5), AlertChw),
     Rule(KnownBelow(r.surveillancePerCase, 0.02), AlertSurveillance)]
  }

  function Alerts(r: CountryLatest): (alerts: seq<string>)
    ensures |alerts| <= 4
  {
    Fired(AlertRules(r))
  }

  /** Alerts appear in the order CFR, allocation, CHWs, surveillance, each exactly
      when its threshold is crossed; unknown metrics raise none. */
  lemma AlertsSpec(r: CountryLatest)
    ensures AlertCfr in Alerts(r) <==> Above(r.cfrPercent, 3.0)
    ensures AlertAllocation in Alerts(r) <==> Below(r.allocationPer1000, 2000.0)
    ensures AlertChw in Alerts(r) <==> KnownBelow(r.deployedPerCase, 0.5)
    ensures AlertSurveillance in Alerts(r) <==> KnownBelow(r.surveillancePerCase, 0.02)
    ensures IsSubseq(Alerts(r), [AlertCfr, AlertAllocation, AlertChw, AlertSurveillance])
  {
    var rules := AlertRules(r);
    assert Messages(rules) == [AlertCfr, AlertAllocation, AlertChw, AlertSurveillance];
    assert forall k :: 0 <= k < 4 ==> MessageOnlyAt(rules, k);
    FiredInRuleOrder(rules);
    FiredIffFires(rules, 0);
    FiredIffFires(rules, 1);
    FiredIffFires(rules, 2);
    FiredIffFires(rules, 3);
  }

  /** The alerts use the same thresholds as the first four recommendations: each alert
      is raised exactly when the matching recommendation is made. */
  lemma AlertsMatchRecommendations(r: CountryLatest)
    ensures AlertCfr in Alerts(r) <==> RecClinical in RecMessages(r)
    ensures AlertAllocation in Alerts(r) <==> RecAllocation in RecMessages(r)
    ensures AlertChw in Alerts(r) <==> RecWorkforce in RecMessages(r)
    ensures AlertSurveillance in Alerts(r) <==> RecSurveillance in RecMessages(r)
  {
    AlertsSpec(r);
    RecForRowSpec(r);
  }

  // ---------------------------------------------------------------------------
  // What-if simulator

  /** Slider positions: extra doses (0..100000), CHW increase in percent (0..200) and
      extra labs (0..200). */
  datatype Adjustment = Adjustment(addDoses: int, incChwPct: int, addLabs: int)

  predicate InSliderRange(a: Adjustment) {
    0 <= a.addDoses <= 100000 && 0 <= a.incChwPct <= 200 && 0 <= a.addLabs <= 200
  }

  /** `max(total_cases, 1)`. */
  function CaseDivisor(cases: real): (d: real)
    ensures d >= 1.0
    ensures cases >= 1.0 ==> d == cases
  {
    if 1.0 > cases then 1.0 else cases
  }

  function ScaledChws(chws: real, pct: int): real {
    chws * (1.0 + pct as real / 100.0)
  }

  /** The simulated row as the score sees it: the adjusted sums divided by
      `max(total_cases, 1)`, every other metric unchanged. */
  function Simulate(b: CountryLatest, a: Adjustment): (s: Scoring.ScoreInput)
    requires InSliderRange(a)
    ensures s.totalCases == b.totalCases && s.cfrPercent == b.cfrPercent && s.growth4w == b.growth4w
    ensures s.deployedPerCase.Some? && s.survPerCase.Some? && s.allocationPer1000.Fin?
  {
    var d := CaseDivisor(b.totalCases);
    Scoring.ScoreInput(
      b.totalCases,
      b.cfrPercent,
      Some(ScaledChws(b.deployedChws, a.incChwPct) / d),
      Some((b.sites + (b.labs + a.addLabs as real)) / d),
      Fin((b.dosesAllocated + a.addDoses as real) / d * 1000.0),
      b.growth4w)
  }

  function ProjectedScore(b: CountryLatest, a: Adjustment): (s: real)
    requires InSliderRange(a)
    ensures 0.0 <= s <= 100.0
  {
    Scoring.ScoreRow(Simulate(b, a))
  }

  /** Slider position `a` is at least `a'` on every slider. */
  predicate AtLeast(a: Adjustment, a': Adjustment) {
    a'.addDoses <= a.addDoses && a'.incChwPct <= a.incChwPct && a'.addLabs <= a.addLabs
  }

  lemma DivideMonotone(x: real, y: real, d: real)
    requires x <= y && d > 0.0
    ensures x / d <= y / d
  {
  }

  /** Moving any slider up never raises the projected score. */
  lemma MoreResourcesNeverRaiseScore(b: CountryLatest, a: Adjustment, a': Adjustment)
    requires InSliderRange(a) && InSliderRange(a')
    requires AtLeast(a, a')
    ensures ProjectedScore(b, a) <= ProjectedScore(b, a')
  {
    var i := Simulate(b, a);
    var j := Simulate(b, a');
    var d := CaseDivisor(b.totalCases);
    DivideMonotone(b.sites + (b.labs + a'.addLabs as real), b.sites + (b.labs + a.addLabs as real), d);
    DivideMonotone(b.dosesAllocated + a'.addDoses as real, b.dosesAllocated + a.addDoses as real, d);
    if b.deployedChws >= 0.0 {
      ScaleChwsMonotone(b.deployedChws, a'.incChwPct, a.incChwPct);
      DivideMonotone(ScaledChws(b.deployedChws, a'.incChwPct), ScaledChws(b.deployedChws, a.incChwPct), d);
      assert Scoring.MoreUrgent(i, j);
      Scoring.ScoreMonotone(i, j);
    } else {
      // With a negative CHW total both ratios are negative and the CHW gap is at its cap.
      var j' := j.(deployedPerCase := i.deployedPerCase);
      NegativeChwsStayNegative(b.deployedChws, a.incChwPct, d);
      NegativeChwsStayNegative(b.deployedChws, a'.incChwPct, d);
      assert Scoring.Gap(j.deployedPerCase) == 15.0 == Scoring.Gap(i.deployedPerCase);
      SameGapSameScore(j, j');
      assert Scoring.MoreUrgent(i, j');
      Scoring.ScoreMonotone(i, j');
    }
  }

  lemma ScaleChwsMonotone(chws: real, p: int, q: int)
    requires chws >= 0.0 && p <= q
    ensures ScaledChws(chws, p) <= ScaledChws(chws, q)
  {
    assert (1.0 + p as real / 100.0) <= (1.0 + q as real / 100.0);
  }

  lemma NegativeChwsStayNegative(chws: real, p: int, d: real)
    requires chws < 0.0 && p >= 0 && d >= 1.0
    ensures ScaledChws(chws, p) / d <= 0.0
  {
    assert ScaledChws(chws, p) <= 0.0;
  }

  /** The score reads a per-case CHW ratio only through its gap component. */
  lemma SameGapSameScore(i: Scoring.ScoreInput, j: Scoring.ScoreInput)
    requires j == i.(deployedPerCase := j.deployedPerCase)
    requires Scoring.Gap(i.deployedPerCase) == Scoring.Gap(j.deployedPerCase)
    ensures Scoring.ScoreRow(i) == Scoring.ScoreRow(j)
  {
    Scoring.ComponentsAddUpToScore(i);
    Scoring.ComponentsAddUpToScore(j);
    Scoring.ComponentsUnguarded(i);
    Scoring.ComponentsUnguarded(j);
  }

  /** With at least one case, a simulation with every slider at zero reproduces the
      country's own priority score. */
  lemma NoAdjustmentKeepsScore(b: CountryLatest)
    requires RatiosFromSums(b)
    requires b.totalCases >= 1.0
    ensures ProjectedScore(b, Adjustment(0, 0, 0)) == PriorityScore(b)
  {
    var s := Simulate(b, Adjustment(0, 0, 0));
    assert ScaledChws(b.deployedChws, 0) == b.deployedChws;
    assert s == ScoreInputOf(b);
  }

  /** A country with deaths but no confirmed cases, no CHWs, sites or labs, at least
      1.5 allocated doses and no weekly series. */
  predicate ZeroCaseCountry(b: CountryLatest) {
    b.totalCases == 0.0 && b.cfrPercent == PosInf && b.deployedPerCase.None? && b.surveillancePerCase.None? &&
    b.allocationPer1000 == PosInf && b.deployedChws == 0.0 && b.sites == 0.0 && b.labs == 0.0 &&
    b.dosesAllocated >= 1.5 && b.growth4w.None?
  }

  /** Such a row is what the country table builds from those sums. */
  lemma ZeroCaseCountryFromSums(c: string, deaths: real, doses: real, deployed: real, administered: real,
                                trained: real, coverage: Option<real>)
    requires deaths > 0.0 && doses >= 1.5
    ensures ZeroCaseCountry(WithRatios(c, 0.0, deaths, doses, deployed, administered, trained, 0.0, 0.0, 0.0,
                                       coverage, None))
  {
  }

  lemma ZeroCaseCountryScore(b: CountryLatest)
    requires ZeroCaseCountry(b)
    ensures PriorityScore(b) == 25.0
  {
    Scoring.InfiniteCfrAloneScores25(ScoreInputOf(b));
  }

  lemma ZeroCaseCountryProjection(b: CountryLatest)
    requires ZeroCaseCountry(b)
    ensures ProjectedScore(b, Adjustment(0, 0, 0)) == 55.0
  {
    var sim := Simulate(b, Adjustment(0, 0, 0));
    assert ScaledChws(0.0, 0) == 0.0;
    assert sim.allocationPer1000 == Fin(b.dosesAllocated * 1000.0);
    Scoring.InfiniteCfrWithZeroCapacityScores55(sim);
  }

  /** For a country with deaths but no confirmed cases, no CHWs, sites or labs and
      some allocated doses, the simulator divides by max(cases, 1) where the country
      table leaves per-case ratios unknown: with every slider at zero it projects 55
      while the country's own score is 25. */
  lemma ZeroCaseBaselineMismatch(b: CountryLatest)
    requires ZeroCaseCountry(b)
    ensures ProjectedScore(b, Adjustment(0, 0, 0)) == PriorityScore(b) + 30.0
  {
    ZeroCaseCountryScore(b);
    ZeroCaseCountryProjection(b);
  }

  /** The simulation with the country table's own ratio rules applied to the adjusted
      sums: per-case ratios unknown at zero cases, allocation per 1000 unguarded. */
  function SimulateConsistent(b: CountryLatest, a: Adjustment): (s: Scoring.ScoreInput)
    requires InSliderRange(a)
    ensures s.totalCases == b.totalCases && s.cfrPercent == b.cfrPercent && s.growth4w == b.growth4w
  {
    var adjusted := WithRatios(b.country, b.totalCases, b.totalDeaths, b.dosesAllocated + a.addDoses as real,
                               b.dosesDeployed, b.administered, b.trained, ScaledChws(b.deployedChws, a.incChwPct),
                               b.sites, b.labs + a.addLabs as real, b.latestCoverage, b.growth4w);
    Scoring.ScoreInput(b.totalCases, b.cfrPercent, adjusted.deployedPerCase, adjusted.surveillancePerCase,
                       adjusted.allocationPer1000, b.growth4w)
  }

  /** With the consistent ratios every country, zero-case ones included, keeps its own
      priority score when every slider is at zero. */
  lemma ConsistentNoAdjustmentKeepsScore(b: CountryLatest)
    requires RatiosFromSums(b)
    ensures Scoring.ScoreRow(SimulateConsistent(b, Adjustment(0, 0, 0))) == PriorityScore(b)
  {
    assert ScaledChws(b.deployedChws, 0) == b.deployedChws;
    assert SimulateConsistent(b, Adjustment(0, 0, 0)) == ScoreInputOf(b);
  }

  /** With at least one case the consistent simulation is the simulator itself. */
  lemma ConsistentAgreesFromOneCase(b: CountryLatest, a: Adjustment)
    requires InSliderRange(a) && b.totalCases >= 1.0
    ensures SimulateConsistent(b, a) == Simulate(b, a)
  {
    var d := b.totalCases;
    var alloc := b.dosesAllocated + a.addDoses as real;
    assert Div(alloc, d) == Fin(alloc / d);
  }
}

=== FILE: kpi.dfy ===
/** `kpi_card` of the Overview tab: the text a headline figure is shown with, Python's
    `,.0f` format for numbers. */
module Kpi {
  import opened Base
  import opened Floats

  /** A value handed to `kpi_card`: a number or anything else. */
  datatype Metric = Number(n: Num) | Other(text: string)

  /** Three digits with leading zeros. */
  function Pad3(k: nat): (r: string)
    requires k < 1000
    ensures |r| == 3
    ensures forall i :: 0 <= i < 3 ==> '0' <= r[i] <= '9'
  {
    [DigitChar(k / 100), DigitChar(k / 10 % 10), DigitChar(k % 10)]
  }

  /** The `,` format of a natural number: digit groups of three from the right. */
  function Grouped(n: nat): (r: string)
    ensures |r| >= 1
    decreases n
  {
    if n < 1000 then NatToString(n) else Grouped(n / 1000) + "," + Pad3(n % 1000)
  }

  /** The text without its commas. */
  function Ungroup(s: string): (r: string)
    ensures forall i :: 0 <= i < |r| ==> r[i] != ','
    decreases |s|
  {
    if |s| == 0 then "" else (if s[0] == ',' then "" else [s[0]]) + Ungroup(s[1..])
  }

  lemma {:induction false} UngroupAppend(a: string, b: string)
    ensures Ungroup(a + b) == Ungroup(a) + Ungroup(b)
    decreases |a|
  {
    if |a| == 0 {
      assert a + b == b;
    } else {
      assert (a + b)[1..] == a[1..] + b;
      UngroupAppend(a[1..], b);
    }
  }

  lemma UngroupDigits(s: string)
    requires forall i :: 0 <= i < |s| ==> '0' <= s[i] <= '9'
    ensures Ungroup(s) == s
    decreases |s|
  {
    if |s| > 0 {
      UngroupDigits(s[1..]);
    }
  }

  /** Decimal text of `10 * q + d`, for a positive `q`, is that of `q` and then digit `d`. */
  lemma NatToStringStep(n: nat, q: nat, d: nat)
    requires q >= 1 && d < 10 && n == 10 * q + d
    ensures NatToString(n) == NatToString(q) + [DigitChar(d)]
  {
    assert n / 10 == q && n % 10 == d;
  }

  /** Appending three digits to a positive number appends them to its text. */
  lemma NatToStringThreeSteps(a: nat, d2: nat, d1: nat, d0: nat)
    requires a >= 1 && d2 < 10 && d1 < 10 && d0 < 10
    ensures NatToString(10 * (10 * (10 * a + d2) + d1) + d0) ==
              NatToString(a) + [DigitChar(d2), DigitChar(d1), DigitChar(d0)]
  {
    var p := 10 * a + d2;
    var m := 10 * p + d1;
    var n := 10 * m + d0;
    var s0, s1, s2, s3 := NatToString(a), NatToString(p), NatToString(m), NatToString(n);
    NatToStringStep(p, a, d2);
    NatToStringStep(m, p, d1);
    NatToStringStep(n, m, d0);
    AppendThree(s0, s1, s2, s3, DigitChar(d2), DigitChar(d1), DigitChar(d0));
  }

  lemma AppendThree<T>(s0: seq<T>, s1: seq<T>, s2: seq<T>, s3: seq<T>, x: T, y: T, z: T)
    requires s1 == s0 + [x] && s2 == s1 + [y] && s3 == s2 + [z]
    ensures s3 == s0 + [x, y, z]
  {
    assert s0 + [x] + [y] + [z] == s0 + [x, y, z];
  }

  /** Decimal text of `1000 * a + b` is that of `a` followed by `b` in three digits. */
  lemma NatToStringThousands(a: nat, b: nat)
    requires a >= 1 && b < 1000
    ensures NatToString(1000 * a + b) == NatToString(a) + Pad3(b)
  {
    var b2, b1, b0 := b / 100, b / 10 % 10, b % 10;
    assert 1000 * a + b == 10 * (10 * (10 * a + b2) + b1) + b0;
    NatToStringThreeSteps(a, b2, b1, b0);
  }

  /** Dropping the separators gives back the plain decimal text. */
  lemma {:induction false} GroupedDigits(n: nat)
    ensures Ungroup(Grouped(n)) == NatToString(n)
    decreases n
  {
    if n < 1000 {
      UngroupDigits(NatToString(n));
    } else {
      var q, r := n / 1000, n % 1000;
      assert n == 1000 * q + r;
      calc {
        Ungroup(Grouped(n));
        Ungroup(Grouped(q) + "," + Pad3(r));
        { UngroupAppend(Grouped(q) + ",", Pad3(r)); UngroupAppend(Grouped(q), ","); }
        Ungroup(Grouped(q)) + Ungroup(",") + Ungroup(Pad3(r));
        { GroupedDigits(q); UngroupDigits(Pad3(r)); assert Ungroup(",") == ""; }
        NatToString(q) + Pad3(r);
        { NatToStringThousands(q, r); }
        NatToString(n);
      }
    }
  }

  /** Below 1000 the text has one to three digits. */
  lemma ShortLength(n: nat)
    requires n < 1000
    ensures |NatToString(n)| <= 3
  {
    if n >= 10 {
      assert NatToString(n) == NatToString(n / 10) + [DigitChar(n % 10)];
      if n / 10 >= 10 {
        assert NatToString(n / 10) == NatToString(n / 10 / 10) + [DigitChar(n / 10 % 10)];
        assert n / 10 / 10 < 10;
      }
    }
  }

  /** A comma stands exactly at every fourth place counted from the right. */
  lemma {:induction false} GroupedCommas(n: nat)
    ensures forall i :: 0 <= i < |Grouped(n)| ==> (Grouped(n)[i] == ',' <==> (|Grouped(n)| - i) % 4 == 0)
    ensures |Grouped(n)| % 4 != 0
    decreases n
  {
    if n < 1000 {
      ShortLength(n);
    } else {
      GroupedCommas(n / 1000);
      CommaStep(Grouped(n / 1000), Pad3(n % 1000));
    }
  }

  /** Appending a comma and three digits keeps the comma pattern. */
  lemma CommaStep(g: string, h: string)
    requires forall i :: 0 <= i < |g| ==> (g[i] == ',' <==> (|g| - i) % 4 == 0)
    requires |g| % 4 != 0
    requires |h| == 3 && forall i :: 0 <= i < 3 ==> h[i] != ','
    ensures forall i :: 0 <= i < |g + "," + h| ==> ((g + "," + h)[i] == ',' <==> (|g + "," + h| - i) % 4 == 0)
    ensures |g + "," + h| % 4 != 0
  {
    var r := g + "," + h;
    forall i | 0 <= i < |r|
      ensures r[i] == ',' <==> (|r| - i) % 4 == 0
    {
      if i < |g| {
        assert r[i] == g[i];
      } else if i > |g| {
        assert r[i] == h[i - |g| - 1];
      }
    }
  }

  /** The rounded magnitude of a float (half to even). */
  function Magnitude(v: real): nat {
    if v < 0.0 then RoundHalfEven(-v) else RoundHalfEven(v)
  }

  /** The sign `format` writes: a minus for negative values, even when they round to 0. */
  function SignText(v: real): string {
    if v < 0.0 then "-" else ""
  }

  /** `format(v, ',.0f')` for a finite float. */
  function FixedText(v: real): string {
    SignText(v) + Grouped(Magnitude(v))
  }

  /** `f"{value:,.0f}"` for numbers, and the value itself for anything else. */
  function KpiText(m: Metric): (s: string)
    ensures m.Other? ==> s == m.text
  {
    match m
    case Other(text) => text
    case Number(Fin(v)) => FixedText(v)
    case Number(PosInf) => "inf"
    case Number(NegInf) => "-inf"
    case Number(NaN) => "nan"
  }

  /** Without its separators, a finite number's text is its sign and the decimal text
      of its rounded magnitude. */
  lemma KpiTextOfNumber(v: real)
    ensures Ungroup(KpiText(Number(Fin(v)))) == SignText(v) + NatToString(Magnitude(v))
  {
    GroupedDigits(Magnitude(v));
    UngroupAppend(SignText(v), Grouped(Magnitude(v)));
    assert Ungroup(SignText(v)) == SignText(v);
  }

  /** A missing roll-up key reaches `kpi_card` as NaN and shows as "nan". */
  lemma MissingKeyShowsNan(o: Option<real>)
    ensures KpiText(Number(if o.Some? then Fin(o.value) else NaN)) == "nan" <==> o.None?
  {
    if o.Some? {
      var v := o.value;
      var s := KpiText(Number(Fin(v)));
      if v < 0.0 {
        assert s[0] == '-';
      } else {
        assert s == Grouped(Magnitude(v));
        GroupedStartsWithDigit(Magnitude(v));
      }
    }
  }

  lemma {:induction false} GroupedStartsWithDigit(n: nat)
    ensures '0' <= Grouped(n)[0] <= '9'
    decreases n
  {
    if n >= 1000 {
      GroupedStartsWithDigit(n / 1000);
      assert Grouped(n)[0] == Grouped(n / 1000)[0];
    }
  }
}

=== FILE: overview.dfy ===
/** The Overview tab: the headline roll-up of the filtered table, the KPI text each
    figure is shown with, and the data-quality caption under the charts. */
module Overview {
  import opened Base
  import opened Floats
  import opened Table

  // ---------------------------------------------------------------------------
  // compute_rollup

  /** The roll-up dictionary. An outer `None` is a key the dictionary does not
      carry; an inner `None` is a key whose value is NaN. */
  datatype Rollup = Rollup(
    totalConfirmed: Option<real>,
    totalDeaths: Option<real>,
    cfrPercent: Option<Option<real>>,
    vaccinations: Option<real>,
    latestCoverage: Option<Option<real>>)

  /** A column's sum when the column exists. */
  function TotalIfPresent(t: Table, f: Field): (r: Option<real>)
    ensures r.Some? <==> Has(t, f)
    ensures r.Some? ==> r.value == ColumnSum(t.rows, f)
  {
    if Has(t, f) then Some(ColumnSum(t.rows, f)) else None
  }

  /** `compute_rollup`. */
  function ComputeRollup(t: Table): (r: Rollup)
    ensures r.totalConfirmed.Some? <==> Has(t, Confirmed)
    ensures r.totalDeaths.Some? <==> Has(t, Deaths)
    ensures r.cfrPercent.Some? <==> Has(t, Deaths) && Has(t, Confirmed)
    ensures r.vaccinations.Some? <==> Has(t, Administered)
    ensures r.latestCoverage.Some? <==> Has(t, Coverage) && ReportDateCol in t.columns
  {
    Rollup(
      TotalIfPresent(t, Confirmed),
      TotalIfPresent(t, Deaths),
      if Has(t, Deaths) && Has(t, Confirmed)
      then Some(OptScale(GuardedDiv(ColumnSum(t.rows, Deaths), ColumnSum(t.rows, Confirmed)), 100.0))
      else None,
      TotalIfPresent(t, Administered),
      if Has(t, Coverage) && ReportDateCol in t.columns then Some(LatestCoverage(t.rows)) else None)
  }

  /** The totals are the sums of the present cells of their columns. */
  lemma RollupTotals(t: Table)
    ensures ComputeRollup(t).totalConfirmed.Some? ==>
              ComputeRollup(t).totalConfirmed.value == Sum(PresentValues(t.rows, Confirmed))
    ensures ComputeRollup(t).totalDeaths.Some? ==>
              ComputeRollup(t).totalDeaths.value == Sum(PresentValues(t.rows, Deaths))
    ensures ComputeRollup(t).vaccinations.Some? ==>
              ComputeRollup(t).vaccinations.value == Sum(PresentValues(t.rows, Administered))
  {
    SumSkipsMissing(t.rows, Confirmed);
    SumSkipsMissing(t.rows, Deaths);
    SumSkipsMissing(t.rows, Administered);
  }

  /** The CFR is NaN exactly when the confirmed total is 0, and otherwise deaths per
      hundred confirmed cases. */
  lemma RollupCfr(t: Table)
    requires Has(t, Deaths) && Has(t, Confirmed)
    ensures ComputeRollup(t).cfrPercent.value.None? <==> ColumnSum(t.rows, Confirmed) == 0.0
    ensures ComputeRollup(t).cfrPercent.value.Some? ==>
              ComputeRollup(t).cfrPercent.value.value * ColumnSum(t.rows, Confirmed) ==
              ColumnSum(t.rows, Deaths) * 100.0
  {
    var d, c := ColumnSum(t.rows, Deaths), ColumnSum(t.rows, Confirmed);
    var q := GuardedDiv(d, c);
    if q.Some? {
      assert q.value * c == d;
      assert (q.value * 100.0) * c == (q.value * c) * 100.0;
    }
  }

  // ---------------------------------------------------------------------------
  // Sums skip missing cells

  /** The present cells of one field, in row order. */
  function PresentValues(rows: seq<Row>, f: Field): (vs: seq<real>)
    ensures |vs| + MissingCount(rows, f) == |rows|
    ensures forall v :: v in vs ==> exists i :: 0 <= i < |rows| && Get(rows[i], f) == Some(v)
    decreases |rows|
  {
    if |rows| == 0 then []
    else
      var init := rows[..|rows| - 1];
      var last := rows[|rows| - 1];
      assert forall i :: 0 <= i < |init| ==> init[i] == rows[i];
      PresentValues(init, f) + (if Get(last, f).Some? then [Get(last, f).value] else [])
  }

  /** pandas `sum` skips missing cells: the column sum is the sum of the present ones. */
  lemma {:induction false} SumSkipsMissing(rows: seq<Row>, f: Field)
    ensures ColumnSum(rows, f) == Sum(PresentValues(rows, f))
    decreases |rows|
  {
    if |rows| > 0 {
      var init := rows[..|rows| - 1];
      var last := rows[|rows| - 1];
      SumSkipsMissing(init, f);
      var tail := if Get(last, f).Some? then [Get(last, f).value] else [];
      SumAppend(PresentValues(init, f), tail);
      assert Sum(tail) == ValueOf(last, f) by {
        if Get(last, f).Some? {
          assert tail[..0] == [];
        }
      }
    }
  }

  // ---------------------------------------------------------------------------
  // latest_coverage: sort by report date (undated rows last), drop rows without
  // coverage, keep the last one.

  /** The sort order of report dates: every date before a missing one. */
  predicate DateLe(a: Option<int>, b: Option<int>) {
    b.None? || (a.Some? && a.value <= b.value)
  }

  /** Row `i` is the one `tail(1)` keeps: it has coverage, no row with coverage
      sorts after it, and every later row with coverage sorts strictly before it. */
  predicate IsLatest(rows: seq<Row>, i: int) {
    0 <= i < |rows| && rows[i].coverage.Some? &&
    (forall j :: 0 <= j < |rows| && rows[j].coverage.Some? ==> DateLe(rows[j].reportDate, rows[i].reportDate)) &&
    (forall j :: i < j < |rows| && rows[j].coverage.Some? ==> !DateLe(rows[i].reportDate, rows[j].reportDate))
  }

  /** The index of the row `tail(1)` keeps, when some row has coverage. */
  function LatestIndex(rows: seq<Row>): (r: Option<nat>)
    ensures r.Some? <==> exists i :: 0 <= i < |rows| && rows[i].coverage.Some?
    ensures r.Some? ==> IsLatest(rows, r.value)
    decreases |rows|
  {
    if |rows| == 0 then None
    else
      var n := |rows| - 1;
      var init := rows[..n];
      assert forall i :: 0 <= i < n ==> init[i] == rows[i];
      var p := LatestIndex(init);
      if rows[n].coverage.Some? && (p.None? || DateLe(rows[p.value].reportDate, rows[n].reportDate)) then
        Some(n)
      else p
  }

  /** The coverage `compute_rollup` reports as latest (`None` is NaN). */
  function LatestCoverage(rows: seq<Row>): (r: Option<real>)
    ensures r.Some? <==> exists i :: 0 <= i < |rows| && rows[i].coverage.Some?
    ensures r.Some? ==> exists i :: IsLatest(rows, i) && rows[i].coverage == r
  {
    var k := LatestIndex(rows);
    if k.Some? then rows[k.value].coverage else None
  }

  /** Exactly one row satisfies `IsLatest`, and it is the one reported. */
  lemma LatestIsUnique(rows: seq<Row>, i: int)
    requires IsLatest(rows, i)
    ensures LatestIndex(rows) == Some(i)
    ensures LatestCoverage(rows) == rows[i].coverage
  {
    var k := LatestIndex(rows).value;
    assert DateLe(rows[i].reportDate, rows[k].reportDate);
    assert DateLe(rows[k].reportDate, rows[i].reportDate);
  }

  /** Undated rows sort last, so when some undated row has coverage the latest
      coverage comes from the last such row, whatever the dated rows say. */
  lemma UndatedCoverageWins(rows: seq<Row>, i: int)
    requires 0 <= i < |rows| && rows[i].reportDate.None? && rows[i].coverage.Some?
    requires forall j :: i < j < |rows| ==> !(rows[j].reportDate.None? && rows[j].coverage.Some?)
    ensures LatestCoverage(rows) == rows[i].coverage
  {
    assert IsLatest(rows, i);
    LatestIsUnique(rows, i);
  }

  /** With every row dated, the latest coverage belongs to a row of the latest date
      among the rows with coverage. */
  lemma DatedCoverageIsLatestDate(rows: seq<Row>, j: int)
    requires forall i :: 0 <= i < |rows| ==> rows[i].reportDate.Some?
    requires 0 <= j < |rows| && rows[j].coverage.Some?
    ensures LatestIndex(rows).Some?
    ensures rows[j].reportDate.value <= rows[LatestIndex(rows).value].reportDate.value
  {
  }

  // ---------------------------------------------------------------------------
  // Data-quality caption

  /** The fields the caption reports on, in order. */
  const DqFields: seq<Field> := [Confirmed, Deaths, Administered]

  /** The freshness item of the caption. */
  function FreshnessText(days: int): string {
    "Data freshness: " + IntToString(days) + " days old"
  }

  /** The caption items: the data age when known, then one item per note. */
  function Caption(age: Option<int>, notes: seq<string>): (items: seq<string>)
    ensures |items| == (if age.Some? then 1 else 0) + |notes|
    ensures age.Some? ==> items[0] == FreshnessText(age.value)
    ensures age.Some? ==> forall k :: 0 <= k < |notes| ==> items[k + 1] == notes[k]
    ensures age.None? ==> items == notes
  {
    if age.Some? then [FreshnessText(age.value)] + notes else notes
  }

  /** The caption on day `today`: the age of the newest report when there is one,
      then the missing shares of the three count columns, joined by " • "; nothing
      when there are no items. */
  function DqLine(t: Table, today: int): (line: Option<string>)
  {
    var items := Caption(DataAge(t, today), NoteTexts(MissingNotes(t, DqFields)));
    if |items| == 0 then None else Some(Join(items, Bullet))
  }

  /** The caption is absent exactly when no row is dated (or there is no date column)
      and none of the three count columns has a missing cell; a freshness item leads
      it exactly when some row is dated, and counts days from the newest date. */
  lemma DqLineSpec(t: Table, today: int)
    ensures DqLine(t, today).None? <==>
              DataAge(t, today).None? && |NotedFields(t, DqFields)| == 0
    ensures DataAge(t, today).Some? ==>
              DqLine(t, today).value == Join([FreshnessText(DataAge(t, today).value)] +
                                             NoteTexts(MissingNotes(t, DqFields)), Bullet)
    ensures DataAge(t, today).None? && DqLine(t, today).Some? ==>
              DqLine(t, today) == DqCaption(t, DqFields)
  {
    MissingNotesSpec(t, DqFields);
  }
}

=== FILE: recommendations.dfy ===
/** The recommendations page: a per-country summary whose ratios divide without a
    guard, the fixed-order recommendation list, persona naming of cluster centroids,
    the persona playbooks and badges, the stale flag and the key-flag line. */
module Recommendations {
  import opened Base
  import opened Floats
  import opened Table
  import opened Rules

  // ---------------------------------------------------------------------------
  // The country summary

  /** `last_report`: the country's latest report day, or the number of its rows when
      the table has no report_date column (`("country", "count")`). */
  datatype LastReport = LatestReport(day: Option<int>) | RowCount(n: real)

  /** One row of the country summary. The five ratios are plain numpy divisions and
      may be infinite or NaN. */
  datatype Summary = Summary(
    country: string,
    totalCases: real,
    totalDeaths: real,
    dosesAllocated: real,
    dosesDeployed: real,
    administered: real,
    trained: real,
    deployedChws: real,
    sites: real,
    labs: real,
    latestCoverage: Option<real>,
    lastReport: LastReport,
    cfrPercent: Num,
    deployedPerCase: Num,
    surveillancePerCase: Num,
    uptakeRatePct: Num,
    allocationPer1000: Num)

  /** The fields the summary sums, in the order it lists them. */
  const SummedFields: seq<Field> :=
    [Confirmed, Deaths, Allocated, Deployed, Administered, TrainedChws, DeployedChws, Sites, Labs]

  /** A summed field, or the count of the country's dated rows when its column is absent. */
  function SumOrCount(t: Table, c: string, f: Field): (r: real)
    ensures Has(t, f) ==> r == SumFor(t.rows, c, f)
    ensures !Has(t, f) ==> r == DatedCountFor(t.rows, c)
  {
    if Has(t, f) then SumFor(t.rows, c, f) else DatedCountFor(t.rows, c)
  }

  /** A count proxy is a whole number of rows: never negative and never more than the
      country's row count, whatever the missing column would have held. */
  lemma CountProxyBounds(t: Table, c: string, f: Field)
    requires !Has(t, f)
    ensures 0.0 <= SumOrCount(t, c, f) <= RowCountFor(t.rows, c)
  {
    DatedCountBounds(t.rows, c);
  }

  /** The five ratios, each divided without a guard against a zero denominator. */
  predicate RatiosUnguarded(s: Summary) {
    s.cfrPercent == Scale(Div(s.totalDeaths, s.totalCases), 100.0) &&
    s.deployedPerCase == Div(s.deployedChws, s.totalCases) &&
    s.surveillancePerCase == Div(s.sites + s.labs, s.totalCases) &&
    s.uptakeRatePct == Scale(Div(s.administered, s.dosesAllocated), 100.0) &&
    s.allocationPer1000 == Scale(Div(s.dosesAllocated, s.totalCases), 1000.0)
  }

  /** `latest_coverage`: the country's highest coverage, or its dated-row count when the
      coverage column is absent. */
  function CoverageOrCount(t: Table, c: string): (r: Option<real>)
    ensures Has(t, Coverage) ==> r == MaxFor(t.rows, c, Coverage)
    ensures !Has(t, Coverage) ==> r == Some(DatedCountFor(t.rows, c))
  {
    if Has(t, Coverage) then MaxFor(t.rows, c, Coverage) else Some(DatedCountFor(t.rows, c))
  }

  function LastReportOf(t: Table, c: string): (r: LastReport)
    ensures ReportDateCol in t.columns ==> r == LatestReport(LatestDay(DaysOf(t.rows, c)))
    ensures ReportDateCol !in t.columns ==> r == RowCount(RowCountFor(t.rows, c))
  {
    if ReportDateCol in t.columns then LatestReport(LatestDay(DaysOf(t.rows, c)))
    else RowCount(RowCountFor(t.rows, c))
  }

  /** Country `c`'s summary row. */
  function SummaryFor(t: Table, c: string): (s: Summary)
    ensures RatiosUnguarded(s)
    ensures s.country == c
    ensures s.totalCases == SumOrCount(t, c, Confirmed) && s.totalDeaths == SumOrCount(t, c, Deaths)
    ensures s.dosesAllocated == SumOrCount(t, c, Allocated) && s.dosesDeployed == SumOrCount(t, c, Deployed)
    ensures s.administered == SumOrCount(t, c, Administered) && s.trained == SumOrCount(t, c, TrainedChws)
    ensures s.deployedChws == SumOrCount(t, c, DeployedChws)
    ensures s.sites == SumOrCount(t, c, Sites) && s.labs == SumOrCount(t, c, Labs)
    ensures s.latestCoverage == CoverageOrCount(t, c)
    ensures s.lastReport == LastReportOf(t, c)
  {
    var cases := SumOrCount(t, c, Confirmed);
    var deaths := SumOrCount(t, c, Deaths);
    var doses := SumOrCount(t, c, Allocated);
    var administered := SumOrCount(t, c, Administered);
    var chws := SumOrCount(t, c, DeployedChws);
    var sites := SumOrCount(t, c, Sites);
    var labs := SumOrCount(t, c, Labs);
    Summary(c, cases, deaths, doses, SumOrCount(t, c, Deployed), administered,
      SumOrCount(t, c, TrainedChws), chws, sites, labs,
      CoverageOrCount(t, c), LastReportOf(t, c),
      Scale(Div(deaths, cases), 100.0),
      Div(chws, cases),
      Div(sites + labs, cases),
      Scale(Div(administered, doses), 100.0),
      Scale(Div(doses, cases), 1000.0))
  }

  /** Some summed column, or the coverage column, is absent and needs the report-date
      count in its place. */
  predicate NeedsProxy(t: Table) {
    (exists k :: 0 <= k < |SummedFields| && !Has(t, SummedFields[k])) || !Has(t, Coverage)
  }

  /** What the page gets from the summary step: nothing without a country column (the
      page shows a notice); a failed grouping when the table has no rows, because the
      records JSON of an empty frame is `[]` and reads back with no columns at all; a
      failed aggregation when a count proxy is needed but there is no report_date column
      to count; or one summary per country. */
  datatype SummaryResult = NeedsCountry | EmptyRoundTrip | ProxyColumnMissing | Summaries(rows: seq<Summary>)

  function CountrySummary(t: Table): (r: SummaryResult)
    ensures r.NeedsCountry? <==> CountryCol !in t.columns
    ensures r.EmptyRoundTrip? <==> CountryCol in t.columns && |t.rows| == 0
    ensures r.ProxyColumnMissing? <==>
              CountryCol in t.columns && |t.rows| > 0 && ReportDateCol !in t.columns && NeedsProxy(t)
    ensures r.Summaries? ==> |t.rows| > 0 && |r.rows| == |Countries(t.rows)|
    ensures r.Summaries? ==> forall i :: 0 <= i < |r.rows| ==> r.rows[i] == SummaryFor(t, Countries(t.rows)[i])
  {
    if CountryCol !in t.columns then NeedsCountry
    else if |t.rows| == 0 then EmptyRoundTrip
    else if ReportDateCol !in t.columns && NeedsProxy(t) then ProxyColumnMissing
    else
      var cs := Countries(t.rows);
      Summaries(seq(|cs|, i requires 0 <= i < |cs| => SummaryFor(t, cs[i])))
  }

  /** A selection that leaves no rows fails in the grouping, even with every column
      present, while the same table with one row is summarised. */
  lemma EmptySelectionFailsSummary(r: Row)
    requires r.country.Some?
    ensures CountrySummary(Table({CountryCol, ReportDateCol}, [])).EmptyRoundTrip?
    ensures CountrySummary(Table({CountryCol, ReportDateCol}, [r])).Summaries?
    ensures |CountrySummary(Table({CountryCol, ReportDateCol}, [r])).rows| == 1
  {
    var cs := Countries([r]);
    assert r.country.value in cs;
    assert forall c :: c in cs ==> c == r.country.value;
    if |cs| > 1 {
      assert cs[0] in cs && cs[1] in cs;
      assert cs[0] == cs[1];
    }
  }

  /** With zero cases none of the per-case ratios is finite: CFR is NaN exactly when
      there are no deaths, and each other ratio is an infinity with the sign of its
      numerator, or NaN when that is zero too. */
  lemma ZeroCasesGiveNonFiniteRatios(s: Summary)
    requires RatiosUnguarded(s)
    requires s.totalCases == 0.0
    ensures !s.cfrPercent.Fin? && !s.deployedPerCase.Fin? && !s.surveillancePerCase.Fin?
    ensures !s.allocationPer1000.Fin?
    ensures s.cfrPercent.NaN? <==> s.totalDeaths == 0.0
    ensures s.deployedPerCase.PosInf? <==> s.deployedChws > 0.0
    ensures s.allocationPer1000.PosInf? <==> s.dosesAllocated > 0.0
    ensures s.allocationPer1000.NegInf? <==> s.dosesAllocated < 0.0
  {
  }

  /** Mapping the unguarded ratios' non-finite values to unknown gives exactly the
      guarded ratios the insights page uses. */
  lemma UnguardedAgreesWithGuarded(s: Summary)
    requires RatiosUnguarded(s)
    ensures Known(s.deployedPerCase) == GuardedDiv(s.deployedChws, s.totalCases)
    ensures Known(s.surveillancePerCase) == GuardedDiv(s.sites + s.labs, s.totalCases)
    ensures Known(s.uptakeRatePct) == OptScale(GuardedDiv(s.administered, s.dosesAllocated), 100.0)
  {
    GuardedIsKnownDiv(s.deployedChws, s.totalCases);
    GuardedIsKnownDiv(s.sites + s.labs, s.totalCases);
    GuardedIsKnownDiv(s.administered, s.dosesAllocated);
  }

  // ---------------------------------------------------------------------------
  // Per-country recommendations

  const RecClinical := "Clinical: Investigate high CFR; ensure rapid referral, oxygen, antivirals, IPC training."
  const RecWorkforce := "Workforce: Surge deploy CHWs; target <500 cases per deployed CHW; mobile teams for hotspots."
  const RecSurveillance := "Surveillance: Expand active sites/labs; improve sample transport and reporting cadence."
  const RecAllocation := "Allocation: Advocate for doses aligned to burden; prioritize high-risk geographies."
  const RecUptake := "Uptake: Address last-mile constraints; microplanning, outreach, community engagement."
  const RecData := "Data: Improve coverage reporting frequency and completeness."
  const RecMaintain := "Maintain current strategy; continue monitoring and targeted micro-adjustments."

  function RecRules(s: Summary): seq<Rule> {
    [Rule(Above(s.cfrPercent, 3.0), RecClinical),
     Rule(Below(s.deployedPerCase, 0.5), RecWorkforce),
     Rule(Below(s.surveillancePerCase, 0.02), RecSurveillance),
     Rule(Below(s.allocationPer1000, 2000.0), RecAllocation),
     Rule(Below(s.uptakeRatePct, 70.0), RecUptake),
     Rule(s.latestCoverage.None?, RecData)]
  }

  /** `_recommendations_for_row`. */
  function RecommendationsFor(s: Summary): (ms: seq<string>)
    ensures |ms| > 0
  {
    OrElse(Fired(RecRules(s)), RecMaintain)
  }

  lemma RecRulesDistinct(s: Summary)
    ensures Messages(RecRules(s)) == [RecClinical, RecWorkforce, RecSurveillance, RecAllocation, RecUptake, RecData]
    ensures forall k :: 0 <= k < 6 ==> MessageOnlyAt(RecRules(s), k)
    ensures RecMaintain !in Messages(RecRules(s))
  {
    assert Messages(RecRules(s)) == [RecClinical, RecWorkforce, RecSurveillance, RecAllocation, RecUptake, RecData];
  }

  /** Rule `k`'s message is among the recommendations exactly when rule `k` fires. */
  lemma RecommendationIffRule(s: Summary, k: int)
    requires 0 <= k < 6
    ensures RecRules(s)[k].message in RecommendationsFor(s) <==> RecRules(s)[k].fires
  {
    var rules := RecRules(s);
    RecRulesDistinct(s);
    FiredIffFires(rules, k);
    if |Fired(rules)| == 0 {
      assert RecommendationsFor(s) == [RecMaintain];
      assert rules[k].message != RecMaintain;
    }
  }

  /** Each recommendation appears exactly when its threshold is crossed; the data
      prompt appears exactly when coverage is unknown. */
  lemma RecommendationsSpec(s: Summary)
    ensures RecClinical in RecommendationsFor(s) <==> Above(s.cfrPercent, 3.0)
    ensures RecWorkforce in RecommendationsFor(s) <==> Below(s.deployedPerCase, 0.5)
    ensures RecSurveillance in RecommendationsFor(s) <==> Below(s.surveillancePerCase, 0.02)
    ensures RecAllocation in RecommendationsFor(s) <==> Below(s.allocationPer1000, 2000.0)
    ensures RecUptake in RecommendationsFor(s) <==> Below(s.uptakeRatePct, 70.0)
    ensures RecData in RecommendationsFor(s) <==> s.latestCoverage.None?
  {
    RecommendationIffRule(s, 0);
    RecommendationIffRule(s, 1);
    RecommendationIffRule(s, 2);
    RecommendationIffRule(s, 3);
    RecommendationIffRule(s, 4);
    RecommendationIffRule(s, 5);
  }

  /** The maintenance message appears exactly when no other one does, and then alone;
      otherwise the messages keep the fixed order Clinical, Workforce, Surveillance,
      Allocation, Uptake, Data. */
  lemma RecommendationsFallback(s: Summary)
    ensures RecMaintain in RecommendationsFor(s) <==> RecommendationsFor(s) == [RecMaintain]
    ensures RecommendationsFor(s) == [RecMaintain] <==> forall k :: 0 <= k < 6 ==> !RecRules(s)[k].fires
    ensures RecommendationsFor(s) != [RecMaintain] ==>
              IsSubseq(RecommendationsFor(s), [RecClinical, RecWorkforce, RecSurveillance, RecAllocation, RecUptake, RecData])
  {
    var rules := RecRules(s);
    RecRulesDistinct(s);
    FiredInRuleOrder(rules);
    if |Fired(rules)| > 0 {
      SubseqMembers(Fired(rules), Messages(rules));
      assert RecMaintain !in Fired(rules);
    } else {
      assert forall k :: 0 <= k < 6 ==> rules[k].message != RecMaintain;
    }
  }

  /** A country with zero cases is told to surge CHWs only when its CHW total is
      negative: a positive total divides to +inf and zero to NaN, and neither is below
      the threshold. */
  lemma ZeroCaseWorkforceRecommendation(s: Summary)
    requires RatiosUnguarded(s)
    requires s.totalCases == 0.0
    ensures RecWorkforce in RecommendationsFor(s) <==> s.deployedChws < 0.0
  {
    RecommendationIffRule(s, 1);
  }

  // ---------------------------------------------------------------------------
  // Key flags

  const FlagCfr := "High CFR"
  const FlagChw := "Low CHW coverage"
  const FlagSurveillance := "Low surveillance"
  const FlagAllocation := "Under-allocation vs burden"
  const FlagUptake := "Low uptake"

  function FlagRules(s: Summary): seq<Rule> {
    [Rule(Above(s.cfrPercent, 3.0), FlagCfr),
     Rule(Below(s.deployedPerCase, 0.5), FlagChw),
     Rule(Below(s.surveillancePerCase, 0.02), FlagSurveillance),
     Rule(Below(s.allocationPer1000, 2000.0), FlagAllocation),
     Rule(Below(s.uptakeRatePct, 70.0), FlagUptake)]
  }

  function KeyFlags(s: Summary): (flags: seq<string>)
    ensures |flags| <= |FlagRules(s)|
  {
    Fired(FlagRules(s))
  }

  /** Each flag in back-quotes, as the markdown line shows it. */
  function Quoted(flags: seq<string>): (qs: seq<string>)
    ensures |qs| == |flags|
    ensures forall i :: 0 <= i < |flags| ==> qs[i] == "`" + flags[i] + "`"
  {
    seq(|flags|, i requires 0 <= i < |flags| => "`" + flags[i] + "`")
  }

  /** The "Key flags" line, shown only when some flag is raised. */
  function KeyFlagsLine(s: Summary): (line: Option<string>)
    ensures line.Some? <==> |KeyFlags(s)| > 0
  {
    var flags := KeyFlags(s);
    if |flags| == 0 then None else Some("Key flags: " + Join(Quoted(flags), " "))
  }

  lemma FlagIffRule(s: Summary, k: int)
    requires 0 <= k < 5
    ensures FlagRules(s)[k].message in KeyFlags(s) <==> FlagRules(s)[k].fires
  {
    var rules := FlagRules(s);
    assert Messages(rules) == [FlagCfr, FlagChw, FlagSurveillance, FlagAllocation, FlagUptake];
    assert MessageOnlyAt(rules, k);
    FiredIffFires(rules, k);
  }

  /** The key flags use the thresholds of the first five recommendations: each flag is
      raised exactly when the matching recommendation is made. */
  lemma KeyFlagsMatchRecommendations(s: Summary)
    ensures FlagCfr in KeyFlags(s) <==> RecClinical in RecommendationsFor(s)
    ensures FlagChw in KeyFlags(s) <==> RecWorkforce in RecommendationsFor(s)
    ensures FlagSurveillance in KeyFlags(s) <==> RecSurveillance in RecommendationsFor(s)
    ensures FlagAllocation in KeyFlags(s) <==> RecAllocation in RecommendationsFor(s)
    ensures FlagUptake in KeyFlags(s) <==> RecUptake in RecommendationsFor(s)
  {
    FlagIffRule(s, 0);
    FlagIffRule(s, 1);
    FlagIffRule(s, 2);
    FlagIffRule(s, 3);
    FlagIffRule(s, 4);
    RecommendationsSpec(s);
  }

  /** A flag rule fires exactly when the recommendation rule at the same place does. */
  lemma FlagsFireWithRecommendations(s: Summary)
    ensures forall k :: 0 <= k < 5 ==> FlagRules(s)[k].fires == RecRules(s)[k].fires
  {
  }

  lemma NoFlagsForFallback(s: Summary)
    requires RecommendationsFor(s) == [RecMaintain] || RecommendationsFor(s) == [RecData]
    ensures |KeyFlags(s)| == 0
  {
    RecRulesDistinct(s);
    FlagsFireWithRecommendations(s);
    forall k | 0 <= k < 5
      ensures !FlagRules(s)[k].fires
    {
      RecommendationIffRule(s, k);
    }
  }

  lemma FallbackForNoFlags(s: Summary)
    requires |KeyFlags(s)| == 0
    ensures RecommendationsFor(s) == [RecMaintain] || RecommendationsFor(s) == [RecData]
  {
    var recs := RecRules(s);
    FlagsFireWithRecommendations(s);
    assert forall k :: 0 <= k < 5 ==> !recs[k].fires;
    if s.latestCoverage.None? {
      FiredOfSixLastOnly(recs);
    } else {
      assert forall k :: 0 <= k < 6 ==> !recs[k].fires;
    }
  }

  /** The key-flag line is missing exactly when the recommendations are only the
      maintenance message or only the data prompt. */
  lemma NoKeyFlagsLine(s: Summary)
    ensures KeyFlagsLine(s).None? <==> RecommendationsFor(s) == [RecMaintain] || RecommendationsFor(s) == [RecData]
  {
    if KeyFlagsLine(s).None? {
      FallbackForNoFlags(s);
    } else if RecommendationsFor(s) == [RecMaintain] || RecommendationsFor(s) == [RecData] {
      NoFlagsForFallback(s);
    }
  }

  /** When only the last of six rules fires, its message is the whole list. */
  lemma FiredOfSixLastOnly(rules: seq<Rule>)
    requires |rules| == 6
    requires forall k :: 0 <= k < 5 ==> !rules[k].fires
    requires rules[5].fires
    ensures Fired(rules) == [rules[5].message]
  {
    FiredFront(rules);
    FiredFront(rules[1..]);
    FiredFront(rules[2..]);
    FiredFront(rules[3..]);
    FiredFront(rules[4..]);
    FiredFront(rules[5..]);
    assert rules[1..][1..] == rules[2..];
    assert rules[2..][1..] == rules[3..];
    assert rules[3..][1..] == rules[4..];
    assert rules[4..][1..] == rules[5..];
    assert Fired(rules[5..][1..]) == [];
  }

  // ---------------------------------------------------------------------------
  // Personas

  /** How many clusters the countries are split into. */
  function ClusterCount(n: nat): (k: nat)
    ensures 2 <= k <= 4
    ensures n >= 4 ==> k == 4
    ensures 2 <= n <= 4 ==> k == n
  {
    if n < 4 then (if n < 2 then 2 else n) else 4
  }

  /** With fewer than two countries the cluster count exceeds the number of countries,
      which k-means cannot fit. */
  lemma ClusterCountExceedsCountries(n: nat)
    requires n < 2
    ensures ClusterCount(n) > n
  {
  }

  /** The cluster count capped at the number of countries. */
  function FittingClusterCount(n: nat): (k: nat)
    ensures k <= n && k <= 4
  {
    if n < 4 then n else 4
  }

  /** The capped count differs from the source's only where the source's cannot be fitted. */
  lemma FittingClusterCountAgrees(n: nat)
    ensures n >= 2 ==> FittingClusterCount(n) == ClusterCount(n)
    ensures FittingClusterCount(n) != ClusterCount(n) ==> ClusterCount(n) > n
  {
  }

  /** The six clustering features of a summary row, in feature order. */
  datatype Features = Features(totalCases: Num, cfrPercent: Num, deployedPerCase: Num,
                               surveillancePerCase: Num, allocationPer1000: Num, uptakeRatePct: Num)

  function FeaturesOf(s: Summary): Features {
    Features(Fin(s.totalCases), s.cfrPercent, s.deployedPerCase, s.surveillancePerCase,
             s.allocationPer1000, s.uptakeRatePct)
  }

  /** `fillna(0.0)`: NaN becomes 0, infinities stay. */
  function FillNa(x: Num): (r: Num)
    ensures r.Fin? <==> x.Fin? || x.NaN?
    ensures x.Fin? ==> r == x
  {
    if x.NaN? then Fin(0.0) else x
  }

  predicate AllFinite(f: Features) {
    f.totalCases.Fin? && f.cfrPercent.Fin? && f.deployedPerCase.Fin? &&
    f.surveillancePerCase.Fin? && f.allocationPer1000.Fin? && f.uptakeRatePct.Fin?
  }

  /** The matrix handed to the scaler. */
  function ScalerInput(s: Summary): (f: Features)
    ensures f.totalCases == Fin(s.totalCases)
  {
    var g := FeaturesOf(s);
    Features(FillNa(g.totalCases), FillNa(g.cfrPercent), FillNa(g.deployedPerCase),
             FillNa(g.surveillancePerCase), FillNa(g.allocationPer1000), FillNa(g.uptakeRatePct))
  }

  /** A country with zero cases but some deployed CHWs puts +inf into the scaler's
      input: `fillna` does not touch infinities, and the scaler rejects them. */
  lemma ZeroCaseScalerInputInfinite(s: Summary)
    requires RatiosUnguarded(s)
    requires s.totalCases == 0.0 && s.deployedChws > 0.0
    ensures ScalerInput(s).deployedPerCase.PosInf?
    ensures !AllFinite(ScalerInput(s))
  {
  }

  /** Known values, with NaN and both infinities replaced by 0. */
  function ZeroUnknown(x: Num): (r: Num)
    ensures r.Fin?
    ensures r == Fin(Known(x).GetOr(0.0))
  {
    if x.Fin? then x else Fin(0.0)
  }

  /** The scaler input with infinities treated like NaN, as the insights page does. */
  function FiniteScalerInput(s: Summary): (f: Features)
    ensures AllFinite(f)
  {
    var g := FeaturesOf(s);
    Features(ZeroUnknown(g.totalCases), ZeroUnknown(g.cfrPercent), ZeroUnknown(g.deployedPerCase),
             ZeroUnknown(g.surveillancePerCase), ZeroUnknown(g.allocationPer1000), ZeroUnknown(g.uptakeRatePct))
  }

  /** The finite input changes nothing for rows the scaler already accepts. */
  lemma FiniteScalerInputAgrees(s: Summary)
    ensures AllFinite(ScalerInput(s)) ==> FiniteScalerInput(s) == ScalerInput(s)
    ensures RatiosUnguarded(s) && s.totalCases != 0.0 && s.dosesAllocated != 0.0 ==> FiniteScalerInput(s) == ScalerInput(s)
  {
  }

  /** The five personas. */
  datatype Persona = HighBurden | UnderAllocated | WellAllocated | WeakSurveillance | Balanced

  /** The persona's name as the page shows it. */
  function Name(p: Persona): string {
    match p
    case HighBurden => "High-burden, low capacity"
    case UnderAllocated => "Under-allocated, low uptake"
    case WellAllocated => "Well-allocated, low uptake"
    case WeakSurveillance => "Low burden, weak surveillance"
    case Balanced => "Balanced"
  }

  /** No two personas share a name. */
  lemma NamesDistinct(p: Persona, q: Persona)
    requires p != q
    ensures Name(p) != Name(q)
  {
    assert |Name(HighBurden)| == 25 && |Name(UnderAllocated)| == 27 && |Name(WellAllocated)| == 26;
    assert |Name(WeakSurveillance)| == 29 && |Name(Balanced)| == 8;
  }

  /** The name tests that `_persona_playbook` and the badge make, in their order: a name
      that is none of the four named personas falls through to "Balanced". */
  function PersonaOf(name: string): Persona {
    if name == Name(HighBurden) then HighBurden
    else if name == Name(UnderAllocated) then UnderAllocated
    else if name == Name(WellAllocated) then WellAllocated
    else if name == Name(WeakSurveillance) then WeakSurveillance
    else Balanced
  }

  /** Reading a persona's name back gives the persona. */
  lemma PersonaOfName(p: Persona)
    ensures PersonaOf(Name(p)) == p
  {
    if p != HighBurden { NamesDistinct(p, HighBurden); }
    if p != UnderAllocated { NamesDistinct(p, UnderAllocated); }
    if p != WellAllocated { NamesDistinct(p, WellAllocated); }
    if p != WeakSurveillance { NamesDistinct(p, WeakSurveillance); }
  }

  /** A cluster centre on the original scale. */
  datatype Centroid = Centroid(totalCases: real, cfrPercent: real, deployedPerCase: real,
                               surveillancePerCase: real, allocationPer1000: real, uptakeRatePct: real)

  /** `np.nanmedian` of each feature over all countries; NaN when a column has no
      number, and possibly infinite. */
  datatype Medians = Medians(totalCases: Num, cfrPercent: Num, deployedPerCase: Num,
                             surveillancePerCase: Num, allocationPer1000: Num, uptakeRatePct: Num)

  /** `x > m` and `x < m` for a centroid coordinate and a median. */
  predicate Over(x: real, m: Num) { Lt(m, Fin(x)) }
  predicate Under(x: real, m: Num) { Lt(Fin(x), m) }

  /** The persona of one cluster centre. */
  function PersonaName(c: Centroid, m: Medians): Persona {
    if Over(c.totalCases, m.totalCases) && Under(c.deployedPerCase, m.deployedPerCase) &&
       Under(c.surveillancePerCase, m.surveillancePerCase) then HighBurden
    else if Under(c.allocationPer1000, m.allocationPer1000) && Under(c.uptakeRatePct, m.uptakeRatePct) then UnderAllocated
    else if Over(c.allocationPer1000, m.allocationPer1000) && Under(c.uptakeRatePct, m.uptakeRatePct) then WellAllocated
    else if Under(c.totalCases, m.totalCases) && Under(c.surveillancePerCase, m.surveillancePerCase) then WeakSurveillance
    else Balanced
  }

  /** The naming tests as a rule list. */
  function PersonaRules(c: Centroid, m: Medians): seq<Rule> {
    [Rule(Over(c.totalCases, m.totalCases) && Under(c.deployedPerCase, m.deployedPerCase) &&
          Under(c.surveillancePerCase, m.surveillancePerCase), Name(HighBurden)),
     Rule(Under(c.allocationPer1000, m.allocationPer1000) && Under(c.uptakeRatePct, m.uptakeRatePct), Name(UnderAllocated)),
     Rule(Over(c.allocationPer1000, m.allocationPer1000) && Under(c.uptakeRatePct, m.uptakeRatePct), Name(WellAllocated)),
     Rule(Under(c.totalCases, m.totalCases) && Under(c.surveillancePerCase, m.surveillancePerCase), Name(WeakSurveillance))]
  }

  /** The persona is named by the first naming rule that fires, and is "Balanced"
      exactly when none does. */
  lemma PersonaIsFirstFiring(c: Centroid, m: Medians)
    ensures Name(PersonaName(c, m)) == OrElse(Fired(PersonaRules(c, m)), Name(Balanced))[0]
    ensures PersonaName(c, m) == Balanced <==> forall k :: 0 <= k < 4 ==> !PersonaRules(c, m)[k].fires
  {
    var rules := PersonaRules(c, m);
    FiredFront(rules);
    FiredFront(rules[1..]);
    FiredFront(rules[2..]);
    FiredFront(rules[3..]);
    assert rules[1..][1..] == rules[2..];
    assert rules[2..][1..] == rules[3..];
    assert Fired(rules[3..][1..]) == [];
  }

  /** Medians that are all NaN fail every comparison, so every cluster is "Balanced". */
  lemma NaNMediansGiveBalanced(c: Centroid, m: Medians)
    requires m.totalCases.NaN? && m.deployedPerCase.NaN? && m.surveillancePerCase.NaN?
    requires m.allocationPer1000.NaN? && m.uptakeRatePct.NaN?
    ensures PersonaName(c, m) == Balanced
  {
  }

  const HighBurdenSteps: seq<string> := [
    "Immediate CHW surge and hotspot targeting",
    "Expand surveillance sites and labs; expedite sample logistics",
    "Deploy stock to high-incidence districts first",
    "Stand up clinical support: oxygen access, antivirals, IPC refreshers"]
  const UnderAllocatedSteps: seq<string> := [
    "Advocate for additional doses aligned to burden",
    "Community engagement and microplanning to address hesitancy and access",
    "Weekend/evening clinics; reduce friction at point-of-care"]
  const WellAllocatedSteps: seq<string> := [
    "Last-mile delivery optimization; staffing at vaccination posts",
    "Targeted outreach to low-coverage subpopulations",
    "Monitor wastage and cold-chain integrity"]
  const WeakSurveillanceSteps: seq<string> := [
    "Increase sentinel sites, ensure weekly reporting cadence",
    "Strengthen lab confirmation capacity; training and QA",
    "Rapid investigation of any cluster signals"]
  const DefaultPlaybook: seq<string> := [
    "Maintain response and continue monitoring",
    "Address localized gaps surfaced in metrics (CHW, surveillance, uptake)"]

  /** The playbook steps of each persona. */
  function Steps(p: Persona): seq<string> {
    match p
    case HighBurden => HighBurdenSteps
    case UnderAllocated => UnderAllocatedSteps
    case WellAllocated => WellAllocatedSteps
    case WeakSurveillance => WeakSurveillanceSteps
    case Balanced => DefaultPlaybook
  }

  /** `_persona_playbook`. */
  function Playbook(name: string): (steps: seq<string>)
    ensures 2 <= |steps| <= 4
  {
    Steps(PersonaOf(name))
  }

  /** `PersonaOf` picks a named persona exactly for that persona's name. */
  lemma PersonaOfNamed(name: string, p: Persona)
    requires p != Balanced
    ensures PersonaOf(name) == p <==> name == Name(p)
  {
    if name == Name(p) {
      PersonaOfName(p);
    }
  }

  /** Four steps for the high-burden persona, three for each other named one, and the
      two-step default for "Balanced". */
  lemma StepsSizes(p: Persona)
    ensures |Steps(p)| == 4 <==> p == HighBurden
    ensures |Steps(p)| == 3 <==> p == UnderAllocated || p == WellAllocated || p == WeakSurveillance
    ensures Steps(p) == DefaultPlaybook <==> p == Balanced
  {
  }

  /** The playbook of a name: four steps for the high-burden persona's name, three for
      each other named persona's, and the two-step default for every other name,
      "Balanced" included. */
  lemma PlaybookSizes(name: string)
    ensures |Playbook(name)| == 4 <==> name == Name(HighBurden)
    ensures |Playbook(name)| == 3 <==> name == Name(UnderAllocated) || name == Name(WellAllocated) || name == Name(WeakSurveillance)
    ensures Playbook(name) == DefaultPlaybook <==>
              name != Name(HighBurden) && name != Name(UnderAllocated) && name != Name(WellAllocated) && name != Name(WeakSurveillance)
  {
    StepsSizes(PersonaOf(name));
    PersonaOfNamed(name, HighBurden);
    PersonaOfNamed(name, UnderAllocated);
    PersonaOfNamed(name, WellAllocated);
    PersonaOfNamed(name, WeakSurveillance);
  }

  /** The badge text of each persona, character for character as the program holds it.
      Each starts with four characters that are the UTF-8 bytes of a coloured-circle
      emoji read back as Windows-1252 text (for example U+00F0 U+0178 U+201D U+00B4
      where the red circle U+1F534 was meant), then a space and the persona's name. */
  function BadgeText(p: Persona): string {
    match p
    case HighBurden => "\U{F0}\U{178}\U{201D}\U{B4} High-burden, low capacity"
    case UnderAllocated => "\U{F0}\U{178}\U{178}\U{A0} Under-allocated, low uptake"
    case WellAllocated => "\U{F0}\U{178}\U{178}\U{A1} Well-allocated, low uptake"
    case WeakSurveillance => "\U{F0}\U{178}\U{178}\U{A3} Low burden, weak surveillance"
    case Balanced => "\U{F0}\U{178}\U{178}\U{A2} Balanced"
  }

  /** The persona badge of a persona name. */
  function Badge(name: string): string {
    BadgeText(PersonaOf(name))
  }

  /** The four-character prefix of each badge. */
  function Icon(p: Persona): (s: string)
    ensures |s| == 4
  {
    match p
    case HighBurden => "\U{F0}\U{178}\U{201D}\U{B4}"
    case UnderAllocated => "\U{F0}\U{178}\U{178}\U{A0}"
    case WellAllocated => "\U{F0}\U{178}\U{178}\U{A1}"
    case WeakSurveillance => "\U{F0}\U{178}\U{178}\U{A3}"
    case Balanced => "\U{F0}\U{178}\U{178}\U{A2}"
  }

  /** Each badge text is the persona's prefix, a space and the persona's name. */
  lemma BadgeTextIsIconAndName(p: Persona)
    ensures BadgeText(p) == Icon(p) + " " + Name(p)
  {
    match p
    case HighBurden => HighBurdenBadge();
    case UnderAllocated => UnderAllocatedBadge();
    case WellAllocated => WellAllocatedBadge();
    case WeakSurveillance => WeakSurveillanceBadge();
    case Balanced => BalancedBadge();
  }

  lemma HighBurdenBadge()
    ensures BadgeText(HighBurden) == Icon(HighBurden) + " " + Name(HighBurden)
  {
  }

  lemma UnderAllocatedBadge()
    ensures BadgeText(UnderAllocated) == Icon(UnderAllocated) + " " + Name(UnderAllocated)
  {
  }

  lemma WellAllocatedBadge()
    ensures BadgeText(WellAllocated) == Icon(WellAllocated) + " " + Name(WellAllocated)
  {
  }

  lemma WeakSurveillanceBadge()
    ensures BadgeText(WeakSurveillance) == Icon(WeakSurveillance) + " " + Name(WeakSurveillance)
  {
  }

  lemma BalancedBadge()
    ensures BadgeText(Balanced) == Icon(Balanced) + " " + Name(Balanced)
  {
  }

  /** A persona's badge is its four-character prefix, a space and its own name. */
  lemma BadgeShowsPersona(p: Persona)
    ensures Badge(Name(p)) == Icon(p) + " " + Name(p)
  {
    PersonaOfName(p);
    BadgeTextIsIconAndName(p);
  }

  /** Only the "Balanced" persona has the "Balanced" badge text. */
  lemma BalancedBadgeOnly(q: Persona)
    ensures BadgeText(q) == BadgeText(Balanced) <==> q == Balanced
  {
    BadgeTextIsIconAndName(q);
    BadgeTextIsIconAndName(Balanced);
    if q != Balanced {
      assert BadgeText(q)[3] == Icon(q)[3] != Icon(Balanced)[3] == BadgeText(Balanced)[3];
    }
  }

  /** A name gets the "Balanced" badge exactly when it gets the default playbook. */
  lemma BadgeDefaultsWithPlaybook(name: string)
    ensures Badge(name) == BadgeText(Balanced) <==> Playbook(name) == DefaultPlaybook
  {
    StepsSizes(PersonaOf(name));
    BalancedBadgeOnly(PersonaOf(name));
  }

  /** Different personas get different badges. */
  lemma BadgesDistinct(p: Persona, q: Persona)
    requires p != q
    ensures Badge(Name(p)) != Badge(Name(q))
  {
    BadgeShowsPersona(p);
    BadgeShowsPersona(q);
    NamesDistinct(p, q);
    assert Badge(Name(p))[5..] == Name(p);
    assert Badge(Name(q))[5..] == Name(q);
  }

  // ---------------------------------------------------------------------------
  // Staleness and sort order

  /** `days_old` for one country on day `today`, as the program computes it. The
      summary is rebuilt from a JSON round-trip in which `report_date` is not one of
      the column names `read_json` turns back into dates, so `last_report` is a number:
      epoch milliseconds, or a row count when there is no report_date column.
      `pd.to_datetime` reads that number as nanoseconds, a moment early on 1970-01-01,
      so every known last report is as old as 1970-01-01 is. A missing date stays
      unknown. */
  function AgeDays(today: int, lr: LastReport): (age: Option<int>)
    ensures age.None? <==> lr.LatestReport? && lr.day.None?
    ensures age.Some? ==> age == ReportAge(today, LatestReport(Some(0)))
  {
    match lr
    case LatestReport(d) => if d.Some? then Some(today) else None
    case RowCount(_) => Some(today)
  }

  /** The age the staleness flag is meant to measure: the days from the country's
      latest report date to `today`; unknown when there is no report date. */
  function ReportAge(today: int, lr: LastReport): (age: Option<int>)
    ensures age.Some? <==> lr.LatestReport? && lr.day.Some?
    ensures age.Some? ==> age.value + lr.day.value == today
  {
    match lr
    case LatestReport(d) => if d.Some? then Some(today - d.value) else None
    case RowCount(_) => None
  }

  /** `days_old.fillna(0) > 28`: stale exactly when the age is known and over four
      weeks; an unknown age is never stale. */
  function Stale(age: Option<int>): (b: bool)
    ensures b <==> age.Some? && age.value > 28
  {
    age.GetOr(0) > 28
  }

  /** As written, the report date plays no part: two dated countries always get the
      same age, and it agrees with the intended age only for a report dated 1970-01-01. */
  lemma AgeIgnoresReportDate(today: int, d: int, e: int)
    ensures AgeDays(today, LatestReport(Some(d))) == AgeDays(today, LatestReport(Some(e)))
    ensures AgeDays(today, LatestReport(Some(d))) == ReportAge(today, LatestReport(Some(d))) <==> d == 0
  {
  }

  /** As written, a country that reported five days ago is flagged stale; by its
      report date it is five days old and not stale. */
  lemma RecentReportFlaggedStale()
    ensures AgeDays(20000, LatestReport(Some(19995))) == Some(20000)
    ensures Stale(AgeDays(20000, LatestReport(Some(19995))))
    ensures ReportAge(20000, LatestReport(Some(19995))) == Some(5)
    ensures !Stale(ReportAge(20000, LatestReport(Some(19995))))
  {
  }

  /** As written, from 1970-01-30 on every country with a known last report is stale,
      dated or not. */
  lemma KnownReportAlwaysStale(today: int, lr: LastReport)
    requires today > 28
    requires lr.RowCount? || lr.day.Some?
    ensures Stale(AgeDays(today, lr))
  {
  }

  /** With the intended age a country is stale exactly when its latest report is more
      than four weeks old, and a country without a report date never is. */
  lemma ReportStaleIffOld(today: int, lr: LastReport)
    ensures lr.LatestReport? && lr.day.Some? ==> (Stale(ReportAge(today, lr)) <==> today - lr.day.value > 28)
    ensures lr.RowCount? || lr.day.None? ==> !Stale(ReportAge(today, lr))
  {
  }

  /** Under either reading a stale country stays stale as days pass without a new
      report. */
  lemma StaleStaysStale(today: int, later: int, lr: LastReport)
    requires today <= later
    ensures Stale(AgeDays(today, lr)) ==> Stale(AgeDays(later, lr))
    ensures Stale(ReportAge(today, lr)) ==> Stale(ReportAge(later, lr))
  {
  }

  const SortOptions := ["total_cases", "persona_name", "cfr_percent", "uptake_rate_pct"]

  /** Whether the table is sorted ascending by `sortBy`. */
  function SortAscending(sortBy: string): (asc: bool) {
    sortBy == "persona_name"
  }

  /** Only the persona column sorts ascending; the numeric columns sort descending. */
  lemma SortDirections()
    ensures forall k :: 0 <= k < |SortOptions| ==> (SortAscending(SortOptions[k]) <==> k == 1)
  {
  }
}

=== FILE: rules.dfy ===
/** Fixed-order rule lists: each rule is a condition and the message it contributes,
    the messages of the rules that fire are kept in rule order, and a fallback message
    stands in when none fires. Every recommendation, alert and data-quality list of
    the dashboard has this shape. */
module Rules {
  import opened Base

  datatype Rule = Rule(fires: bool, message: string)

  /** The messages of the rules that fire, in rule order. */
  function Fired(rules: seq<Rule>): (ms: seq<string>)
    ensures |ms| <= |rules|
    ensures |ms| == 0 <==> forall i :: 0 <= i < |rules| ==> !rules[i].fires
    ensures forall m :: m in ms <==> exists i :: 0 <= i < |rules| && rules[i].fires && rules[i].message == m
    decreases |rules|
  {
    if |rules| == 0 then []
    else
      var rest := Fired(rules[1..]);
      assert forall i :: 0 < i < |rules| ==> rules[1..][i - 1] == rules[i];
      (if rules[0].fires then [rules[0].message] else []) + rest
  }

  /** Every rule's message, in rule order. */
  function Messages(rules: seq<Rule>): (ms: seq<string>)
    ensures |ms| == |rules|
    ensures forall i :: 0 <= i < |rules| ==> ms[i] == rules[i].message
  {
    seq(|rules|, i requires 0 <= i < |rules| => rules[i].message)
  }

  /** The number of rules that fire. */
  function FiringCount(rules: seq<Rule>): nat
    decreases |rules|
  {
    if |rules| == 0 then 0 else (if rules[0].fires then 1 else 0) + FiringCount(rules[1..])
  }

  /** The fired messages keep the rule order and there is one per firing rule. */
  lemma {:induction false} FiredInRuleOrder(rules: seq<Rule>)
    ensures IsSubseq(Fired(rules), Messages(rules))
    ensures |Fired(rules)| == FiringCount(rules)
    decreases |rules|
  {
    if |rules| > 0 {
      var rest := rules[1..];
      FiredInRuleOrder(rest);
      assert Messages(rules) == [rules[0].message] + Messages(rest);
      if rules[0].fires {
        var f := Fired(rules);
        assert f == [rules[0].message] + Fired(rest);
        assert f[1..] == Fired(rest);
        assert Messages(rules)[1..] == Messages(rest);
      } else {
        assert Fired(rules) == Fired(rest);
        SubseqCons(Fired(rest), rules[0].message, Messages(rest));
      }
    }
  }

  /** No other rule carries rule `k`'s message. */
  predicate MessageOnlyAt(rules: seq<Rule>, k: int)
    requires 0 <= k < |rules|
  {
    forall i :: 0 <= i < |rules| && i != k ==> rules[i].message != rules[k].message
  }

  /** A message that only rule `k` carries is in the list exactly when rule `k` fires. */
  lemma {:induction false} FiredIffFires(rules: seq<Rule>, k: int)
    requires 0 <= k < |rules|
    requires MessageOnlyAt(rules, k)
    ensures rules[k].message in Fired(rules) <==> rules[k].fires
    decreases |rules|
  {
    var rest := rules[1..];
    var m := rules[k].message;
    assert Fired(rules) == (if rules[0].fires then [rules[0].message] else []) + Fired(rest);
    if k > 0 {
      assert rest[k - 1] == rules[k];
      forall i | 0 <= i < |rest| && i != k - 1
        ensures rest[i].message != rest[k - 1].message
      {
        assert rest[i] == rules[i + 1];
      }
      FiredIffFires(rest, k - 1);
    }
  }

  /** One unfolding step from the front. */
  lemma FiredCons(x: Rule, rest: seq<Rule>)
    ensures Fired([x] + rest) == (if x.fires then [x.message] else []) + Fired(rest)
  {
    assert ([x] + rest)[1..] == rest;
  }

  /** The message a rule contributes: its own when it fires, none otherwise. */
  function Contribution(x: Rule): seq<string> {
    if x.fires then [x.message] else []
  }

  /** Fired, one rule from the front. */
  lemma FiredFront(rules: seq<Rule>)
    requires |rules| > 0
    ensures Fired(rules) == Contribution(rules[0]) + Fired(rules[1..])
  {
  }

  /** Five rules unrolled. */
  lemma FiredOfFive(rules: seq<Rule>)
    requires |rules| == 5
    ensures Fired(rules) == Contribution(rules[0]) + (Contribution(rules[1]) + (Contribution(rules[2]) +
                            (Contribution(rules[3]) + Contribution(rules[4]))))
  {
    FiredFront(rules);
    FiredFront(rules[1..]);
    FiredFront(rules[2..]);
    FiredFront(rules[3..]);
    FiredFront(rules[4..]);
    assert rules[1..][1..] == rules[2..];
    assert rules[2..][1..] == rules[3..];
    assert rules[3..][1..] == rules[4..];
    assert Fired(rules[4..][1..]) == [];
    assert Contribution(rules[4]) + [] == Contribution(rules[4]);
  }

  /** The list, or the single fallback message when it is empty. */
  function OrElse(ms: seq<string>, fallback: string): (r: seq<string>)
    ensures |r| > 0
    ensures |ms| == 0 ==> r == [fallback]
    ensures |ms| > 0 ==> r == ms
  {
    if |ms| == 0 then [fallback] else ms
  }
}

=== FILE: schema.dfy ===
/** Loading a sheet into the normalised table: case-insensitive alias resolution of
    the header against the fixed table of expected columns, type coercion through
    abstract cell parsers, the calendar bucket columns and the fallback CFR column. */
module Schema {
  import opened Base
  import opened Floats
  import opened Table

  /** Each canonical column with the spellings accepted for it, most preferred first. */
  const ExpectedColumns: seq<(string, seq<string>)> := [
    ("country", ["country", "Country"]),
    ("report_date", ["report_date", "date", "Date", "reportDate"]),
    ("confirmed_cases", ["confirmed_cases", "Confirmed", "confirmed", "cases"]),
    ("deaths", ["deaths", "Deaths", "fatalities"]),
    ("vaccinations_administered", ["vaccinations_administered", "vax_administered", "administered"]),
    ("active_surveillance_sites", ["active_surveillance_sites", "active_sites", "surveillance_sites"]),
    ("suspected_cases", ["suspected_cases", "suspected"]),
    ("case_fatality_rate", ["case_fatality_rate", "cfr", "cfr_percent"]),
    ("clade", ["clade", "strain"]),
    ("weekly_new_cases", ["weekly_new_cases", "weekly_cases"]),
    ("vaccine_dose_allocated", ["vaccine_dose_allocated", "allocated"]),
    ("vaccine_dose_deployed", ["vaccine_dose_deployed", "deployed"]),
    ("vaccine_coverage", ["vaccine_coverage", "coverage_percent", "coverage"]),
    ("testing_laboratries", ["testing_laboratries", "testing_labs", "laboratories", "labs"]),
    ("trained_chws", ["trained_chws", "trained_chw"]),
    ("deployed_chws", ["deployed_chws", "deployed_chw"]),
    ("surveillance_notes", ["surveillance_notes", "notes", "surveillance_note"])
  ]

  /** Every canonical name is its own first alias, and no canonical name repeats. */
  predicate WellFormed(aliases: seq<(string, seq<string>)>) {
    SelfAliased(aliases) && CanonicalsDistinct(aliases)
  }

  predicate SelfAliased(aliases: seq<(string, seq<string>)>) {
    forall k :: 0 <= k < |aliases| ==> |aliases[k].1| > 0 && aliases[k].1[0] == aliases[k].0
  }

  predicate CanonicalsDistinct(aliases: seq<(string, seq<string>)>) {
    forall k, k' :: 0 <= k < k' < |aliases| ==> aliases[k].0 != aliases[k'].0
  }

  lemma ExpectedColumnsWellFormed()
    ensures WellFormed(ExpectedColumns)
  {
    assert SelfAliased(ExpectedColumns);
    EarlyCanonicalsDistinct();
    LateCanonicalsDistinct();
  }

  lemma EarlyCanonicalsDistinct()
    ensures forall k, k' :: 0 <= k < 6 && k < k' < |ExpectedColumns| ==> ExpectedColumns[k].0 != ExpectedColumns[k'].0
  {
  }

  lemma LateCanonicalsDistinct()
    ensures forall k, k' :: 6 <= k < k' < |ExpectedColumns| ==> ExpectedColumns[k].0 != ExpectedColumns[k'].0
  {
  }

  // ---------------------------------------------------------------------------
  // Header standardisation

  /** The dictionary from lower-cased header name to header name, built left to right,
      so a later column overwrites an earlier one with the same lower-case spelling. */
  function LowerIndex(header: seq<string>): map<string, string>
    decreases |header|
  {
    if |header| == 0 then map[]
    else LowerIndex(header[..|header| - 1])[Lower(header[|header| - 1]) := header[|header| - 1]]
  }

  /** Column `i` is the last one whose lower-case spelling is `x`. */
  predicate LastWithLower(header: seq<string>, i: int, x: string) {
    0 <= i < |header| && Lower(header[i]) == x &&
    forall c :: i < c < |header| ==> Lower(header[c]) != x
  }

  /** The index holds every lower-case spelling of the header, each mapped to the last
      column spelled that way. */
  lemma {:induction false} LowerIndexSpec(header: seq<string>)
    ensures forall x :: x in LowerIndex(header) <==> exists i :: 0 <= i < |header| && Lower(header[i]) == x
    ensures forall x :: x in LowerIndex(header) ==>
              exists i :: LastWithLower(header, i, x) && header[i] == LowerIndex(header)[x]
    decreases |header|
  {
    if |header| > 0 {
      var init := header[..|header| - 1];
      var last := header[|header| - 1];
      LowerIndexSpec(init);
      assert forall i :: 0 <= i < |init| ==> init[i] == header[i];
      var idx := LowerIndex(header);
      forall x | x in idx
        ensures exists i :: LastWithLower(header, i, x) && header[i] == idx[x]
      {
        if x == Lower(last) {
          assert LastWithLower(header, |header| - 1, x);
        } else {
          assert x in LowerIndex(init) && idx[x] == LowerIndex(init)[x];
          var i :| LastWithLower(init, i, x) && init[i] == LowerIndex(init)[x];
          assert LastWithLower(header, i, x);
        }
      }
    }
  }

  /** Candidate `j` matches some column, and no earlier candidate does. */
  predicate FirstMatchingAt(candidates: seq<string>, idx: map<string, string>, j: int) {
    0 <= j < |candidates| && Lower(candidates[j]) in idx &&
    forall j' :: 0 <= j' < j ==> Lower(candidates[j']) !in idx
  }

  /** The header column chosen by the first candidate spelling that matches any column
      case-insensitively. */
  function FirstMatch(candidates: seq<string>, idx: map<string, string>): (r: Option<string>)
    ensures r.Some? <==> exists j :: 0 <= j < |candidates| && Lower(candidates[j]) in idx
    ensures r.Some? ==> exists j :: FirstMatchingAt(candidates, idx, j) && r.value == idx[Lower(candidates[j])]
    decreases |candidates|
  {
    if |candidates| == 0 then None
    else if Lower(candidates[0]) in idx then
      assert FirstMatchingAt(candidates, idx, 0);
      Some(idx[Lower(candidates[0])])
    else
      var r := FirstMatch(candidates[1..], idx);
      assert forall j :: 0 < j < |candidates| ==> candidates[1..][j - 1] == candidates[j];
      assert r.Some? ==> forall j :: FirstMatchingAt(candidates[1..], idx, j) ==> FirstMatchingAt(candidates, idx, j + 1);
      r
  }

  /** Canonical field `k` claims column `src`. */
  predicate Claims(aliases: seq<(string, seq<string>)>, idx: map<string, string>, k: int, src: string) {
    0 <= k < |aliases| && FirstMatch(aliases[k].1, idx) == Some(src)
  }

  /** The rename dictionary: each canonical name, in table order, claims the column its
      first matching alias picks; a later canonical claiming the same column overwrites. */
  function Mapping(aliases: seq<(string, seq<string>)>, idx: map<string, string>): map<string, string>
    decreases |aliases|
  {
    if |aliases| == 0 then map[]
    else
      var m := Mapping(aliases[..|aliases| - 1], idx);
      match FirstMatch(aliases[|aliases| - 1].1, idx)
      case Some(src) => m[src := aliases[|aliases| - 1].0]
      case None => m
  }

  /** A column is a key of the rename dictionary iff some canonical field claims it. */
  lemma MappingDomain(aliases: seq<(string, seq<string>)>, idx: map<string, string>)
    ensures forall src :: src in Mapping(aliases, idx) <==> exists k :: Claims(aliases, idx, k, src)
  {
    forall src
      ensures src in Mapping(aliases, idx) <==> exists k :: Claims(aliases, idx, k, src)
    {
      if exists k :: Claims(aliases, idx, k, src) {
        var k :| Claims(aliases, idx, k, src);
        ClaimedIsKey(aliases, idx, k, src);
      }
      if src in Mapping(aliases, idx) {
        KeyIsClaimed(aliases, idx, src);
      }
    }
  }

  lemma {:induction false} ClaimedIsKey(aliases: seq<(string, seq<string>)>, idx: map<string, string>, k: int, src: string)
    requires Claims(aliases, idx, k, src)
    ensures src in Mapping(aliases, idx)
    decreases |aliases|
  {
    var n := |aliases| - 1;
    var init := aliases[..n];
    if k < n {
      assert init[k] == aliases[k];
      ClaimedIsKey(init, idx, k, src);
    }
  }

  lemma {:induction false} KeyIsClaimed(aliases: seq<(string, seq<string>)>, idx: map<string, string>, src: string)
    requires src in Mapping(aliases, idx)
    ensures exists k :: Claims(aliases, idx, k, src)
    decreases |aliases|
  {
    var n := |aliases| - 1;
    var init := aliases[..n];
    if !Claims(aliases, idx, n, src) {
      assert src in Mapping(init, idx);
      KeyIsClaimed(init, idx, src);
      var k :| Claims(init, idx, k, src);
      assert init[k] == aliases[k];
      assert Claims(aliases, idx, k, src);
    }
  }

  /** A canonical field claims `src` and no later field does. */
  predicate LastClaim(aliases: seq<(string, seq<string>)>, idx: map<string, string>, k: int, src: string) {
    Claims(aliases, idx, k, src) && forall k' :: k < k' < |aliases| ==> !Claims(aliases, idx, k', src)
  }

  /** A renamed column gets the name of the last canonical field that claims it. */
  lemma MappingLastClaimWins(aliases: seq<(string, seq<string>)>, idx: map<string, string>)
    ensures forall src :: src in Mapping(aliases, idx) ==>
              exists k :: LastClaim(aliases, idx, k, src) && Mapping(aliases, idx)[src] == aliases[k].0
  {
    forall src | src in Mapping(aliases, idx)
      ensures exists k :: LastClaim(aliases, idx, k, src) && Mapping(aliases, idx)[src] == aliases[k].0
    {
      LastClaimWinsAt(aliases, idx, src);
    }
  }

  lemma {:induction false} LastClaimWinsAt(aliases: seq<(string, seq<string>)>, idx: map<string, string>, src: string)
    requires src in Mapping(aliases, idx)
    ensures exists k :: LastClaim(aliases, idx, k, src) && Mapping(aliases, idx)[src] == aliases[k].0
    decreases |aliases|
  {
    var n := |aliases| - 1;
    var init := aliases[..n];
    if Claims(aliases, idx, n, src) {
      assert LastClaim(aliases, idx, n, src);
    } else {
      assert src in Mapping(init, idx) && Mapping(aliases, idx)[src] == Mapping(init, idx)[src];
      LastClaimWinsAt(init, idx, src);
      var k :| LastClaim(init, idx, k, src) && Mapping(init, idx)[src] == init[k].0;
      LastClaimExtends(aliases, idx, k, src);
    }
  }

  /** The last claim among all but the final field stays last when the final field
      does not claim the column. */
  lemma LastClaimExtends(aliases: seq<(string, seq<string>)>, idx: map<string, string>, k: int, src: string)
    requires |aliases| > 0
    requires LastClaim(aliases[..|aliases| - 1], idx, k, src)
    requires !Claims(aliases, idx, |aliases| - 1, src)
    ensures LastClaim(aliases, idx, k, src) && aliases[k] == aliases[..|aliases| - 1][k]
  {
    var init := aliases[..|aliases| - 1];
    forall k' | k < k' < |aliases|
      ensures !Claims(aliases, idx, k', src)
    {
      if k' < |init| {
        assert init[k'] == aliases[k'];
        assert !Claims(init, idx, k', src);
      }
    }
  }

  /** `df.rename(columns=m)`: every column whose name is a key is renamed. */
  function Rename(header: seq<string>, m: map<string, string>): (r: seq<string>)
    ensures |r| == |header|
    ensures forall i :: 0 <= i < |header| ==> r[i] == (if header[i] in m then m[header[i]] else header[i])
  {
    seq(|header|, i requires 0 <= i < |header| => if header[i] in m then m[header[i]] else header[i])
  }

  function StandardizeWith(aliases: seq<(string, seq<string>)>, header: seq<string>): seq<string> {
    Rename(header, Mapping(aliases, LowerIndex(header)))
  }

  /** The standardised header of a sheet. */
  function Standardize(header: seq<string>): (r: seq<string>)
    ensures |r| == |header|
  {
    StandardizeWith(ExpectedColumns, header)
  }

  /** A column is renamed only to a canonical name one of whose aliases equals it up to
      case, with every earlier alias of that field matching no column at all; and only
      if it is spelled like the last column with its lower-case spelling (the lower-case
      index keeps the last one). */
  lemma RenamedOnlyByFirstMatchingAlias(aliases: seq<(string, seq<string>)>, header: seq<string>, i: nat)
    requires i < |header|
    requires StandardizeWith(aliases, header)[i] != header[i]
    ensures exists k, j :: 0 <= k < |aliases| && StandardizeWith(aliases, header)[i] == aliases[k].0 &&
              FirstMatchingAt(aliases[k].1, LowerIndex(header), j) && Lower(aliases[k].1[j]) == Lower(header[i])
    ensures forall c :: LastWithLower(header, c, Lower(header[i])) ==> header[c] == header[i]
  {
    var idx := LowerIndex(header);
    LowerIndexSpec(header);
    MappingDomain(aliases, idx);
    MappingLastClaimWins(aliases, idx);
    var m := Mapping(aliases, idx);
    var src := header[i];
    var k :| LastClaim(aliases, idx, k, src) && m[src] == aliases[k].0;
    var j :| FirstMatchingAt(aliases[k].1, idx, j) && src == idx[Lower(aliases[k].1[j])];
    var x := Lower(aliases[k].1[j]);
    var p :| LastWithLower(header, p, x) && header[p] == idx[x];
    assert Lower(header[i]) == x;
    forall c | LastWithLower(header, c, x)
      ensures header[c] == header[i]
    {
      assert c == p;
    }
  }

  /** In the spelling of `FirstMatchingAt`, an alias that matches no column up to case. */
  lemma NoColumnMeansNoEntry(header: seq<string>, a: string)
    requires forall c :: 0 <= c < |header| ==> Lower(header[c]) != Lower(a)
    ensures Lower(a) !in LowerIndex(header)
  {
    LowerIndexSpec(header);
  }

  /** A column whose name matches no alias of any canonical field, up to case, keeps its name. */
  lemma UnmatchedKeepsName(aliases: seq<(string, seq<string>)>, header: seq<string>, i: nat)
    requires i < |header|
    requires forall k, j :: 0 <= k < |aliases| && 0 <= j < |aliases[k].1| ==> Lower(aliases[k].1[j]) != Lower(header[i])
    ensures StandardizeWith(aliases, header)[i] == header[i]
  {
    if StandardizeWith(aliases, header)[i] != header[i] {
      RenamedOnlyByFirstMatchingAlias(aliases, header, i);
    }
  }

  /** When canonical field `k`'s first matching alias picks a column and no later field
      picks the same one, every column of that name becomes the canonical name. */
  lemma MatchedIsRenamed(aliases: seq<(string, seq<string>)>, header: seq<string>, k: nat)
    requires k < |aliases|
    requires FirstMatch(aliases[k].1, LowerIndex(header)).Some?
    requires forall k' :: k < k' < |aliases| ==>
               FirstMatch(aliases[k'].1, LowerIndex(header)) != FirstMatch(aliases[k].1, LowerIndex(header))
    ensures aliases[k].0 in StandardizeWith(aliases, header)
    ensures forall i :: 0 <= i < |header| && header[i] == FirstMatch(aliases[k].1, LowerIndex(header)).value ==>
              StandardizeWith(aliases, header)[i] == aliases[k].0
  {
    var idx := LowerIndex(header);
    LowerIndexSpec(header);
    MappingDomain(aliases, idx);
    var m := Mapping(aliases, idx);
    var src := FirstMatch(aliases[k].1, idx).value;
    assert Claims(aliases, idx, k, src);
    LastClaimWinsAt(aliases, idx, src);
    var k2 :| LastClaim(aliases, idx, k2, src) && m[src] == aliases[k2].0;
    assert k2 == k;
    var j :| FirstMatchingAt(aliases[k].1, idx, j) && src == idx[Lower(aliases[k].1[j])];
    var p :| LastWithLower(header, p, Lower(aliases[k].1[j])) && header[p] == idx[Lower(aliases[k].1[j])];
    assert StandardizeWith(aliases, header)[p] == aliases[k].0;
  }

  /** A canonical field none of whose aliases matches any column is absent afterwards:
      no error is raised, the column is simply missing. */
  lemma UnmatchedCanonicalAbsent(aliases: seq<(string, seq<string>)>, header: seq<string>, k: nat)
    requires WellFormed(aliases)
    requires k < |aliases|
    requires forall j, c :: 0 <= j < |aliases[k].1| && 0 <= c < |header| ==> Lower(aliases[k].1[j]) != Lower(header[c])
    ensures aliases[k].0 !in StandardizeWith(aliases, header)
  {
    var idx := LowerIndex(header);
    LowerIndexSpec(header);
    MappingLastClaimWins(aliases, idx);
    var m := Mapping(aliases, idx);
    var out := StandardizeWith(aliases, header);
    assert FirstMatch(aliases[k].1, idx).None?;
    forall i | 0 <= i < |out|
      ensures out[i] != aliases[k].0
    {
      if header[i] in m {
        var k2 :| LastClaim(aliases, idx, k2, header[i]) && m[header[i]] == aliases[k2].0;
        assert k2 != k;
      } else {
        assert Lower(header[i]) != Lower(aliases[k].1[0]);
      }
    }
  }

  /** Two columns spelled "country" then "Country": the index keeps "Country", which
      becomes "country", so the table ends up with two columns named "country". */
  lemma CaseVariantsCollide()
    ensures StandardizeWith([("country", ["country", "Country"])], ["country", "Country"]) == ["country", "country"]
  {
    assert Lower("country") == "country" && Lower("Country") == "country";
    assert LowerIndex(["country"]) == map["country" := "country"];
    var idx := LowerIndex(["country", "Country"]);
    assert ["country", "Country"][..1] == ["country"];
    assert idx == map["country" := "Country"];
    assert FirstMatch(["country", "Country"], idx) == Some("Country");
    var m := Mapping([("country", ["country", "Country"])], idx);
    assert m == map["Country" := "country"];
  }

  // ---------------------------------------------------------------------------
  // Coercion and derived columns

  /** A spreadsheet cell as the reader delivers it. */
  datatype Cell = Blank | Text(s: string) | Number(x: real) | Stamp(day: int)

  /** The library conversions the loader relies on, taken as given: `to_numeric` and
      `to_datetime` with invalid values coerced to missing, and the text reading of a
      cell. */
  datatype Parsers = Parsers(number: Cell -> Option<real>, date: Cell -> Option<int>, text: Cell -> Option<string>)

  datatype RawSheet = RawSheet(header: seq<string>, records: seq<seq<Cell>>)

  /** The result of loading: a table, or the name of a canonical column that occurs
      twice after renaming (pandas then hands back a frame where a column was expected). */
  datatype Loaded = Loaded(table: Table) | DuplicateColumn(name: string)

  /** The cell under column `name`, or blank when the record is too short or the column is absent. */
  function CellOf(header: seq<string>, cells: seq<Cell>, name: string): Cell
    decreases |header|
  {
    if |header| == 0 || |cells| == 0 then Blank
    else if header[0] == name then cells[0]
    else CellOf(header[1..], cells[1..], name)
  }

  function NumberCell(p: Parsers, header: seq<string>, cells: seq<Cell>, f: Field): Option<real> {
    if ColumnName(f) in header then p.number(CellOf(header, cells, ColumnName(f))) else None
  }

  function TextCell(p: Parsers, header: seq<string>, cells: seq<Cell>, name: string): Option<string> {
    if name in header then p.text(CellOf(header, cells, name)) else None
  }

  /** The derived CFR of one row: deaths / confirmed * 100, unknown when either is
      missing or the quotient is not finite. */
  function DerivedCfr(deaths: Option<real>, confirmed: Option<real>): (r: Option<real>)
    ensures r.Some? <==> deaths.Some? && confirmed.Some? && confirmed.value != 0.0
    ensures r.Some? ==> r.value * confirmed.value == deaths.value * 100.0
  {
    if deaths.Some? && confirmed.Some? then OptScale(Known(Div(deaths.value, confirmed.value)), 100.0)
    else None
  }

  /** Monday of the `W-SUN` week containing day `d` (day 0 was a Thursday). */
  function WeekStart(d: int): (w: int)
    ensures w <= d < w + 7
    ensures (w + 3) % 7 == 0
  {
    d - (d + 3) % 7
  }

  /** The proleptic Gregorian (year, month, day) of day number `d`. */
  function Civil(d: int): (ymd: (int, int, int))
    ensures 1 <= ymd.1 <= 12
  {
    var z := d + 719468;
    var era := z / 146097;
    var doe := z - era * 146097;
    var yoe := (doe - doe / 1460 + doe / 36524 - doe / 146096) / 365;
    var doy := doe - (365 * yoe + yoe / 4 - yoe / 100);
    var mp := (5 * doy + 2) / 153;
    var day := doy - (153 * mp + 2) / 5 + 1;
    var month := if mp < 10 then mp + 3 else mp - 9;
    (yoe + era * 400 + (if month <= 2 then 1 else 0), month, day)
  }

  /** Months since year 0 of the civil date of day `d` (the `to_period("M")` bucket). */
  function MonthIndex(d: int): int {
    Civil(d).0 * 12 + (Civil(d).1 - 1)
  }

  /** Text left-padded with zeros to at least `width` characters. */
  function ZeroPad(s: string, width: nat): (r: string)
    ensures |r| == if |s| < width then width else |s|
    decreases width - |s|
  {
    if |s| >= width then s else ZeroPad("0" + s, width)
  }

  /** A number printed with at least `width` digits, zero-padded on the left. */
  function Padded(n: int, width: nat): string {
    if n >= 0 then ZeroPad(NatToString(n), width) else IntToString(n)
  }

  /** `str(date)`: ISO `YYYY-MM-DD`. */
  function IsoDate(d: int): string {
    var ymd := Civil(d);
    Join([Padded(ymd.0, 4), Padded(ymd.1, 2), Padded(ymd.2, 2)], "-")
  }

  function BuildRow(p: Parsers, header: seq<string>, cells: seq<Cell>, calendar: bool, deriveCfr: bool): Row {
    var day := if ReportDateCol in header then p.date(CellOf(header, cells, ReportDateCol)) else None;
    var deaths := NumberCell(p, header, cells, Deaths);
    var confirmed := NumberCell(p, header, cells, Confirmed);
    Row(
      country := TextCell(p, header, cells, CountryCol),
      reportDate := day,
      confirmed := confirmed,
      deaths := deaths,
      administered := NumberCell(p, header, cells, Administered),
      sites := NumberCell(p, header, cells, Sites),
      suspected := NumberCell(p, header, cells, Suspected),
      cfr := if deriveCfr then DerivedCfr(deaths, confirmed) else NumberCell(p, header, cells, Cfr),
      clade := TextCell(p, header, cells, CladeCol),
      weeklyNew := NumberCell(p, header, cells, WeeklyNew),
      dosesAllocated := NumberCell(p, header, cells, Allocated),
      dosesDeployed := NumberCell(p, header, cells, Deployed),
      coverage := NumberCell(p, header, cells, Coverage),
      labs := NumberCell(p, header, cells, Labs),
      trainedChws := NumberCell(p, header, cells, TrainedChws),
      deployedChws := NumberCell(p, header, cells, DeployedChws),
      notes := TextCell(p, header, cells, NotesCol),
      date := if calendar then day else None,
      yearWeek := if calendar && day.Some? then Some(WeekStart(day.value)) else None,
      yearMonth := if calendar && day.Some? then Some(MonthIndex(day.value)) else None)
  }

  /** The canonical names that occur more than once in a header, in the order of the alias table. */
  function Duplicated(header: seq<string>): (d: seq<string>)
    ensures forall n :: n in d <==> n in CanonicalNames(ExpectedColumns) && exists i, j :: 0 <= i < j < |header| && header[i] == n && header[j] == n
  {
    DuplicatedFrom(header, CanonicalNames(ExpectedColumns))
  }

  /** The canonical names of an alias table, in table order. */
  function CanonicalNames(aliases: seq<(string, seq<string>)>): (names: seq<string>)
    ensures |names| == |aliases|
    ensures forall k :: 0 <= k < |aliases| ==> names[k] == aliases[k].0
  {
    seq(|aliases|, k requires 0 <= k < |aliases| => aliases[k].0)
  }

  function DuplicatedFrom(header: seq<string>, names: seq<string>): (d: seq<string>)
    ensures forall n :: n in d <==> n in names && exists i, j :: 0 <= i < j < |header| && header[i] == n && header[j] == n
    decreases |names|
  {
    if |names| == 0 then []
    else
      var rest := DuplicatedFrom(header, names[1..]);
      if exists i, j :: 0 <= i < j < |header| && header[i] == names[0] && header[j] == names[0]
      then [names[0]] + rest
      else rest
  }

  predicate HasValidDate(p: Parsers, header: seq<string>, records: seq<seq<Cell>>) {
    ReportDateCol in header &&
    exists r :: 0 <= r < |records| && p.date(CellOf(header, records[r], ReportDateCol)).Some?
  }

  /** Standardise, coerce, add the calendar columns when report_date has a valid value,
      and derive CFR when no CFR column exists but deaths and confirmed cases do. */
  function LoadData(p: Parsers, sheet: RawSheet): (r: Loaded)
    ensures r.DuplicateColumn? <==> |Duplicated(Standardize(sheet.header))| > 0
    ensures r.DuplicateColumn? ==> r.name in Duplicated(Standardize(sheet.header))
    ensures r.Loaded? ==> |r.table.rows| == |sheet.records|
  {
    var header := Standardize(sheet.header);
    var dups := Duplicated(header);
    if |dups| > 0 then DuplicateColumn(dups[0])
    else Loaded(Coerce(p, header, sheet.records))
  }

  /** Whether the loader derives the CFR column for a standardised header. */
  predicate DerivesCfr(header: seq<string>) {
    CfrCol !in header && DeathsCol in header && ConfirmedCol in header
  }

  /** The table built from a standardised, duplicate-free header. */
  function Coerce(p: Parsers, header: seq<string>, records: seq<seq<Cell>>): (t: Table)
    ensures |t.rows| == |records|
  {
    var calendar := HasValidDate(p, header, records);
    var derive := DerivesCfr(header);
    Table(ColumnsAfterLoad(header, calendar, derive), BuildRows(p, header, records, calendar, derive))
  }

  function ColumnsAfterLoad(header: seq<string>, calendar: bool, derive: bool): set<string> {
    (set n | n in header)
      + (if calendar then {"date", "year_week", "year_month"} else {})
      + (if derive then {CfrCol} else {})
  }

  function BuildRows(p: Parsers, header: seq<string>, records: seq<seq<Cell>>, calendar: bool, derive: bool): (rows: seq<Row>)
    ensures |rows| == |records|
    ensures forall r :: 0 <= r < |records| ==> rows[r] == BuildRow(p, header, records[r], calendar, derive)
  {
    seq(|records|, r requires 0 <= r < |records| => BuildRow(p, header, records[r], calendar, derive))
  }

  /** The loader's tables keep the column discipline: a numeric field whose column is
      absent is missing in every row. */
  predicate ColumnDiscipline(t: Table) {
    forall f, r :: 0 <= r < |t.rows| && !Has(t, f) ==> Get(t.rows[r], f).None?
  }

  /** Loading a sheet without duplicated canonical columns builds the table from its
      standardised header. */
  lemma LoadIsCoerceOfStandardized(p: Parsers, sheet: RawSheet)
    ensures LoadData(p, sheet).Loaded? ==>
              LoadData(p, sheet).table == Coerce(p, Standardize(sheet.header), sheet.records)
    ensures LoadData(p, sheet).DuplicateColumn? ==> |Duplicated(Standardize(sheet.header))| > 0
  {
  }

  /** One built row: each numeric field other than a derived CFR is the parser's
      reading of its column's cell, and missing when the column is absent. */
  lemma BuildRowField(p: Parsers, header: seq<string>, cells: seq<Cell>, calendar: bool, derive: bool, f: Field)
    requires !(f == Cfr && derive)
    ensures Get(BuildRow(p, header, cells, calendar, derive), f) ==
              (if ColumnName(f) in header then p.number(CellOf(header, cells, ColumnName(f))) else None)
  {
    match f
    case Confirmed =>
    case Deaths =>
    case Administered =>
    case Sites =>
    case Suspected =>
    case Cfr =>
    case WeeklyNew =>
    case Allocated =>
    case Deployed =>
    case Coverage =>
    case Labs =>
    case TrainedChws =>
    case DeployedChws =>
  }

  /** A built table respects the column discipline, and every numeric field other than
      a derived CFR is the parser's reading of its column's cell. */
  lemma CoercedFieldsAreParsedCells(p: Parsers, header: seq<string>, records: seq<seq<Cell>>)
    ensures ColumnDiscipline(Coerce(p, header, records))
    ensures forall f, r :: 0 <= r < |records| && !(f == Cfr && DerivesCfr(header)) ==>
              Get(Coerce(p, header, records).rows[r], f) ==
                (if ColumnName(f) in header then p.number(CellOf(header, records[r], ColumnName(f))) else None)
  {
    var t := Coerce(p, header, records);
    var calendar := HasValidDate(p, header, records);
    var derive := DerivesCfr(header);
    forall f, r | 0 <= r < |records| && !(f == Cfr && derive)
      ensures Get(t.rows[r], f) ==
                (if ColumnName(f) in header then p.number(CellOf(header, records[r], ColumnName(f))) else None)
    {
      BuildRowField(p, header, records[r], calendar, derive, f);
    }
    forall f, r | 0 <= r < |t.rows| && !Has(t, f)
      ensures Get(t.rows[r], f).None?
    {
      assert ColumnName(f) !in header;
      if f == Cfr {
        assert !derive;
      }
      BuildRowField(p, header, records[r], calendar, derive, f);
    }
  }

  /** The CFR column exists after loading iff it did after renaming or deaths and
      confirmed cases both exist; when derived, a row's CFR is deaths / confirmed * 100,
      unknown when either is missing or confirmed is 0. An existing CFR column (for
      instance one renamed from the alias "cfr") is read as is. */
  lemma CfrDerivation(p: Parsers, header: seq<string>, records: seq<seq<Cell>>)
    ensures CfrCol in Coerce(p, header, records).columns <==>
              CfrCol in header || (DeathsCol in header && ConfirmedCol in header)
    ensures DerivesCfr(header) ==>
              forall r :: 0 <= r < |records| ==>
                var row := Coerce(p, header, records).rows[r];
                row.cfr == DerivedCfr(row.deaths, row.confirmed) &&
                (row.cfr.None? <==> row.deaths.None? || row.confirmed.None? || row.confirmed.value == 0.0)
    ensures CfrCol in header ==>
              forall r :: 0 <= r < |records| ==>
                Coerce(p, header, records).rows[r].cfr == p.number(CellOf(header, records[r], CfrCol))
  {
  }

  /** The calendar columns are added iff report_date exists with at least one valid
      date; then each row's date and week bucket come from its own report date. */
  lemma CalendarOnlyWithValidDate(p: Parsers, header: seq<string>, records: seq<seq<Cell>>)
    requires "year_week" !in header
    ensures var t := Coerce(p, header, records);
            ("year_week" in t.columns <==>
               ReportDateCol in t.columns && exists r :: 0 <= r < |t.rows| && t.rows[r].reportDate.Some?)
    ensures var t := Coerce(p, header, records);
            forall r :: 0 <= r < |t.rows| ==>
              (t.rows[r].date.Some? <==> "year_week" in t.columns && t.rows[r].reportDate.Some?) &&
              (t.rows[r].date.Some? ==> t.rows[r].date == t.rows[r].reportDate &&
                                        t.rows[r].yearWeek == Some(WeekStart(t.rows[r].reportDate.value)))
  {
    var t := Coerce(p, header, records);
    assert ReportDateCol in t.columns <==> ReportDateCol in header;
    if ReportDateCol in header && exists r :: 0 <= r < |t.rows| && t.rows[r].reportDate.Some? {
      var r :| 0 <= r < |t.rows| && t.rows[r].reportDate.Some?;
      assert HasValidDate(p, header, records);
    }
  }

  /** Loading fails only by naming a canonical column that occurs twice after renaming,
      and it succeeds whenever no canonical name repeats. */
  lemma DuplicateRejected(p: Parsers, sheet: RawSheet, header: seq<string>)
    requires header == Standardize(sheet.header)
    ensures LoadData(p, sheet).DuplicateColumn? ==>
              exists i, j :: 0 <= i < j < |header| &&
                header[i] == LoadData(p, sheet).name && header[j] == LoadData(p, sheet).name
    ensures (forall i, j :: 0 <= i < j < |header| && header[i] == header[j] ==>
               header[i] !in CanonicalNames(ExpectedColumns)) ==> LoadData(p, sheet).Loaded?
  {
    var d := Duplicated(header);
    if |d| > 0 {
      assert d[0] in d;
    }
  }

  const CfrCol := "case_fatality_rate"
  const DeathsCol := "deaths"
  const ConfirmedCol := "confirmed_cases"
}

=== FILE: scoring.dfy ===
/** The rule-based priority score of a country: six bounded components (case burden,
    CFR burden, CHW gap, surveillance gap, allocation equity, recent growth) added up
    in float arithmetic and clamped to [0, 100], and the per-component breakdown. */
module Scoring {
  import opened Base
  import opened Floats

  /** The metrics the score reads from a country row. The CFR and allocation ratios
      are unguarded divisions and may be infinite or NaN; the per-case ratios are
      guarded and growth is absent for countries without a weekly series. */
  datatype ScoreInput = ScoreInput(
    totalCases: real,
    cfrPercent: Num,
    deployedPerCase: Option<real>,
    survPerCase: Option<real>,
    allocationPer1000: Num,
    growth4w: Option<real>)

  /** Python `min(a, b)` on finite floats: `b` only when it is smaller. */
  function Min(a: real, b: real): real {
    if b < a then b else a
  }

  /** Python `max(a, b)` on finite floats: `b` only when it is larger. */
  function Max(a: real, b: real): real {
    if b > a then b else a
  }

  /** Case burden: min(cases / 10000, 1) * 25. */
  function CaseBurden(totalCases: real): (r: real)
    ensures r <= 25.0
    ensures totalCases >= 0.0 ==> r >= 0.0
    ensures totalCases >= 10000.0 ==> r == 25.0
  {
    Min(totalCases / 10000.0, 1.0) * 25.0
  }

  /** CFR burden: min(cfr / 5, 1) * 25, where a NaN CFR stays NaN because `min`
      keeps its first argument when the comparison fails. */
  function CfrBurden(cfr: Num): (r: Num)
    ensures r.NaN? <==> cfr.NaN?
    ensures r.NegInf? <==> cfr.NegInf?
    ensures !r.PosInf?
    ensures r.Fin? ==> r.v <= 25.0
    ensures cfr.PosInf? ==> r == Fin(25.0)
    ensures cfr.Fin? && cfr.v >= 0.0 ==> r.Fin? && r.v >= 0.0
  {
    Scale(PyMin(Scale(cfr, 1.0 / 5.0), Fin(1.0)), 25.0)
  }

  /** Capacity gap for a per-case ratio: min(1 / max(x, 1e-6), 10) / 10 * 15, and
      nothing when the ratio is unknown. */
  function Gap(perCase: Option<real>): (r: real)
    ensures perCase.None? ==> r == 0.0
    ensures perCase.Some? ==> 0.0 < r <= 15.0
    ensures perCase.Some? && perCase.value <= 0.1 ==> r == 15.0
  {
    match perCase
    case None => 0.0
    case Some(x) =>
      var m := Max(x, 0.000001);
      Min(1.0 / m, 10.0) / 10.0 * 15.0
  }

  /** 1.5 - x in float arithmetic. */
  function SubFrom(c: real, x: Num): (r: Num)
    ensures x.Fin? ==> r == Fin(c - x.v)
    ensures x.NaN? ==> r.NaN?
    ensures x.PosInf? ==> r.NegInf?
    ensures x.NegInf? ==> r.PosInf?
  {
    match x
    case Fin(v) => Fin(c - v)
    case PosInf => NegInf
    case NegInf => PosInf
    case NaN => NaN
  }

  /** Allocation equity: max(0, 1.5 - min(per1000 / 1000, 3)) / 1.5 * 10. `max(0, NaN)`
      is 0, so an unknown ratio contributes nothing, as the `notna` guard intends; a
      ratio of -inf (negative allocation over zero cases) gives +inf. */
  function Equity(per1000: Num): (r: Num)
    ensures !r.NaN? && !r.NegInf?
    ensures r.Fin? ==> r.v >= 0.0
    ensures per1000.NaN? || per1000.PosInf? ==> r == Fin(0.0)
    ensures per1000.NegInf? <==> r.PosInf?
    ensures per1000.Fin? && per1000.v >= 0.0 ==> r.Fin? && r.v <= 10.0
    ensures per1000.Fin? && per1000.v >= 1500.0 ==> r == Fin(0.0)
  {
    Scale(PyMax(Fin(0.0), SubFrom(1.5, PyMin(Scale(per1000, 1.0 / 1000.0), Fin(3.0)))), 10.0 / 1.5)
  }

  /** Recent growth: max(0, min(g, 1)) * 10, nothing when growth is unknown. */
  function Trend(growth: Option<real>): (r: real)
    ensures 0.0 <= r <= 10.0
    ensures growth.None? ==> r == 0.0
    ensures growth.Some? && growth.value >= 1.0 ==> r == 10.0
    ensures growth.Some? && growth.value <= 0.0 ==> r == 0.0
  {
    match growth
    case None => 0.0
    case Some(g) => Max(0.0, Min(g, 1.0)) * 10.0
  }

  /** The running total of `score_row` before the clamp, adding each component in
      source order and skipping those whose input is unknown. */
  function RawTotal(i: ScoreInput): Num {
    var s := Add(Fin(0.0), Fin(CaseBurden(i.totalCases)));
    var s := Add(s, CfrBurden(i.cfrPercent));
    var s := if i.deployedPerCase.Some? then Add(s, Fin(Gap(i.deployedPerCase))) else s;
    var s := if i.survPerCase.Some? then Add(s, Fin(Gap(i.survPerCase))) else s;
    var s := if !i.allocationPer1000.NaN? then Add(s, Equity(i.allocationPer1000)) else s;
    if i.growth4w.Some? then Add(s, Fin(Trend(i.growth4w))) else s
  }

  /** `max(0.0, min(100.0, s))` with Python's builtins: NaN and +inf give 100, -inf gives 0. */
  function Clamp(s: Num): (r: real)
    ensures 0.0 <= r <= 100.0
    ensures s.Fin? ==> r == (if s.v < 0.0 then 0.0 else if s.v > 100.0 then 100.0 else s.v)
    ensures s.NaN? || s.PosInf? ==> r == 100.0
    ensures s.NegInf? ==> r == 0.0
  {
    PyMax(Fin(0.0), PyMin(Fin(100.0), s)).v
  }

  /** `score_row`: always within [0, 100]. */
  function ScoreRow(i: ScoreInput): (r: real)
    ensures 0.0 <= r <= 100.0
  {
    Clamp(RawTotal(i))
  }

  /** `score_components`: the six contributions, each computed without reference to
      the running total. */
  datatype Components = Components(
    burdenCases: real,
    burdenCfr: Num,
    gapChwPerCase: real,
    gapSurveillancePerCase: real,
    equityAllocation: Num,
    trendGrowth: real)

  function ScoreComponents(i: ScoreInput): (c: Components)
    ensures c.burdenCases <= 25.0 && (c.burdenCfr.Fin? ==> c.burdenCfr.v <= 25.0)
    ensures 0.0 <= c.gapChwPerCase <= 15.0 && 0.0 <= c.gapSurveillancePerCase <= 15.0
    ensures i.deployedPerCase.Some? <==> c.gapChwPerCase > 0.0
    ensures i.survPerCase.Some? <==> c.gapSurveillancePerCase > 0.0
    ensures c.equityAllocation.Fin? ==> c.equityAllocation.v >= 0.0
    ensures i.allocationPer1000.Fin? && i.allocationPer1000.v >= 0.0 ==>
              c.equityAllocation.Fin? && c.equityAllocation.v <= 10.0
    ensures 0.0 <= c.trendGrowth <= 10.0
  {
    Components(
      CaseBurden(i.totalCases),
      CfrBurden(i.cfrPercent),
      if i.deployedPerCase.Some? then Gap(i.deployedPerCase) else 0.0,
      if i.survPerCase.Some? then Gap(i.survPerCase) else 0.0,
      if !i.allocationPer1000.NaN? then Equity(i.allocationPer1000) else Fin(0.0),
      if i.growth4w.Some? then Trend(i.growth4w) else 0.0)
  }

  /** Each guard in the breakdown only spells out what the component already yields
      for an unknown input. */
  lemma ComponentsUnguarded(i: ScoreInput)
    ensures ScoreComponents(i) ==
            Components(CaseBurden(i.totalCases), CfrBurden(i.cfrPercent), Gap(i.deployedPerCase),
                       Gap(i.survPerCase), Equity(i.allocationPer1000), Trend(i.growth4w))
  {
  }

  /** The components added up in float arithmetic, in breakdown order. */
  function ComponentSum(c: Components): Num {
    Add(Add(Add(Add(Add(Fin(c.burdenCases), c.burdenCfr), Fin(c.gapChwPerCase)),
                Fin(c.gapSurveillancePerCase)), c.equityAllocation), Fin(c.trendGrowth))
  }

  /** Adding a float zero changes nothing, not even an infinity or a NaN. */
  lemma AddZero(s: Num)
    ensures Add(s, Fin(0.0)) == s
  {
  }

  /** The breakdown always adds up to the score's running total, so the score is the
      clamped sum of its components; with a finite CFR and allocation ratio the sum
      is the plain real sum. */
  lemma ComponentsAddUpToScore(i: ScoreInput)
    ensures RawTotal(i) == ComponentSum(ScoreComponents(i))
    ensures ScoreRow(i) == Clamp(ComponentSum(ScoreComponents(i)))
    ensures i.cfrPercent.Fin? && i.allocationPer1000.Fin? ==>
              var c := ScoreComponents(i);
              RawTotal(i) == Fin(c.burdenCases + c.burdenCfr.v + c.gapChwPerCase + c.gapSurveillancePerCase +
                                 c.equityAllocation.v + c.trendGrowth)
  {
    var c := ScoreComponents(i);
    var s1 := Add(Fin(c.burdenCases), c.burdenCfr);
    AddZero(s1);
    AddZero(Add(s1, Fin(c.gapChwPerCase)));
    var s3 := Add(Add(s1, Fin(c.gapChwPerCase)), Fin(c.gapSurveillancePerCase));
    AddZero(s3);
    AddZero(Add(s3, c.equityAllocation));
  }

  /** A CFR of NaN (a country with zero cases and zero deaths) makes the score exactly
      100, whatever the other metrics are. */
  lemma NanCfrScoresFull(i: ScoreInput)
    requires i.cfrPercent.NaN?
    ensures ScoreRow(i) == 100.0
  {
  }

  /** Zero deaths over zero cases is such a NaN. */
  lemma ZeroOverZeroCfrScoresFull(i: ScoreInput)
    requires i.cfrPercent == Scale(Div(0.0, 0.0), 100.0)
    ensures ScoreRow(i) == 100.0
  {
  }

  /** A worked example: 5000 cases (12.5), CFR 2.5% (12.5), 0.2 CHWs per case (7.5),
      0.01 surveillance per case (15), 1500 doses per 1000 cases (0) and growth 0.2 (2). */
  lemma WorkedExample()
    ensures ScoreRow(ScoreInput(5000.0, Fin(2.5), Some(0.2), Some(0.01), Fin(1500.0), Some(0.2))) == 49.5
  {
    var i := ScoreInput(5000.0, Fin(2.5), Some(0.2), Some(0.01), Fin(1500.0), Some(0.2));
    var c := ScoreComponents(i);
    WorkedExampleComponents();
    assert c == Components(12.5, Fin(12.5), 7.5, 15.0, Fin(0.0), 2.0);
    ComponentsAddUpToScore(i);
    assert RawTotal(i) == Fin(12.5 + 12.5 + 7.5 + 15.0 + 0.0 + 2.0);
    assert ScoreRow(i) == Clamp(Fin(49.5));
  }

  lemma WorkedExampleComponents()
    ensures ScoreComponents(ScoreInput(5000.0, Fin(2.5), Some(0.2), Some(0.01), Fin(1500.0), Some(0.2))) ==
            Components(12.5, Fin(12.5), 7.5, 15.0, Fin(0.0), 2.0)
  {
    ComponentsUnguarded(ScoreInput(5000.0, Fin(2.5), Some(0.2), Some(0.01), Fin(1500.0), Some(0.2)));
    ExampleCfr();
    ExampleGaps();
    ExampleEquity();
  }

  lemma ExampleCfr()
    ensures CfrBurden(Fin(2.5)) == Fin(12.5)
  {
    assert Scale(Fin(2.5), 1.0 / 5.0) == Fin(0.5);
  }

  lemma ExampleGaps()
    ensures Gap(Some(0.2)) == 7.5 && Gap(Some(0.01)) == 15.0
  {
    assert 1.0 / 0.2 == 5.0;
    assert 1.0 / 0.01 == 100.0;
  }

  lemma ExampleEquity()
    ensures Equity(Fin(1500.0)) == Fin(0.0)
  {
    assert Scale(Fin(1500.0), 1.0 / 1000.0) == Fin(1.5);
  }

  /** The score of a breakdown, read off the components alone. */
  lemma ScoreFromComponents(i: ScoreInput, c: Components)
    requires ScoreComponents(i) == c
    ensures ScoreRow(i) == Clamp(ComponentSum(c))
  {
    ComponentsAddUpToScore(i);
  }

  /** A breakdown of finite components that sums to a value within [0, 100] is the score. */
  lemma ScoreIsComponentTotal(i: ScoreInput, c: Components, total: real)
    requires ScoreComponents(i) == c
    requires ComponentSum(c) == Fin(total)
    requires 0.0 <= total <= 100.0
    ensures ScoreRow(i) == total
  {
    ScoreFromComponents(i, c);
  }

  /** Infinite CFR (deaths over zero cases) and infinite allocation with every other
      input unknown: only the CFR burden counts. */
  lemma InfiniteCfrAloneScores25(i: ScoreInput)
    requires i.totalCases == 0.0 && i.cfrPercent == PosInf && i.growth4w == None
    requires i.deployedPerCase == None && i.survPerCase == None && i.allocationPer1000 == PosInf
    ensures ScoreRow(i) == 25.0
  {
    InfiniteCfrAloneComponents(i);
    CfrAloneScores25(i);
  }

  lemma CfrAloneScores25(i: ScoreInput)
    requires ScoreComponents(i) == Components(0.0, Fin(25.0), 0.0, 0.0, Fin(0.0), 0.0)
    ensures ScoreRow(i) == 25.0
  {
    var c := Components(0.0, Fin(25.0), 0.0, 0.0, Fin(0.0), 0.0);
    SumOfComponents(c, 25.0);
    ScoreIsComponentTotal(i, c, 25.0);
  }

  lemma InfiniteCfrAloneComponents(i: ScoreInput)
    requires i.totalCases == 0.0 && i.cfrPercent == PosInf && i.growth4w == None
    requires i.deployedPerCase == None && i.survPerCase == None && i.allocationPer1000 == PosInf
    ensures ScoreComponents(i) == Components(0.0, Fin(25.0), 0.0, 0.0, Fin(0.0), 0.0)
  {
    ComponentsUnguarded(i);
  }

  /** A breakdown of finite components sums to their real sum. */
  lemma SumOfComponents(c: Components, total: real)
    requires c.burdenCfr.Fin? && c.equityAllocation.Fin?
    requires total == c.burdenCases + c.burdenCfr.v + c.gapChwPerCase + c.gapSurveillancePerCase +
                      c.equityAllocation.v + c.trendGrowth
    ensures ComponentSum(c) == Fin(total)
  {
  }

  /** The same CFR with both per-case ratios at zero and ample allocation: the two
      capacity gaps add their full 15 each. */
  lemma InfiniteCfrWithZeroCapacityScores55(i: ScoreInput)
    requires i.totalCases == 0.0 && i.cfrPercent == PosInf && i.growth4w == None
    requires i.deployedPerCase == Some(0.0) && i.survPerCase == Some(0.0)
    requires i.allocationPer1000.Fin? && i.allocationPer1000.v >= 1500.0
    ensures ScoreRow(i) == 55.0
  {
    ZeroCapacityComponents(i);
    ZeroCapacityScores55(i);
  }

  lemma ZeroCapacityScores55(i: ScoreInput)
    requires ScoreComponents(i) == Components(0.0, Fin(25.0), 15.0, 15.0, Fin(0.0), 0.0)
    ensures ScoreRow(i) == 55.0
  {
    var c := Components(0.0, Fin(25.0), 15.0, 15.0, Fin(0.0), 0.0);
    SumOfComponents(c, 55.0);
    ScoreIsComponentTotal(i, c, 55.0);
  }

  lemma ZeroCapacityComponents(i: ScoreInput)
    requires i.totalCases == 0.0 && i.cfrPercent == PosInf && i.growth4w == None
    requires i.deployedPerCase == Some(0.0) && i.survPerCase == Some(0.0)
    requires i.allocationPer1000.Fin? && i.allocationPer1000.v >= 1500.0
    ensures ScoreComponents(i) == Components(0.0, Fin(25.0), 15.0, 15.0, Fin(0.0), 0.0)
  {
    ComponentsUnguarded(i);
  }

  // ---------------------------------------------------------------------------
  // Monotonicity

  /** The order in which the clamp is monotone: -inf lowest, then the reals, with
      +inf and NaN both on top (both clamp to 100). */
  predicate NumLe(a: Num, b: Num) {
    b.NaN? || b.PosInf? || a.NegInf? || (a.Fin? && b.Fin? && a.v <= b.v)
  }

  /** The order on an input ratio: extended-real order, with NaN above everything and
      comparable only to itself from above. */
  predicate InputLe(a: Num, b: Num) {
    b.NaN? ||
    (!a.NaN? && (b.PosInf? || a.NegInf? || (a.Fin? && b.Fin? && a.v <= b.v)))
  }

  /** The order on a guarded per-case ratio: unknown is above every known value. */
  predicate CapacityLe(a: Option<real>, b: Option<real>) {
    b.None? || (a.Some? && a.value <= b.value)
  }

  /** The order on growth: unknown is below every known value. */
  predicate GrowthLe(a: Option<real>, b: Option<real>) {
    a.None? || (b.Some? && a.value <= b.value)
  }

  /** `j` is at least as urgent as `i` in every metric: no fewer cases, no lower CFR,
      no more CHWs or surveillance per case, no more doses per 1000 cases, and no
      lower growth. */
  predicate MoreUrgent(i: ScoreInput, j: ScoreInput) {
    i.totalCases <= j.totalCases &&
    InputLe(i.cfrPercent, j.cfrPercent) &&
    CapacityLe(j.deployedPerCase, i.deployedPerCase) &&
    CapacityLe(j.survPerCase, i.survPerCase) &&
    InputLe(j.allocationPer1000, i.allocationPer1000) &&
    GrowthLe(i.growth4w, j.growth4w)
  }

  lemma AddMonotoneLeft(a: Num, a': Num, b: Num)
    requires NumLe(a, a')
    ensures NumLe(Add(a, b), Add(a', b))
  {
  }

  lemma AddMonotoneRight(a: Num, b: Num, b': Num)
    requires NumLe(b, b')
    ensures NumLe(Add(a, b), Add(a, b'))
  {
  }

  lemma AddMonotone(a: Num, a': Num, b: Num, b': Num)
    requires NumLe(a, a') && NumLe(b, b')
    ensures NumLe(Add(a, b), Add(a', b'))
  {
    AddMonotoneLeft(a, a', b);
    AddMonotoneRight(a', b, b');
    NumLeTransitive(Add(a, b), Add(a', b), Add(a', b'));
  }

  lemma NumLeTransitive(a: Num, b: Num, c: Num)
    requires NumLe(a, b) && NumLe(b, c)
    ensures NumLe(a, c)
  {
  }

  lemma ClampMonotone(s: Num, s': Num)
    requires NumLe(s, s')
    ensures Clamp(s) <= Clamp(s')
  {
  }

  lemma CaseBurdenMonotone(x: real, y: real)
    requires x <= y
    ensures CaseBurden(x) <= CaseBurden(y)
  {
  }

  lemma CfrBurdenMonotone(c: Num, c': Num)
    requires InputLe(c, c')
    ensures NumLe(CfrBurden(c), CfrBurden(c'))
  {
  }

  lemma GapAntitone(x: Option<real>, y: Option<real>)
    requires CapacityLe(x, y)
    ensures Gap(y) <= Gap(x)
  {
    if x.Some? && y.Some? {
      var mx := Max(x.value, 0.000001);
      var my := Max(y.value, 0.000001);
      assert 0.0 < mx <= my;
      ReciprocalAntitone(mx, my);
    }
  }

  lemma ReciprocalAntitone(a: real, b: real)
    requires 0.0 < a <= b
    ensures 1.0 / b <= 1.0 / a
  {
    assert 1.0 / a - 1.0 / b == (b - a) / (a * b);
    assert a * b > 0.0;
  }

  lemma EquityAntitone(p: Num, p': Num)
    requires InputLe(p, p')
    ensures NumLe(Equity(p'), Equity(p))
  {
    if p.NegInf? {
      EquityOfNegInfIsTop(p, p');
    } else if p'.NaN? || p'.PosInf? {
      EquityOfUnboundedIsZero(p, p');
    } else {
      EquityAntitoneFinite(p, p');
    }
  }

  lemma EquityOfNegInfIsTop(p: Num, p': Num)
    requires p.NegInf?
    ensures NumLe(Equity(p'), Equity(p))
  {
    assert Equity(p).PosInf?;
  }

  lemma EquityOfUnboundedIsZero(p: Num, p': Num)
    requires p'.NaN? || p'.PosInf?
    ensures NumLe(Equity(p'), Equity(p))
  {
    assert Equity(p') == Fin(0.0);
  }

  lemma EquityAntitoneFinite(p: Num, p': Num)
    requires p.Fin? && p'.Fin? && p.v <= p'.v
    ensures NumLe(Equity(p'), Equity(p))
  {
    EquityOfFinite(p.v);
    EquityOfFinite(p'.v);
    EquityOfRatioAntitone(p.v, p'.v);
  }

  /** Equity on a finite allocation ratio, in real arithmetic. */
  function EquityOfRatio(x: real): real {
    Max(0.0, 1.5 - Min(x / 1000.0, 3.0)) * (10.0 / 1.5)
  }

  lemma EquityOfFinite(x: real)
    ensures Equity(Fin(x)) == Fin(EquityOfRatio(x))
  {
    var m := Min(x / 1000.0, 3.0);
    assert PyMin(Scale(Fin(x), 1.0 / 1000.0), Fin(3.0)) == Fin(m) by {
      assert Scale(Fin(x), 1.0 / 1000.0) == Fin(x / 1000.0);
    }
    var d := Max(0.0, 1.5 - m);
    assert PyMax(Fin(0.0), SubFrom(1.5, Fin(m))) == Fin(d);
  }

  lemma EquityOfRatioAntitone(x: real, y: real)
    requires x <= y
    ensures EquityOfRatio(y) <= EquityOfRatio(x)
  {
    var dx := Max(0.0, 1.5 - Min(x / 1000.0, 3.0));
    var dy := Max(0.0, 1.5 - Min(y / 1000.0, 3.0));
    assert dy <= dx;
    ScaleLe(dy, dx, 10.0 / 1.5);
  }

  lemma ScaleLe(a: real, b: real, k: real)
    requires a <= b && k > 0.0
    ensures a * k <= b * k
  {
  }

  lemma TrendMonotone(g: Option<real>, g': Option<real>)
    requires GrowthLe(g, g')
    ensures Trend(g) <= Trend(g')
  {
  }

  /** Component-wise larger breakdowns have a larger float sum. */
  lemma ComponentSumMonotone(c: Components, d: Components)
    requires c.burdenCases <= d.burdenCases && NumLe(c.burdenCfr, d.burdenCfr)
    requires c.gapChwPerCase <= d.gapChwPerCase && c.gapSurveillancePerCase <= d.gapSurveillancePerCase
    requires NumLe(c.equityAllocation, d.equityAllocation) && c.trendGrowth <= d.trendGrowth
    ensures NumLe(ComponentSum(c), ComponentSum(d))
  {
    var a1 := Add(Fin(c.burdenCases), c.burdenCfr);
    var b1 := Add(Fin(d.burdenCases), d.burdenCfr);
    AddMonotone(Fin(c.burdenCases), Fin(d.burdenCases), c.burdenCfr, d.burdenCfr);
    var a2 := Add(a1, Fin(c.gapChwPerCase));
    var b2 := Add(b1, Fin(d.gapChwPerCase));
    AddMonotone(a1, b1, Fin(c.gapChwPerCase), Fin(d.gapChwPerCase));
    var a3 := Add(a2, Fin(c.gapSurveillancePerCase));
    var b3 := Add(b2, Fin(d.gapSurveillancePerCase));
    AddMonotone(a2, b2, Fin(c.gapSurveillancePerCase), Fin(d.gapSurveillancePerCase));
    var a4 := Add(a3, c.equityAllocation);
    var b4 := Add(b3, d.equityAllocation);
    AddMonotone(a3, b3, c.equityAllocation, d.equityAllocation);
    AddMonotone(a4, b4, Fin(c.trendGrowth), Fin(d.trendGrowth));
  }

  /** A more urgent country never scores lower: raising cases, CFR or growth, or
      lowering CHWs per case, surveillance per case or doses per 1000 cases, never
      lowers the score. */
  lemma ScoreMonotone(i: ScoreInput, j: ScoreInput)
    requires MoreUrgent(i, j)
    ensures ScoreRow(i) <= ScoreRow(j)
  {
    ComponentsAddUpToScore(i);
    ComponentsAddUpToScore(j);
    ComponentsUnguarded(i);
    ComponentsUnguarded(j);
    CaseBurdenMonotone(i.totalCases, j.totalCases);
    CfrBurdenMonotone(i.cfrPercent, j.cfrPercent);
    GapAntitone(j.deployedPerCase, i.deployedPerCase);
    GapAntitone(j.survPerCase, i.survPerCase);
    EquityAntitone(j.allocationPer1000, i.allocationPer1000);
    TrendMonotone(i.growth4w, j.growth4w);
    ComponentSumMonotone(ScoreComponents(i), ScoreComponents(j));
    ClampMonotone(ComponentSum(ScoreComponents(i)), ComponentSum(ScoreComponents(j)));
  }
}

=== FILE: table.dfy ===
/** The normalised outbreak table: one `Row` per source record with every canonical
    field optional, plus the set of column names the table carries. A field whose
    column is absent is `None` in every row; whether a view may use a field is decided
    by the column set, exactly as the source's `"x" in df.columns` checks do. */
module Table {
  import opened Base
  import opened Floats
  import opened Grouping

  datatype Row = Row(
    country: Option<string>,
    reportDate: Option<int>,     // day number, day 0 = 1970-01-01
    confirmed: Option<real>,
    deaths: Option<real>,
    administered: Option<real>,
    sites: Option<real>,
    suspected: Option<real>,
    cfr: Option<real>,
    clade: Option<string>,
    weeklyNew: Option<real>,
    dosesAllocated: Option<real>,
    dosesDeployed: Option<real>,
    coverage: Option<real>,
    labs: Option<real>,
    trainedChws: Option<real>,
    deployedChws: Option<real>,
    notes: Option<string>,
    date: Option<int>,           // derived calendar columns
    yearWeek: Option<int>,
    yearMonth: Option<int>)

  datatype Table = Table(columns: set<string>, rows: seq<Row>)

  /** The numeric canonical fields, in the order the coercion step lists them. */
  datatype Field =
    | Confirmed | Deaths | Administered | Sites | Suspected | Cfr | WeeklyNew
    | Allocated | Deployed | Coverage | Labs | TrainedChws | DeployedChws

  const NumericFields: seq<Field> :=
    [Confirmed, Deaths, Administered, Sites, Suspected, Cfr, WeeklyNew,
     Allocated, Deployed, Coverage, Labs, TrainedChws, DeployedChws]

  function ColumnName(f: Field): string {
    match f
    case Confirmed => "confirmed_cases"
    case Deaths => "deaths"
    case Administered => "vaccinations_administered"
    case Sites => "active_surveillance_sites"
    case Suspected => "suspected_cases"
    case Cfr => "case_fatality_rate"
    case WeeklyNew => "weekly_new_cases"
    case Allocated => "vaccine_dose_allocated"
    case Deployed => "vaccine_dose_deployed"
    case Coverage => "vaccine_coverage"
    case Labs => "testing_laboratries"
    case TrainedChws => "trained_chws"
    case DeployedChws => "deployed_chws"
  }

  const CountryCol := "country"
  const ReportDateCol := "report_date"
  const CladeCol := "clade"
  const NotesCol := "surveillance_notes"

  function Get(r: Row, f: Field): Option<real> {
    match f
    case Confirmed => r.confirmed
    case Deaths => r.deaths
    case Administered => r.administered
    case Sites => r.sites
    case Suspected => r.suspected
    case Cfr => r.cfr
    case WeeklyNew => r.weeklyNew
    case Allocated => r.dosesAllocated
    case Deployed => r.dosesDeployed
    case Coverage => r.coverage
    case Labs => r.labs
    case TrainedChws => r.trainedChws
    case DeployedChws => r.deployedChws
  }

  predicate Has(t: Table, f: Field) {
    ColumnName(f) in t.columns
  }

  /** A cell's contribution to a pandas `sum`: missing counts as 0. */
  function ValueOf(r: Row, f: Field): real {
    Get(r, f).GetOr(0.0)
  }

  // ---------------------------------------------------------------------------
  // groupby("country")

  /** Each row as a groupby entry keyed by its country, carrying one field's value. */
  function Column(rows: seq<Row>, f: Field): (es: seq<Entry<string>>)
    ensures |es| == |rows|
    ensures forall i :: 0 <= i < |rows| ==> es[i] == Entry(rows[i].country, ValueOf(rows[i], f))
  {
    seq(|rows|, i requires 0 <= i < |rows| => Entry(rows[i].country, ValueOf(rows[i], f)))
  }

  /** Each row keyed by its country, carrying 1 when it has a report date
      (`("report_date", "count")` counts non-missing dates). */
  function DatedColumn(rows: seq<Row>): (es: seq<Entry<string>>)
    ensures |es| == |rows|
    ensures forall i :: 0 <= i < |rows| ==>
              es[i] == Entry(rows[i].country, if rows[i].reportDate.Some? then 1.0 else 0.0)
  {
    seq(|rows|, i requires 0 <= i < |rows| =>
      Entry(rows[i].country, if rows[i].reportDate.Some? then 1.0 else 0.0))
  }

  /** Each row keyed by its country, carrying 1 (`("country", "count")`). */
  function CountColumn(rows: seq<Row>): (es: seq<Entry<string>>)
    ensures |es| == |rows|
    ensures forall i :: 0 <= i < |rows| ==> es[i] == Entry(rows[i].country, 1.0)
  {
    seq(|rows|, i requires 0 <= i < |rows| => Entry(rows[i].country, 1.0))
  }

  /** The groups of `groupby("country")`: every non-missing country once. */
  function Countries(rows: seq<Row>): (cs: seq<string>)
    ensures Distinct(cs)
    ensures forall c :: c in cs <==> exists i :: 0 <= i < |rows| && rows[i].country == Some(c)
  {
    var es := CountColumn(rows);
    assert forall i :: 0 <= i < |rows| ==> es[i].key == rows[i].country;
    KeysOf(es)
  }

  /** A country's group sum of one field. */
  function SumFor(rows: seq<Row>, c: string, f: Field): real {
    Total(Column(rows, f), c)
  }

  /** The sum of one field over the whole table (`df[col].sum()`). */
  function ColumnSum(rows: seq<Row>, f: Field): real
    decreases |rows|
  {
    if |rows| == 0 then 0.0 else ColumnSum(rows[..|rows| - 1], f) + ValueOf(rows[|rows| - 1], f)
  }

  /** Per-country sums add up to the column sum when every row names its country. */
  lemma {:induction false} CountrySumsAddUp(rows: seq<Row>, f: Field)
    requires forall i :: 0 <= i < |rows| ==> rows[i].country.Some?
    ensures Sum(Totals(Countries(rows), Column(rows, f))) == ColumnSum(rows, f)
  {
    var es := Column(rows, f);
    PartitionSum(Countries(rows), es);
    KeyedSumIsColumnSum(rows, f);
  }

  lemma {:induction false} KeyedSumIsColumnSum(rows: seq<Row>, f: Field)
    requires forall i :: 0 <= i < |rows| ==> rows[i].country.Some?
    ensures KeyedSum(Column(rows, f)) == ColumnSum(rows, f)
    decreases |rows|
  {
    if |rows| > 0 {
      var init := rows[..|rows| - 1];
      KeyedSumIsColumnSum(init, f);
      assert Column(rows, f)[..|rows| - 1] == Column(init, f);
    }
  }

  /** The number of `c`'s rows that carry a report date. */
  function DatedCountFor(rows: seq<Row>, c: string): real {
    Total(DatedColumn(rows), c)
  }

  /** The number of `c`'s rows. */
  function RowCountFor(rows: seq<Row>, c: string): real {
    Total(CountColumn(rows), c)
  }

  /** pandas `max` of one field within country `c`: unknown when every value is missing. */
  function MaxFor(rows: seq<Row>, c: string, f: Field): (m: Option<real>)
    ensures m.Some? <==> exists i :: 0 <= i < |rows| && rows[i].country == Some(c) && Get(rows[i], f).Some?
    ensures m.Some? ==> forall i :: 0 <= i < |rows| && rows[i].country == Some(c) && Get(rows[i], f).Some? ==>
                          Get(rows[i], f).value <= m.value
    ensures m.Some? ==> exists i :: 0 <= i < |rows| && rows[i].country == Some(c) && Get(rows[i], f) == m
    decreases |rows|
  {
    if |rows| == 0 then None
    else
      var init := rows[..|rows| - 1];
      var last := rows[|rows| - 1];
      var m := MaxFor(init, c, f);
      assert forall i :: 0 <= i < |init| ==> init[i] == rows[i];
      if last.country != Some(c) || Get(last, f).None? then m
      else if m.None? || m.value < Get(last, f).value then Get(last, f)
      else m
  }

  /** The latest of some optional days (pandas `max` over a date column): unknown when
      every day is missing. */
  function LatestDay(days: seq<Option<int>>): (m: Option<int>)
    ensures m.Some? <==> exists i :: 0 <= i < |days| && days[i].Some?
    ensures m.Some? ==> forall i :: 0 <= i < |days| && days[i].Some? ==> days[i].value <= m.value
    ensures m.Some? ==> m in days
    decreases |days|
  {
    if |days| == 0 then None
    else
      var init := days[..|days| - 1];
      var last := days[|days| - 1];
      var m := LatestDay(init);
      assert forall i :: 0 <= i < |init| ==> init[i] == days[i];
      if last.None? then m
      else if m.None? || m.value < last.value then last
      else m
  }

  /** All report days of the table. */
  function ReportDays(rows: seq<Row>): (ds: seq<Option<int>>)
    ensures |ds| == |rows|
    ensures forall i :: 0 <= i < |rows| ==> ds[i] == rows[i].reportDate
  {
    seq(|rows|, i requires 0 <= i < |rows| => rows[i].reportDate)
  }

  /** The age in days of the newest report on day `today`; unknown without a
      report_date column or without any date. */
  function DataAge(t: Table, today: int): (age: Option<int>)
    ensures age.Some? <==> ReportDateCol in t.columns && exists i :: 0 <= i < |t.rows| && t.rows[i].reportDate.Some?
    ensures age.Some? ==> forall i :: 0 <= i < |t.rows| && t.rows[i].reportDate.Some? ==>
                            age.value <= today - t.rows[i].reportDate.value
    ensures age.Some? ==> exists i :: 0 <= i < |t.rows| && t.rows[i].reportDate.Some? &&
                            age.value == today - t.rows[i].reportDate.value
  {
    if ReportDateCol !in t.columns then None
    else
      var latest := LatestDay(ReportDays(t.rows));
      if latest.None? then None else Some(today - latest.value)
  }

  /** The report days of country `c`'s rows (other rows count as missing). */
  function DaysOf(rows: seq<Row>, c: string): (ds: seq<Option<int>>)
    ensures |ds| == |rows|
    ensures forall i :: 0 <= i < |rows| ==> ds[i] == (if rows[i].country == Some(c) then rows[i].reportDate else None)
  {
    seq(|rows|, i requires 0 <= i < |rows| => if rows[i].country == Some(c) then rows[i].reportDate else None)
  }

  /** A group's count of dated rows never exceeds its row count, and neither is negative. */
  lemma {:induction false} DatedCountBounds(rows: seq<Row>, c: string)
    ensures 0.0 <= DatedCountFor(rows, c) <= RowCountFor(rows, c)
    decreases |rows|
  {
    if |rows| > 0 {
      var init := rows[..|rows| - 1];
      DatedCountBounds(init, c);
      assert DatedColumn(rows)[..|rows| - 1] == DatedColumn(init);
      assert CountColumn(rows)[..|rows| - 1] == CountColumn(init);
    }
  }

  /** Count of `c`'s rows whose field is present. */
  function PresentCountFor(rows: seq<Row>, c: string, f: Field): nat
    decreases |rows|
  {
    if |rows| == 0 then 0
    else
      PresentCountFor(rows[..|rows| - 1], c, f) +
      (if rows[|rows| - 1].country == Some(c) && Get(rows[|rows| - 1], f).Some? then 1 else 0)
  }

  /** pandas `mean` of one field within country `c`, skipping missing values. */
  function MeanFor(rows: seq<Row>, c: string, f: Field): (m: Option<real>)
    ensures m.Some? <==> PresentCountFor(rows, c, f) > 0
    ensures m.Some? ==> m.value * PresentCountFor(rows, c, f) as real == SumFor(rows, c, f)
  {
    var n := PresentCountFor(rows, c, f);
    if n == 0 then None else Some(SumFor(rows, c, f) / n as real)
  }

  // ---------------------------------------------------------------------------
  // Data-quality captions: "<Column Title> missing: <share>%"

  /** The number of rows whose field is missing. */
  function MissingCount(rows: seq<Row>, f: Field): (n: nat)
    ensures n <= |rows|
    ensures n > 0 <==> exists i :: 0 <= i < |rows| && Get(rows[i], f).None?
    decreases |rows|
  {
    if |rows| == 0 then 0
    else
      var init := rows[..|rows| - 1];
      assert forall i :: 0 <= i < |init| ==> init[i] == rows[i];
      MissingCount(init, f) + (if Get(rows[|rows| - 1], f).None? then 1 else 0)
  }

  /** Python `s.replace('_', ' ').title()` on ASCII text: a letter is upper-cased when
      it starts a run of letters and lower-cased otherwise. */
  function TitleLabel(s: string): (r: string)
    ensures |r| == |s|
  {
    seq(|s|, i requires 0 <= i < |s| =>
      if s[i] == '_' then ' '
      else if !IsLetter(s[i]) then s[i]
      else if i == 0 || !IsLetter(s[i - 1]) then UpperChar(s[i])
      else LowerChar(s[i]))
  }

  /** One data-quality caption item: the column's title and its missing share in %. */
  datatype MissingNote = MissingNote(title: string, missingPct: real)

  /** For each listed field, in order, a note when its column is present and its
      missing share `isna().mean()` is above 0. An empty table has a NaN share, which
      is never above 0. */
  function MissingNotes(t: Table, fields: seq<Field>): (notes: seq<MissingNote>)
    ensures |notes| <= |fields|
    ensures forall k :: 0 <= k < |notes| ==> notes[k].missingPct > 0.0
    decreases |fields|
  {
    if |fields| == 0 then []
    else
      var f := fields[0];
      var n := MissingCount(t.rows, f);
      var rest := MissingNotes(t, fields[1..]);
      if Has(t, f) && n > 0 then
        PctBound(n as real, |t.rows| as real);
        [MissingNote(TitleLabel(ColumnName(f)), n as real / |t.rows| as real * 100.0)] + rest
      else rest
  }

  /** The fields `MissingNotes` reports, as a subsequence of the fields asked about. */
  function NotedFields(t: Table, fields: seq<Field>): seq<Field>
    decreases |fields|
  {
    if |fields| == 0 then []
    else if Has(t, fields[0]) && MissingCount(t.rows, fields[0]) > 0 then [fields[0]] + NotedFields(t, fields[1..])
    else NotedFields(t, fields[1..])
  }

  /** A note is emitted for exactly the present fields with a missing cell, in the
      order asked, each with a share in (0, 100]. */
  lemma MissingNotesSpec(t: Table, fields: seq<Field>)
    ensures IsSubseq(NotedFields(t, fields), fields)
    ensures forall f :: f in NotedFields(t, fields) <==>
              f in fields && Has(t, f) && exists i :: 0 <= i < |t.rows| && Get(t.rows[i], f).None?
    ensures |MissingNotes(t, fields)| == |NotedFields(t, fields)|
    ensures forall k :: 0 <= k < |MissingNotes(t, fields)| ==>
              MissingNotes(t, fields)[k].title == TitleLabel(ColumnName(NotedFields(t, fields)[k])) &&
              0.0 < MissingNotes(t, fields)[k].missingPct <= 100.0
  {
    NotedFieldsInOrder(t, fields);
    NotedFieldsMembers(t, fields);
    MissingNotesFollowNoted(t, fields);
  }

  lemma {:induction false} NotedFieldsInOrder(t: Table, fields: seq<Field>)
    ensures IsSubseq(NotedFields(t, fields), fields)
    decreases |fields|
  {
    if |fields| > 0 {
      NotedFieldsInOrder(t, fields[1..]);
      var f := fields[0];
      if !(Has(t, f) && MissingCount(t.rows, f) > 0) {
        SubseqCons(NotedFields(t, fields[1..]), f, fields[1..]);
        assert [f] + fields[1..] == fields;
      }
    }
  }

  lemma {:induction false} NotedFieldsMembers(t: Table, fields: seq<Field>)
    ensures forall f :: f in NotedFields(t, fields) <==>
              f in fields && Has(t, f) && exists i :: 0 <= i < |t.rows| && Get(t.rows[i], f).None?
    decreases |fields|
  {
    if |fields| > 0 {
      NotedFieldsMembers(t, fields[1..]);
      assert fields == [fields[0]] + fields[1..];
    }
  }

  lemma {:induction false} MissingNotesFollowNoted(t: Table, fields: seq<Field>)
    ensures |MissingNotes(t, fields)| == |NotedFields(t, fields)|
    ensures forall k :: 0 <= k < |MissingNotes(t, fields)| ==>
              MissingNotes(t, fields)[k].title == TitleLabel(ColumnName(NotedFields(t, fields)[k])) &&
              0.0 < MissingNotes(t, fields)[k].missingPct <= 100.0
    decreases |fields|
  {
    if |fields| > 0 {
      MissingNotesFollowNoted(t, fields[1..]);
      var f := fields[0];
      var n := MissingCount(t.rows, f);
      if Has(t, f) && n > 0 {
        PctBound(n as real, |t.rows| as real);
      }
    }
  }

  /** `format(v, '.1f')` for a non-negative value: the value rounded to tenths, half
      to even, with one decimal. */
  function OneDecimal(v: real): (r: string)
    requires v >= 0.0
    ensures |r| >= 3 && r[|r| - 2] == '.'
  {
    var n: nat := RoundHalfEven(v * 10.0);
    NatToString(n / 10) + "." + [DigitChar(n % 10)]
  }

  /** One caption item: `"<Title> missing: <share>%"`. */
  function NoteText(n: MissingNote): string
    requires n.missingPct >= 0.0
  {
    n.title + " missing: " + OneDecimal(n.missingPct) + "%"
  }

  /** The caption items of notes whose shares are percentages. */
  function NoteTexts(notes: seq<MissingNote>): (ts: seq<string>)
    requires forall k :: 0 <= k < |notes| ==> notes[k].missingPct >= 0.0
    ensures |ts| == |notes|
    ensures forall k :: 0 <= k < |notes| ==> ts[k] == NoteText(notes[k])
  {
    seq(|notes|, k requires 0 <= k < |notes| => NoteText(notes[k]))
  }

  /** The data-quality caption of a list of fields: the items joined by " • ", shown
      only when there is at least one. */
  function DqCaption(t: Table, fields: seq<Field>): (c: Option<string>)
    ensures c.None? <==> |NotedFields(t, fields)| == 0
    ensures c.Some? ==> c.value == Join(NoteTexts(MissingNotes(t, fields)), Bullet)
  {
    MissingNotesSpec(t, fields);
    var notes := MissingNotes(t, fields);
    if |notes| == 0 then None else Some(Join(NoteTexts(notes), Bullet))
  }

  lemma PctBound(n: real, d: real)
    requires 0.0 < n <= d
    ensures 0.0 < n / d * 100.0 <= 100.0
  {
    assert n / d <= 1.0;
  }
}

=== FILE: vaccination.dfy ===
/** The Vaccination tab: per-country dose flow (allocated, deployed, administered),
    the three rates between the stages, the stock left at each stage, the alert line
    and the data-quality caption. */
module Vaccination {
  import opened Base
  import opened Floats
  import opened Table
  import opened Rules

  /** The columns the tab needs; without them it shows only an info message. */
  predicate HasFlowColumns(t: Table) {
    CountryCol in t.columns && Has(t, Allocated) && Has(t, Deployed) && Has(t, Administered)
  }

  /** One country's dose flow: group sums of the three stage columns. */
  datatype Flow = Flow(country: string, doses: real, deployed: real, administered: real)

  function FlowOf(rows: seq<Row>, c: string): (f: Flow)
    ensures f.country == c
  {
    Flow(c, SumFor(rows, c, Allocated), SumFor(rows, c, Deployed), SumFor(rows, c, Administered))
  }

  /** One flow per country group. */
  function Flows(rows: seq<Row>): (fs: seq<Flow>)
    ensures |fs| == |Countries(rows)|
    ensures forall i :: 0 <= i < |fs| ==> fs[i] == FlowOf(rows, Countries(rows)[i])
  {
    var cs := Countries(rows);
    seq(|cs|, i requires 0 <= i < |cs| => FlowOf(rows, cs[i]))
  }

  // ---------------------------------------------------------------------------
  // Rates

  /** `(num / den).replace([inf, -inf], nan) * 100`: a percentage, unknown when the
      denominator is 0 (0/0 is NaN already). */
  function RatePct(num: real, den: real): (r: Option<real>)
    ensures r.None? <==> den == 0.0
    ensures r.Some? ==> r.value * den == num * 100.0
  {
    var q := GuardedDiv(num, den);
    if q.Some? then
      assert q.value * den == num;
      assert (q.value * 100.0) * den == (q.value * den) * 100.0;
      Some(q.value * 100.0)
    else None
  }

  /** The rate columns, each `None` when NaN. */
  datatype Rates = Rates(deploymentPct: Option<real>, administrationPct: Option<real>, uptakePct: Option<real>)

  /** Deployment = deployed / allocated, administration = administered / deployed,
      uptake = administered / allocated, all in percent. */
  function RatesOf(f: Flow): (r: Rates)
    ensures r.deploymentPct.None? <==> f.doses == 0.0
    ensures r.administrationPct.None? <==> f.deployed == 0.0
    ensures r.uptakePct.None? <==> f.doses == 0.0
    ensures r.deploymentPct.Some? ==> r.deploymentPct.value * f.doses == f.deployed * 100.0
    ensures r.administrationPct.Some? ==> r.administrationPct.value * f.deployed == f.administered * 100.0
    ensures r.uptakePct.Some? ==> r.uptakePct.value * f.doses == f.administered * 100.0
  {
    Rates(RatePct(f.deployed, f.doses), RatePct(f.administered, f.deployed), RatePct(f.administered, f.doses))
  }

  /** Uptake is deployment times administration (as fractions) whenever all three are
      known. */
  lemma UptakeIsChained(f: Flow)
    requires f.doses != 0.0 && f.deployed != 0.0
    ensures RatesOf(f).uptakePct.value * 100.0 ==
              RatesOf(f).deploymentPct.value * RatesOf(f).administrationPct.value
  {
    var r := RatesOf(f);
    var d, a, u := r.deploymentPct.value, r.administrationPct.value, r.uptakePct.value;
    assert d == f.deployed * 100.0 / f.doses;
    assert a == f.administered * 100.0 / f.deployed;
    assert u == f.administered * 100.0 / f.doses;
    calc {
      d * a;
      (f.deployed * 100.0 / f.doses) * (f.administered * 100.0 / f.deployed);
      { assert f.deployed / f.deployed == 1.0; }
      f.administered * 100.0 * 100.0 / f.doses;
    }
  }

  // ---------------------------------------------------------------------------
  // Stock left at each stage

  /** Doses allocated but not deployed. */
  function Undeployed(f: Flow): real {
    f.doses - f.deployed
  }

  /** Doses deployed but not administered. */
  function NotAdministered(f: Flow): real {
    f.deployed - f.administered
  }

  /** The two stock gaps together are the allocated doses not administered, and each
      is zero exactly when its two stages agree. */
  lemma StockGapsAddUp(f: Flow)
    ensures Undeployed(f) + NotAdministered(f) == f.doses - f.administered
    ensures Undeployed(f) == 0.0 <==> f.doses == f.deployed
    ensures NotAdministered(f) == 0.0 <==> f.deployed == f.administered
  {
  }

  // ---------------------------------------------------------------------------
  // Alerts

  const AlertNegative := "Negative values detected"
  const AlertRates := "Rates exceed 110% (possible data issue)"
  const AlertExcess := "Administered exceeds deployed in some countries"

  /** Some country has a negative stage total. */
  predicate AnyNegative(fs: seq<Flow>) {
    exists i :: 0 <= i < |fs| && (fs[i].doses < 0.0 || fs[i].deployed < 0.0 || fs[i].administered < 0.0)
  }

  /** Some country's known deployment or administration rate is above 110%. */
  predicate AnyHighRate(fs: seq<Flow>) {
    exists i :: 0 <= i < |fs| &&
      (Above(Lift(RatesOf(fs[i]).deploymentPct), 110.0) || Above(Lift(RatesOf(fs[i]).administrationPct), 110.0))
  }

  /** Some country administered more than one dose beyond what it deployed. */
  predicate AnyExcess(fs: seq<Flow>) {
    exists i :: 0 <= i < |fs| && NotAdministered(fs[i]) < -1.0
  }

  /** An optional rate as a float: unknown is NaN. */
  function Lift(o: Option<real>): (n: Num)
    ensures n.Fin? <==> o.Some?
    ensures o.Some? ==> n.v == o.value
  {
    if o.Some? then Fin(o.value) else NaN
  }

  function AlertRules(fs: seq<Flow>): seq<Rule> {
    [Rule(AnyNegative(fs), AlertNegative), Rule(AnyHighRate(fs), AlertRates), Rule(AnyExcess(fs), AlertExcess)]
  }

  /** The alerts, in the order the checks run. */
  function Alerts(fs: seq<Flow>): (alerts: seq<string>)
    ensures |alerts| <= 3
  {
    Fired(AlertRules(fs))
  }

  /** The alert line under the charts, shown only when some alert fires. */
  function AlertLine(fs: seq<Flow>): (line: Option<string>)
    ensures line.None? <==> |Alerts(fs)| == 0
    ensures line.Some? ==> line.value == "Alerts: " + Join(Alerts(fs), Bullet)
  {
    var alerts := Alerts(fs);
    if |alerts| == 0 then None else Some("Alerts: " + Join(alerts, Bullet))
  }

  lemma AlertMessagesDistinct(fs: seq<Flow>)
    ensures MessageOnlyAt(AlertRules(fs), 0)
    ensures MessageOnlyAt(AlertRules(fs), 1)
    ensures MessageOnlyAt(AlertRules(fs), 2)
  {
    assert |AlertNegative| == 24 && |AlertRates| == 39 && |AlertExcess| == 47;
  }

  /** Each alert appears exactly when its check holds, and they keep the order
      negative values, high rates, excess administration. */
  lemma AlertsSpec(fs: seq<Flow>)
    ensures AlertNegative in Alerts(fs) <==> AnyNegative(fs)
    ensures AlertRates in Alerts(fs) <==> AnyHighRate(fs)
    ensures AlertExcess in Alerts(fs) <==> AnyExcess(fs)
    ensures IsSubseq(Alerts(fs), [AlertNegative, AlertRates, AlertExcess])
  {
    var rules := AlertRules(fs);
    AlertMessagesDistinct(fs);
    FiredIffFires(rules, 0);
    FiredIffFires(rules, 1);
    FiredIffFires(rules, 2);
    FiredInRuleOrder(rules);
    assert Messages(rules) == [AlertNegative, AlertRates, AlertExcess];
  }

  /** With doses deployed, the excess check trips exactly when the administration
      rate exceeds 100% by more than one dose's share, so it implies a rate above 100%. */
  lemma ExcessIffRateOver(f: Flow)
    requires f.deployed > 0.0
    ensures NotAdministered(f) < -1.0 <==> RatesOf(f).administrationPct.value > 100.0 + 100.0 / f.deployed
    ensures NotAdministered(f) < -1.0 ==> RatesOf(f).administrationPct.value > 100.0
  {
    ExcessArith(f.administered, f.deployed, RatesOf(f).administrationPct.value);
  }

  lemma ExcessArith(administered: real, d: real, a: real)
    requires d > 0.0 && a * d == administered * 100.0
    ensures d - administered < -1.0 <==> a > 100.0 + 100.0 / d
    ensures d - administered < -1.0 ==> a > 100.0
  {
    var k := 100.0 + 100.0 / d;
    assert k * d == 100.0 * d + 100.0;
    CompareScaled(a, k, d);
    CompareScaled(a, 100.0, d);
  }

  /** Multiplying by a positive factor keeps a strict order. */
  lemma CompareScaled(x: real, y: real, d: real)
    requires d > 0.0
    ensures x > y <==> x * d > y * d
  {
    if x > y {
      assert (x - y) * d > 0.0;
    } else {
      assert (y - x) * d >= 0.0;
    }
  }

  // ---------------------------------------------------------------------------
  // The tab

  /** The fields of the data-quality caption, in order. */
  const DqFields: seq<Field> := [Allocated, Deployed, Administered]

  datatype View =
    | NeedsColumns
    | Shown(flows: seq<Flow>, rates: seq<Rates>, alertLine: Option<string>, dqLine: Option<string>)

  /** `vaccination_tab`: nothing but an info message without the flow columns. */
  function VaccinationView(t: Table): (v: View)
    ensures v.NeedsColumns? <==> !HasFlowColumns(t)
    ensures v.Shown? ==> |v.flows| == |v.rates| == |Countries(t.rows)|
    ensures v.Shown? ==> forall i :: 0 <= i < |v.flows| ==>
              v.flows[i] == FlowOf(t.rows, Countries(t.rows)[i]) && v.rates[i] == RatesOf(v.flows[i])
    ensures v.Shown? ==> v.alertLine == AlertLine(v.flows) && v.dqLine == DqCaption(t, DqFields)
  {
    if !HasFlowColumns(t) then NeedsColumns
    else
      var fs := Flows(t.rows);
      Shown(fs, seq(|fs|, i requires 0 <= i < |fs| => RatesOf(fs[i])), AlertLine(fs), DqCaption(t, DqFields))
  }

  /** In the shown tab all three caption columns exist, so the caption names exactly
      the stage columns with a missing cell, in stage order. */
  lemma DqCaptionSpec(t: Table)
    requires HasFlowColumns(t)
    ensures IsSubseq(NotedFields(t, DqFields), DqFields)
    ensures forall f :: f in NotedFields(t, DqFields) <==>
              f in DqFields && exists i :: 0 <= i < |t.rows| && Get(t.rows[i], f).None?
    ensures VaccinationView(t).dqLine.None? <==>
              forall f, i :: f in DqFields && 0 <= i < |t.rows| ==> Get(t.rows[i], f).Some?
  {
    MissingNotesSpec(t, DqFields);
    if VaccinationView(t).dqLine.Some? {
      var f := NotedFields(t, DqFields)[0];
      assert f in NotedFields(t, DqFields);
    }
  }
}

=== FILE: weekly.dfy ===
/** The weekly case series behind the insights page. When the table reports weekly new
    cases they are summed per (country, week); otherwise each country's daily confirmed
    totals are turned into incidents (by differencing when the series looks cumulative)
    and summed per week. Weeks start on Monday. Also the 4-week growth rate. */
module Weekly {
  import opened Base
  import opened Grouping
  import opened Table
  import Schema

  /** Which series the page can build from the table's columns. */
  datatype Source = Reported | FromConfirmed | NoSeries

  function SourceOf(columns: set<string>): (s: Source)
    ensures s.Reported? <==> ColumnName(WeeklyNew) in columns
    ensures s.FromConfirmed? <==> ColumnName(WeeklyNew) !in columns && ReportDateCol in columns
  {
    if ColumnName(WeeklyNew) in columns then Reported
    else if ReportDateCol in columns then FromConfirmed
    else NoSeries
  }

  // ---------------------------------------------------------------------------
  // Reported weekly new cases

  /** Each row keyed by the week of its report date when it belongs to `c`
      (undated rows are dropped), carrying its weekly new cases. */
  function ReportedEntries(rows: seq<Row>, c: string): (es: seq<Entry<int>>)
    ensures |es| == |rows|
    ensures forall i :: 0 <= i < |rows| ==>
              es[i] == Entry(if rows[i].country == Some(c) && rows[i].reportDate.Some?
                             then Some(Schema.WeekStart(rows[i].reportDate.value)) else None,
                             ValueOf(rows[i], WeeklyNew))
  {
    seq(|rows|, i requires 0 <= i < |rows| =>
      Entry(if rows[i].country == Some(c) && rows[i].reportDate.Some?
            then Some(Schema.WeekStart(rows[i].reportDate.value)) else None,
            ValueOf(rows[i], WeeklyNew)))
  }

  // ---------------------------------------------------------------------------
  // Weekly incidents from daily confirmed totals

  /** Each of `c`'s dated rows keyed by its report day, carrying its confirmed cases. */
  function DailyEntries(rows: seq<Row>, c: string): (es: seq<Entry<int>>)
    ensures |es| == |rows|
    ensures forall i :: 0 <= i < |rows| ==>
              es[i] == Entry(if rows[i].country == Some(c) then rows[i].reportDate else None,
                             ValueOf(rows[i], Confirmed))
  {
    seq(|rows|, i requires 0 <= i < |rows| =>
      Entry(if rows[i].country == Some(c) then rows[i].reportDate else None, ValueOf(rows[i], Confirmed)))
  }

  /** `c`'s report days, ascending. */
  function Days(rows: seq<Row>, c: string): seq<int> {
    SortedKeys(DailyEntries(rows, c))
  }

  /** `c`'s confirmed cases summed per report day, in day order. */
  function DailyTotals(rows: seq<Row>, c: string): (v: seq<real>)
    ensures |v| == |Days(rows, c)|
  {
    Totals(Days(rows, c), DailyEntries(rows, c))
  }

  /** `diff().fillna(0)`: day-over-day changes with the first counted as 0. */
  function Diffs(v: seq<real>): (d: seq<real>)
    ensures |d| == |v|
    ensures |v| > 0 ==> d[0] == 0.0
    ensures forall i :: 0 < i < |v| ==> d[i] == v[i] - v[i - 1]
  {
    seq(|v|, i requires 0 <= i < |v| => if i == 0 then 0.0 else v[i] - v[i - 1])
  }

  /** The number of non-negative entries. */
  function NonNegativeCount(d: seq<real>): (n: nat)
    ensures n <= |d|
    decreases |d|
  {
    if |d| == 0 then 0
    else NonNegativeCount(d[..|d| - 1]) + (if d[|d| - 1] >= 0.0 then 1 else 0)
  }

  /** The share of non-negative changes is at least 0.8 (an empty series has a NaN
      share, which fails the comparison). */
  predicate LooksCumulative(v: seq<real>) {
    |v| > 0 && 5 * NonNegativeCount(Diffs(v)) >= 4 * |v|
  }

  /** `clip(lower=0)`. */
  function ClipAtZero(x: real): (r: real)
    ensures r >= 0.0
    ensures x >= 0.0 ==> r == x
  {
    if x < 0.0 then 0.0 else x
  }

  /** Daily incidents: clipped changes for a cumulative series, the values themselves
      otherwise. */
  function Incidents(v: seq<real>): (r: seq<real>)
    ensures |r| == |v|
  {
    if LooksCumulative(v) then seq(|v|, i requires 0 <= i < |v| => ClipAtZero(Diffs(v)[i]))
    else v
  }

  /** Each day keyed by the week it falls in, carrying that day's incidents. */
  function WeekEntries(days: seq<int>, incidents: seq<real>): (es: seq<Entry<int>>)
    requires |days| == |incidents|
    ensures |es| == |days|
    ensures forall i :: 0 <= i < |days| ==> es[i] == Entry(Some(Schema.WeekStart(days[i])), incidents[i])
  {
    seq(|days|, i requires 0 <= i < |days| => Entry(Some(Schema.WeekStart(days[i])), incidents[i]))
  }

  /** Per-(week) sums of a keyed series, weeks ascending. */
  function WeeklyTotals(es: seq<Entry<int>>): (w: seq<real>)
    ensures |w| == |SortedKeys(es)|
  {
    Totals(SortedKeys(es), es)
  }

  function WeeklyFromConfirmed(rows: seq<Row>, c: string): seq<real> {
    var days := Days(rows, c);
    WeeklyTotals(WeekEntries(days, Incidents(DailyTotals(rows, c))))
  }

  /** Country `c`'s weekly series in week order; empty when the table supports none. */
  function WeeklySeries(t: Table, c: string): (s: seq<real>)
    ensures SourceOf(t.columns) == NoSeries ==> s == []
  {
    match SourceOf(t.columns)
    case Reported => WeeklyTotals(ReportedEntries(t.rows, c))
    case FromConfirmed => WeeklyFromConfirmed(t.rows, c)
    case NoSeries => []
  }

  // ---------------------------------------------------------------------------
  // 4-week growth

  /** (last - first) / max(first, 1) over the last (up to) four weeks; unknown for a
      country without a weekly series. */
  function Growth4w(s: seq<real>): (g: Option<real>)
    ensures g.None? <==> |s| == 0
    ensures |s| > 0 ==>
              var first := if |s| <= 4 then s[0] else s[|s| - 4];
              var last := s[|s| - 1];
              (g.value > 0.0 <==> last > first) && (g.value < 0.0 <==> last < first)
  {
    if |s| == 0 then None
    else
      var recent := if |s| <= 4 then s else s[|s| - 4..];
      var first := recent[0];
      var last := recent[|recent| - 1];
      var denom := if 1.0 > first then 1.0 else first;
      assert denom >= 1.0;
      Some((last - first) / denom)
  }

  /** A country's growth as merged into the country table. */
  function CountryGrowth(t: Table, c: string): Option<real> {
    Growth4w(WeeklySeries(t, c))
  }

  // ---------------------------------------------------------------------------
  // Properties

  /** A single week gives zero growth. */
  lemma GrowthOfSingleWeek(x: real)
    ensures Growth4w([x]) == Some(0.0)
  {
  }

  /** Only the last four weeks matter. */
  lemma GrowthUsesLastFourWeeks(earlier: seq<real>, s: seq<real>)
    requires |s| >= 4
    ensures Growth4w(earlier + s) == Growth4w(s)
  {
    var all := earlier + s;
    assert all[|all| - 4..] == s[|s| - 4..];
  }

  /** Over non-negative weekly counts growth never drops below -1 (a full collapse). */
  lemma GrowthAtLeastMinusOne(s: seq<real>)
    requires |s| > 0
    requires forall i :: 0 <= i < |s| ==> s[i] >= 0.0
    ensures Growth4w(s).value >= -1.0
  {
    var recent := if |s| <= 4 then s else s[|s| - 4..];
    var first := recent[0];
    var last := recent[|recent| - 1];
    var denom := if 1.0 > first then 1.0 else first;
    assert last - first >= -denom;
    assert (last - first) / denom >= -denom / denom;
  }

  /** A never-decreasing daily series is detected as cumulative. */
  lemma NonDecreasingLooksCumulative(v: seq<real>)
    requires |v| > 0
    requires forall i :: 0 < i < |v| ==> v[i - 1] <= v[i]
    ensures LooksCumulative(v)
  {
    AllNonNegativeCount(Diffs(v));
  }

  lemma {:induction false} AllNonNegativeCount(d: seq<real>)
    requires forall i :: 0 <= i < |d| ==> d[i] >= 0.0
    ensures NonNegativeCount(d) == |d|
    decreases |d|
  {
    if |d| > 0 {
      AllNonNegativeCount(d[..|d| - 1]);
    }
  }

  /** Cumulative-mode incidents are never negative; in the other mode the daily values
      pass through unchanged, negative corrections included. */
  lemma IncidentsByMode(v: seq<real>)
    ensures LooksCumulative(v) ==> forall i :: 0 <= i < |v| ==> Incidents(v)[i] >= 0.0
    ensures LooksCumulative(v) ==> Incidents(v)[0] == 0.0
    ensures !LooksCumulative(v) ==> Incidents(v) == v
  {
  }

  /** The clipped changes of a series. */
  function ClippedChanges(v: seq<real>): (r: seq<real>)
    ensures |r| == |v|
    ensures |v| > 0 ==> r[0] == 0.0
    ensures forall i :: 0 < i < |v| ==> r[i] == ClipAtZero(v[i] - v[i - 1])
  {
    seq(|v|, i requires 0 <= i < |v| => ClipAtZero(Diffs(v)[i]))
  }

  /** For a never-decreasing cumulative series the incidents telescope: they add up to
      the growth of the running total between the first and last report day. */
  lemma {:induction false} CumulativeIncidentsTelescope(v: seq<real>)
    requires |v| > 0
    requires forall i :: 0 < i < |v| ==> v[i - 1] <= v[i]
    ensures Sum(Incidents(v)) == v[|v| - 1] - v[0]
  {
    NonDecreasingLooksCumulative(v);
    assert Incidents(v) == ClippedChanges(v);
    ClippedChangesTelescope(v);
  }

  lemma {:induction false} ClippedChangesTelescope(v: seq<real>)
    requires |v| > 0
    requires forall i :: 0 < i < |v| ==> v[i - 1] <= v[i]
    ensures Sum(ClippedChanges(v)) == v[|v| - 1] - v[0]
    decreases |v|
  {
    if |v| > 1 {
      var n := |v| - 1;
      var init := v[..n];
      assert forall i :: 0 < i < |init| ==> init[i - 1] <= init[i] by {
        assert forall i :: 0 <= i < |init| ==> init[i] == v[i];
      }
      ClippedChangesTelescope(init);
      ClippedChangesPrefix(v);
      var cc := ClippedChanges(v);
      assert Sum(cc) == Sum(cc[..n]) + cc[n];
      assert init[n - 1] == v[n - 1] && init[0] == v[0];
    }
  }

  lemma ClippedChangesPrefix(v: seq<real>)
    requires |v| > 0
    ensures ClippedChanges(v)[..|v| - 1] == ClippedChanges(v[..|v| - 1])
  {
    var n := |v| - 1;
    var init := v[..n];
    var cc, ci := ClippedChanges(v), ClippedChanges(init);
    forall i | 0 <= i < n
      ensures cc[i] == ci[i]
    {
      if i > 0 {
        assert init[i] == v[i] && init[i - 1] == v[i - 1];
      }
    }
  }

  /** The values an entry list carries, in order. */
  function Vals<K>(es: seq<Entry<K>>): (vs: seq<real>)
    ensures |vs| == |es|
    ensures forall i :: 0 <= i < |es| ==> vs[i] == es[i].val
  {
    seq(|es|, i requires 0 <= i < |es| => es[i].val)
  }

  /** Summing entries that all carry a key counts every value once. */
  lemma {:induction false} KeyedSumOfKeyed(es: seq<Entry<int>>)
    requires forall i :: 0 <= i < |es| ==> es[i].key.Some?
    ensures KeyedSum(es) == Sum(Vals(es))
    decreases |es|
  {
    if |es| > 0 {
      var init := es[..|es| - 1];
      KeyedSumOfKeyed(init);
      assert Vals(es)[..|es| - 1] == Vals(init);
    }
  }

  /** Bucketing by week loses nothing: the weekly totals add up to the daily incidents. */
  lemma WeeklyTotalsKeepIncidents(days: seq<int>, incidents: seq<real>)
    requires |days| == |incidents|
    ensures Sum(WeeklyTotals(WeekEntries(days, incidents))) == Sum(incidents)
  {
    var es := WeekEntries(days, incidents);
    SortedGroupSumsCoverAll(es);
    WeekEntriesKeyed(days, incidents);
  }

  lemma WeekEntriesKeyed(days: seq<int>, incidents: seq<real>)
    requires |days| == |incidents|
    ensures KeyedSum(WeekEntries(days, incidents)) == Sum(incidents)
  {
    var es := WeekEntries(days, incidents);
    KeyedSumOfKeyed(es);
    assert Vals(es) == incidents;
  }

  /** In incident mode the weekly series carries exactly the country's dated
      confirmed cases. */
  lemma IncidentWeeklyTotal(rows: seq<Row>, c: string)
    requires !LooksCumulative(DailyTotals(rows, c))
    ensures Sum(WeeklyFromConfirmed(rows, c)) == KeyedSum(DailyEntries(rows, c))
  {
    var days := Days(rows, c);
    var v := DailyTotals(rows, c);
    assert Sum(WeeklyFromConfirmed(rows, c)) == Sum(v) by {
      WeeklyTotalsKeepIncidents(days, Incidents(v));
    }
    assert Sum(v) == KeyedSum(DailyEntries(rows, c)) by {
      IncreasingIsDistinct(days);
      PartitionSum(days, DailyEntries(rows, c));
    }
  }

  /** For a never-decreasing daily total the weekly series carries the rise of that
      total from the first to the last report day. */
  lemma CumulativeWeeklyTotal(rows: seq<Row>, c: string)
    requires var v := DailyTotals(rows, c); |v| > 0 && forall i :: 0 < i < |v| ==> v[i - 1] <= v[i]
    ensures var v := DailyTotals(rows, c); Sum(WeeklyFromConfirmed(rows, c)) == v[|v| - 1] - v[0]
  {
    var days := Days(rows, c);
    var v := DailyTotals(rows, c);
    assert Sum(WeeklyFromConfirmed(rows, c)) == Sum(Incidents(v)) by {
      WeeklyTotalsKeepIncidents(days, Incidents(v));
    }
    CumulativeIncidentsTelescope(v);
  }

  /** A country has a weekly series (and so a known growth) exactly when the table
      supports one and the country has at least one dated row. */
  lemma GrowthKnownIffDatedRows(t: Table, c: string)
    ensures CountryGrowth(t, c).Some? <==>
              !SourceOf(t.columns).NoSeries? &&
              exists i :: 0 <= i < |t.rows| && t.rows[i].country == Some(c) && t.rows[i].reportDate.Some?
  {
    match SourceOf(t.columns)
    case NoSeries =>
    case Reported => ReportedSeriesNonEmpty(t.rows, c);
    case FromConfirmed => ConfirmedSeriesNonEmpty(t.rows, c);
  }

  predicate HasDatedRow(rows: seq<Row>, c: string) {
    exists i :: 0 <= i < |rows| && rows[i].country == Some(c) && rows[i].reportDate.Some?
  }

  lemma ReportedSeriesNonEmpty(rows: seq<Row>, c: string)
    ensures |WeeklyTotals(ReportedEntries(rows, c))| > 0 <==> HasDatedRow(rows, c)
  {
    var es := ReportedEntries(rows, c);
    if HasDatedRow(rows, c) {
      var i :| 0 <= i < |rows| && rows[i].country == Some(c) && rows[i].reportDate.Some?;
      assert es[i].key == Some(Schema.WeekStart(rows[i].reportDate.value));
      assert Schema.WeekStart(rows[i].reportDate.value) in SortedKeys(es);
    }
  }

  lemma ConfirmedSeriesNonEmpty(rows: seq<Row>, c: string)
    ensures |WeeklyFromConfirmed(rows, c)| > 0 <==> HasDatedRow(rows, c)
  {
    var days := Days(rows, c);
    var wes := WeekEntries(days, Incidents(DailyTotals(rows, c)));
    if HasDatedRow(rows, c) {
      var i :| 0 <= i < |rows| && rows[i].country == Some(c) && rows[i].reportDate.Some?;
      assert DailyEntries(rows, c)[i].key == rows[i].reportDate;
      assert rows[i].reportDate.value in days;
      assert wes[0].key.Some?;
      assert wes[0].key.value in SortedKeys(wes);
    } else {
      assert |days| == 0;
    }
  }
}

=== FILE: workforce.dfy ===
/** The Workforce tab: per-country community health worker totals against cases, and
    the data-quality caption. */
module Workforce {
  import opened Base
  import opened Floats
  import opened Grouping
  import opened Table

  /** The columns the tab needs; without them it shows only an info message. */
  predicate HasWorkforceColumns(t: Table) {
    CountryCol in t.columns && Has(t, TrainedChws) && Has(t, DeployedChws) && Has(t, Confirmed)
  }

  /** One country's group sums and the two per-case ratios (`None` where NaN). */
  datatype Staffing = Staffing(
    country: string,
    trained: real,
    deployed: real,
    cases: real,
    deployedPerCase: Option<real>,
    trainedPerCase: Option<real>)

  /** `(x / cases).replace([inf, -inf], nan)`: unknown when the cases sum to 0. */
  function StaffingOf(rows: seq<Row>, c: string): (s: Staffing)
    ensures s.country == c
    ensures s.trained == SumFor(rows, c, TrainedChws)
    ensures s.deployed == SumFor(rows, c, DeployedChws)
    ensures s.cases == SumFor(rows, c, Confirmed)
    ensures s.deployedPerCase.None? <==> s.cases == 0.0
    ensures s.trainedPerCase.None? <==> s.cases == 0.0
    ensures s.deployedPerCase.Some? ==> s.deployedPerCase.value * s.cases == s.deployed
    ensures s.trainedPerCase.Some? ==> s.trainedPerCase.value * s.cases == s.trained
  {
    var trained := SumFor(rows, c, TrainedChws);
    var deployed := SumFor(rows, c, DeployedChws);
    var cases := SumFor(rows, c, Confirmed);
    Staffing(c, trained, deployed, cases, GuardedDiv(deployed, cases), GuardedDiv(trained, cases))
  }

  /** The fields of the data-quality caption, in order. */
  const DqFields: seq<Field> := [TrainedChws, DeployedChws, Confirmed]

  datatype View = NeedsColumns | Shown(staffing: seq<Staffing>, dqLine: Option<string>)

  /** `workforce_tab`: nothing but an info message without the four columns. */
  function WorkforceView(t: Table): (v: View)
    ensures v.NeedsColumns? <==> !HasWorkforceColumns(t)
    ensures v.Shown? ==> |v.staffing| == |Countries(t.rows)|
    ensures v.Shown? ==> forall i :: 0 <= i < |v.staffing| ==>
              v.staffing[i] == StaffingOf(t.rows, Countries(t.rows)[i])
    ensures v.Shown? ==> v.dqLine == DqCaption(t, DqFields)
  {
    if !HasWorkforceColumns(t) then NeedsColumns
    else
      var cs := Countries(t.rows);
      Shown(seq(|cs|, i requires 0 <= i < |cs| => StaffingOf(t.rows, cs[i])), DqCaption(t, DqFields))
  }

  /** When every row names its country, the per-country worker and case totals add up
      to the column totals. */
  lemma StaffingAddsUp(t: Table)
    requires HasWorkforceColumns(t)
    requires forall i :: 0 <= i < |t.rows| ==> t.rows[i].country.Some?
    ensures Sum(Totals(Countries(t.rows), Column(t.rows, TrainedChws))) == ColumnSum(t.rows, TrainedChws)
    ensures Sum(Totals(Countries(t.rows), Column(t.rows, DeployedChws))) == ColumnSum(t.rows, DeployedChws)
    ensures Sum(Totals(Countries(t.rows), Column(t.rows, Confirmed))) == ColumnSum(t.rows, Confirmed)
  {
    CountrySumsAddUp(t.rows, TrainedChws);
    CountrySumsAddUp(t.rows, DeployedChws);
    CountrySumsAddUp(t.rows, Confirmed);
  }

  /** Between countries with the same positive case count, the per-case ratio orders
      them as their worker totals do. */
  lemma PerCaseOrder(rows: seq<Row>, c: string, d: string)
    requires SumFor(rows, c, Confirmed) == SumFor(rows, d, Confirmed) > 0.0
    ensures StaffingOf(rows, c).deployedPerCase.value < StaffingOf(rows, d).deployedPerCase.value <==>
              SumFor(rows, c, DeployedChws) < SumFor(rows, d, DeployedChws)
  {
    var a, b := StaffingOf(rows, c), StaffingOf(rows, d);
    var x, y, n := a.deployedPerCase.value, b.deployedPerCase.value, a.cases;
    if x < y {
      assert (y - x) * n > 0.0;
    } else {
      assert (x - y) * n >= 0.0;
    }
  }

  /** The caption names exactly the three columns with a missing cell, in the order
      trained, deployed, cases. */
  lemma DqCaptionSpec(t: Table)
    requires HasWorkforceColumns(t)
    ensures IsSubseq(NotedFields(t, DqFields), DqFields)
    ensures forall f :: f in NotedFields(t, DqFields) <==>
              f in DqFields && exists i :: 0 <= i < |t.rows| && Get(t.rows[i], f).None?
  {
    MissingNotesSpec(t, DqFields);
  }
}
